=== FILE: README.md ===
# sentio, modelled in Dafny

sentio is a personal productivity web app with tasks, habits, a mood journal
and a focus timer. This project models its client-side logic as pure Dafny
functions over immutable data and proves what that logic promises.

The modelled logic covers:

- **Habit analytics.** The completion set of a habit, and the streak anchored
  at today or yesterday (`getHabitStats`, modelled by the method
  `HabitUtils.GetHabitStats` and its loop invariants). Also the four numbers
  of the statistics card, the month grid of the calendar, and the 14-day chart.
- **The dashboard.**
  - Today's tasks: a task's `date`, or failing that its `dueDate`, falls on
    today.
  - Today's habits: the frequency tokens, upper-cased, contain `DAILY` or
    today's `SUN`..`SAT` name.
  - Project grouping, with "General" first.
  - Done-today checks.
- **Task classification.**
  - The urgent/important switches map to a priority.
  - Eisenhower quadrants and their badges.
  - Kanban columns and drop handling.
  - Case-insensitive title search.
  - Grouping by project, in string order after "General". A project named
    after a key that every object inherits (such as "constructor") makes the
    source's `reduce` throw, and the model shows no groups in that case.
- **Completion with a mood.** This covers the dashboard, the tasks page's
  list view, the habits page and the task details. There, completing an item
  only opens the mood prompt. Choosing a mood logs a value from 1 to 5 with the note
  `Completed task: <title>` or `Completed habit: <title>`, and only then
  completes the item. Un-completing writes at once. Handlers return the
  writes they request as `MoodProtocol.Effect` values instead of performing
  them. The tasks page's board and matrix views are different: a drop on the
  board or a matrix checkbox writes `completed` directly, with no prompt and
  no mood.
- **The mood page.**
  - The seven-day strip of rounded daily averages.
  - The fourteen-day chart of exact averages.
  - The happy and drained task insights, which recover the task title from
    the note.
  - Today's latest mood.
- **The forms.**
  - The task form: priority mapping, the blank-title guard, empty optional
    fields sent as absent, label toggling, and the reset.
  - The habit form: day toggling, the Mon/Wed/Fri default, the frequency
    encoding, the blank-title guard, and the reset.
- **The focus timer.** It is a step function for the one-second tick. It also
  covers reset, mode switch, duration edits through `parseInt`, and `mm:ss`
  formatting. That formatting is proved to round-trip.
- **The route guard** (`proxy.ts`): the public-path test and the
  redirect-or-pass decision.
- **The local store** (`store/useStore.ts`): add, toggle, update and delete
  for tasks, habits and categories, and the naive streak counter.
- **The seed script's pure parts.** The `.env` line parser and the water
  habit's seeded logs.

A calendar day is an integer counting days since 1970-01-01. An instant is an
integer count of milliseconds, and `Calendar.DayOfInstant` maps it to its day.
Two dates share a `yyyy-MM` prefix exactly when `Calendar.MonthOf` gives them
the same month index.

The habit form stores custom days as the digit strings `"0"`..`"6"`. The
dashboard compares frequency tokens with `"MON"`-style day names. So a habit
created with custom days is never listed among today's habits. The model
reproduces this as the code has it, and `Dashboard.CustomDayHabitNeverListed`
proves it for every such habit and every day.

## Model

| member | source | states |
|---|---|---|
| Calendar.DayOfInstant | lib/habit-utils.ts:8 | the day of an instant is the one whose millisecond span contains it |
| Calendar.Weekday | app/page.tsx:76 | the day of the week lies in 0..6, Sunday being 0 |
| Text.TrimStart | components/tasks/task-form.tsx:29 | the leading part of `trim`: only JavaScript white space is dropped, and the result does not start with any |
| Text.TrimEnd | components/tasks/task-form.tsx:29 | the trailing part of `trim`: only JavaScript white space is dropped, and the result does not end with any |
| Text.Trim | components/tasks/task-form.tsx:29 | `trim`: never longer than the input, white space at neither end, and empty exactly when the input is all white space |
| Text.ToLower | components/tasks/task-list.tsx:27 | `toLowerCase` on ASCII: same length, no upper-case letter left, and each character differs from the input's only in letter case |
| Text.PadStart2 | app/focus/page.tsx:82-84 | `padStart(2, "0")`: the string is kept as the suffix and only zeros are added, up to two characters |
| Text.NatToString | app/focus/page.tsx:82-83 | `toString` of a number is digits without a leading zero |
| Text.ParseNatToString | app/focus/page.tsx:82-83 | reading back a number's decimal form gives the number |
| Text.ReplacePrefixRecovers | app/mood/page.tsx:118 | removing the prefix a string starts with leaves exactly the rest |
| Text.ReplaceFirst | app/mood/page.tsx:118 | `replace` with a string pattern: unchanged when the pattern does not occur, otherwise exactly its first occurrence is replaced |
| Text.LexLess | components/tasks/task-list.tsx:45 | code-point order standing in for `localeCompare`; it has no contract of its own, and the next four rows state its order laws |
| Text.LexLessIrreflexive | components/tasks/task-list.tsx:45 | no string comes before itself |
| Text.LexLessTransitive | components/tasks/task-list.tsx:45 | the order is transitive |
| Text.LexLessTotal | components/tasks/task-list.tsx:45 | of two different strings one comes first |
| Text.LexLessAsymmetric | components/tasks/task-list.tsx:45 | never both ways round |
| HabitUtils.CompletedDates | lib/habit-utils.ts:4-9 | a day is in the set exactly when some log with `completed` set falls on it; the set is no larger than the number of completed logs |
| HabitUtils.CompletedDatesMonotone | lib/habit-utils.ts:4-9 | adding logs never removes a completed day |
| HabitUtils.StreakStart | lib/habit-utils.ts:25-35 | the walk starts today if today is completed, else yesterday if that is completed, else there is no streak |
| HabitUtils.RunLength | lib/habit-utils.ts:38-46 | the count of consecutive completed days ending at a day: all of them are in the set and the day before is not |
| HabitUtils.RunUnique | lib/habit-utils.ts:38-46 | only one run length fits a given end day |
| HabitUtils.GetHabitStats | lib/habit-utils.ts:3-49 | the loop that walks back from the start day returns the completion set and the run length from the start day |
| HabitUtils.StreakAtMostSetSize | lib/habit-utils.ts:38-46 | the streak is at most the number of completed days |
| HabitUtils.StreakZeroWithoutRecentCheckIn | lib/habit-utils.ts:27-35 | with neither today nor yesterday completed the streak is 0, whatever older history exists |
| HabitUtils.StreakIsRun | lib/habit-utils.ts:25-46 | a positive streak exactly when today or yesterday is completed, and it is the run ending at that day |
| HabitUtils.Streak | lib/habit-utils.ts:12-48 | the streak of a completion set as of today; it has no contract of its own, and StreakIsRun, StreakAtMostSetSize and StreakExtendsWhenTodayCompleted state what it is |
| HabitUtils.ServedLogs | app/api/habits/route.ts:20-27 | the logs the habits route returns: exactly the stored logs dated from seven days before today onwards |
| HabitUtils.ServedDates | app/api/habits/route.ts:20-27 | the client's completion set is the stored one cut to those days |
| HabitUtils.StreakExtendsWhenTodayCompleted | lib/habit-utils.ts:27-31 | checking in today on a streak alive through yesterday adds exactly one |
| HabitUtils.StreakBoundaryExample | lib/habit-utils.ts:38-46 | completed on D and D-1 but not D-2 gives streak 2 |
| HabitUtils.StreakGapExample | lib/habit-utils.ts:32-35 | completed only on D-2 and D-3 gives streak 0 as of D |
| HabitUtils.StreakGraceExample | lib/habit-utils.ts:29-31 | not done today but done on the three days before gives streak 3 |
| HabitUtils.StreakOfConsecutiveDaysBefore | lib/habit-utils.ts:25-46 | n completed days right before today give streak n, and n + 1 once today is checked in |
| HabitUtils.LogsForDaysBeforeDates | lib/habit-utils.ts:4-9 | the completion set of n consecutive completed logs is exactly those n days |
| Calendar.DaysInMonth | components/habits/habit-stats.tsx:22-26 | 28 to 31 days, with 29 exactly for a leap-year February and 30 exactly for April, June, September and November |
| Calendar.MonthOf | components/habits/habit-stats.tsx:16-19 | the month index whose span of days contains the day; `MonthOfUnique` shows it is the only one |
| Calendar.MonthOfUnique | components/habits/habit-stats.tsx:16-19 | a day lies in month k exactly when `MonthOf` gives k |
| Calendar.MonthsAreContiguous | components/habits/habit-calendar.tsx:29-31 | each month starts the day after the previous one ends |
| Calendar.WeekdayNext | app/page.tsx:76 | consecutive days have consecutive weekdays, wrapping Saturday to Sunday |
| Calendar.WeekdayToken | app/page.tsx:76 | today's name is one of the seven three-letter upper-case names |
| HabitStatsCard.MonthlyCheckIns | components/habits/habit-stats.tsx:16-20 | the completed days of today's month number at most the completed days and at most the days of the month |
| HabitStatsCard.InMonthSetBound | components/habits/habit-stats.tsx:18-20 | no more check-ins in a month than it has days, nor more than there are check-ins |
| HabitStatsCard.MonthlyCheckInsCountsMonthSpan | components/habits/habit-stats.tsx:16-20 | counting by `yyyy-MM` prefix counts the completed days between the first and last day of the month |
| HabitStatsCard.MonthlyRate | components/habits/habit-stats.tsx:28 | the rate lies in 0..100 and is the nearest integer to 100 times the check-ins over the days in the month |
| HabitStatsCard.HalfMonthIsFiftyPercent | components/habits/habit-stats.tsx:28 | 15 check-ins in a 30-day month show 50 |
| HabitStatsCard.Card | components/habits/habit-stats.tsx:13-29 | the card's total is the size of the completion set; its monthly count is the number of completion days in today's month, so it is bounded by both the total and the month; its rate is that count's rounded percentage of the month's days, in 0..100; its streak is the habit's streak |
| JsMath.RoundDiv | components/habits/habit-stats.tsx:28 | `Math.round(a / b)`: the result is within half of a / b, halves rounding up |
| JsMath.RoundDivBetween | app/mood/page.tsx:82-84 | rounding a quotient that lies in [lo, hi] stays in [lo, hi] |
| HabitCalendar.Grid | components/habits/habit-calendar.tsx:28-38 | the grid is the weekday of the first of the month in blank cells, followed by every day of the month and only those |
| HabitCalendar.PaddingIsFirstWeekday | components/habits/habit-calendar.tsx:34-37 | at most six blank cells, then the first day of the month |
| HabitCalendar.DayCellsAscend | components/habits/habit-calendar.tsx:31-37 | day cells run one day apart in ascending order |
| HabitCalendar.StyleOf | components/habits/habit-calendar.tsx:85-99 | a cell is filled exactly when completed, and outlined exactly when it is today and not completed; never both |
| HabitCalendar.AddMonths | components/habits/habit-calendar.tsx:40-44 | moving by n months lands in the month n later, on the same day of the month when that month has it, and otherwise on that month's last day |
| HabitCalendar.ToggleMonth | components/habits/habit-calendar.tsx:40-44 | each arrow moves the shown month by one |
| HabitCalendar.ToggleMonthRoundTrip | components/habits/habit-calendar.tsx:40-44 | forward then back shows the same grid as before |
| HabitChart.Window | components/habits/habit-chart.tsx:24-37 | one point per day in order, valued 1 exactly when the day is completed and 0 otherwise |
| HabitChart.Series | components/habits/habit-chart.tsx:24-25 | fourteen points in ascending day order, ending today |
| HabitChart.SeriesPoint | components/habits/habit-chart.tsx:25-31 | point i is 13 - i days ago and is 1 exactly when that day is completed |
| HabitChart.WindowSum | components/habits/habit-chart.tsx:30-31 | the values of a window add up to the number of completed days in it |
| HabitChart.SeriesSumCountsRecentDays | components/habits/habit-chart.tsx:24-37 | the chart's points add up to the completed days of the last fourteen days |
| HabitChart.SeriesShowsStreak | components/habits/habit-chart.tsx:24-37 | with today done, the last min(streak, 14) points are 1, and the point just before the run is 0 |
| Dashboard.TargetDay | app/page.tsx:64 | the scheduled date when present, otherwise the due date |
| Dashboard.TodaysTasks | app/page.tsx:61-68 | keeps exactly the tasks whose target day is today |
| Dashboard.UndatedTaskNeverToday | app/page.tsx:65 | a task with neither date is never today's |
| Dashboard.DateTakesPrecedence | app/page.tsx:64-67 | a scheduled date other than today excludes the task, even when it is due today |
| Dashboard.TodaysGroupsHoldTodaysTasks | app/page.tsx:221-234 | when the groups are shown, a dashboard group holds exactly today's tasks whose project name is the group's, so every task of today lands in the group of its project |
| Dashboard.TodaysGroups | app/page.tsx:221-234 | nothing is shown exactly when one of today's tasks has a project named after an inherited `Object.prototype` key, where the `reduce` throws; otherwise today's tasks are grouped as in the task list |
| Dashboard.TodaysTasksBreakGrouping | app/page.tsx:221-226 | today's tasks break the grouping exactly when one of the tasks is today's and carries such a project name |
| Dashboard.UpperTokens | app/page.tsx:72 | the tokens upper-cased one by one |
| Dashboard.TodaysHabits | app/page.tsx:70-78 | keeps exactly the habits scheduled for today |
| Dashboard.DailyAnyCaseIsEveryDay | app/page.tsx:72-73 | a `DAILY` token in any letter case lists the habit every day |
| Dashboard.DailySpellings | app/page.tsx:72-73 | "daily", "Daily" and "DAILY" all upper-case to `DAILY` |
| Dashboard.ScheduledIffDayNamed | app/page.tsx:75-77 | without a `DAILY` token a habit is listed exactly when some token names today's weekday |
| Dashboard.IsScheduledToday | app/page.tsx:69-77 | the schedule test; it has no contract of its own, and DailyAnyCaseIsEveryDay, ScheduledIffDayNamed and ScheduleIsWeekly state it |
| Dashboard.ScheduleIsWeekly | app/page.tsx:70-78 | the schedule repeats every seven days |
| Dashboard.SingleCharacterTokensNeverScheduled | app/page.tsx:70-78 | tokens of one character never match |
| Dashboard.CustomDayHabitNeverListed | components/habits/habit-form.tsx:57-58 | a habit created with custom weekdays 0..6 is never listed on the dashboard |
| Dashboard.CompletedTodayIffInCompletionSet | app/page.tsx:306-311 | the done-today check agrees with the habit's completion set |
| Dashboard.IsCompletedToday | app/page.tsx:306-311 | the done-today test; it has no contract of its own, and CompletedTodayIffInCompletionSet ties it to the completion set |
| Dashboard.HandleTaskToggle | app/page.tsx:80-89 | completing only opens the prompt for that task; un-completing writes `completed = false` at once |
| Dashboard.HandleHabitToggle | app/page.tsx:91-112 | an unknown habit does nothing; completing opens the prompt remembering the click instant; un-completing writes at once |
| Dashboard.HandleMoodSelect | app/page.tsx:114-151 | with a subject, logs the mood value and the completion note, then exactly one completion effect: the task for a task subject, the habit on its remembered day for a habit subject with a date, none for a habit without one; closes the prompt; without a subject, nothing |
| Dashboard.CompleteTaskWithMood | app/page.tsx:80-151 | toggling an open task and choosing a mood logs that mood and then completes exactly that task |
| Dashboard.CompleteHabitWithMood | app/page.tsx:91-151 | the habit log is written at the instant of the click, not of the mood choice |
| Dashboard.UncompleteHabitWritesAtOnce | app/page.tsx:104-111 | un-completing a habit done today writes `completed = false` without a prompt |
| MoodProtocol.MoodValue | app/page.tsx:118-126 | the logged value lies in 1..5 |
| MoodProtocol.NoMoodIsNeutral | app/page.tsx:126 | no mood logs as neutral, 3 |
| MoodProtocol.MoodValueClasses | app/mood/page.tsx:113-128 | values of 4 or more exactly for happy, excited and active, 2 or less exactly for sad and tired, 3 exactly for neutral or none |
| MoodProtocol.CompletionNote | app/page.tsx:131 | the note starts with its prefix and the rest is the title |
| Lookup.Find | app/tasks/page.tsx:57 | `find`: the first element with that id, or nothing exactly when no element has it |
| Lookup.FindTask | app/tasks/page.tsx:57-61 | `Find` over the tasks by id |
| Lookup.FindHabit | app/habits/page.tsx:40-44 | `Find` over the habits by id |
| TaskList.ProjectName | components/tasks/task-list.tsx:32 | never empty, and "General" exactly for a task without a project, with an empty name, or with a project called "General" |
| TaskList.Search | components/tasks/task-list.tsx:26-28 | keeps exactly the tasks whose lower-cased title contains the lower-cased query |
| TaskList.MatchesQuery | components/tasks/task-list.tsx:27 | the search test; it has no contract of its own, and Search and EmptyQueryKeepsAll state what it keeps |
| TaskList.EmptyQueryKeepsAll | components/tasks/task-list.tsx:26-28 | the empty query keeps every task in order |
| TaskList.GroupByProject | components/tasks/task-list.tsx:31-38 | the `reduce`: nothing exactly when some task's project name is an inherited `Object.prototype` key such as "constructor", where the source throws a TypeError; otherwise distinct keys that are exactly the tasks' project names |
| TaskList.ProjectNames | components/tasks/task-list.tsx:32 | one project name per task, in task order |
| TaskList.GroupIsFilter | components/tasks/task-list.tsx:33-36 | with no inherited name, each group holds exactly its project's tasks in input order |
| TaskList.GroupsAreNonEmpty | components/tasks/task-list.tsx:33-36 | with no inherited name, no group is empty |
| TaskList.ProjectBeforeTransitive | components/tasks/task-list.tsx:42-46 | the comparator is transitive |
| TaskList.ProjectBeforeTotal | components/tasks/task-list.tsx:42-46 | any two different names are ordered one way round |
| TaskList.ProjectBeforeIrreflexive | components/tasks/task-list.tsx:42-46 | no name comes before itself |
| TaskList.Insert | components/tasks/task-list.tsx:42-46 | inserting a new name into a sorted list keeps it sorted and adds exactly that name |
| TaskList.SortNames | components/tasks/task-list.tsx:42 | the sorted keys are in comparator order and are the same names |
| TaskList.SortedIsDistinct | components/tasks/task-list.tsx:42-46 | sorted names are distinct |
| TaskList.Names | components/tasks/task-list.tsx:42 | the group names in display order |
| TaskList.GroupAndSort | components/tasks/task-list.tsx:31-46 | nothing exactly when some project name is an inherited key; otherwise the groups are in comparator order, are named after exactly the tasks' projects, and each holds that project's tasks in order |
| TaskList.TaskInGroupIff | components/tasks/task-list.tsx:31-38 | when the groups are shown, a task is in a group exactly when it is one of the tasks and the group bears its project name |
| TaskList.EachTaskInExactlyOneGroup | components/tasks/task-list.tsx:31-38 | when the groups are shown, every task lands in one group and in no second one |
| TaskList.NoEmptyGroup | components/tasks/task-list.tsx:33-36 | every shown group has a task |
| TaskList.GeneralFirst | components/tasks/task-list.tsx:43-44 | when the groups are shown, "General", if present, is the first group |
| TaskList.InheritedNameHidesAllGroups | components/tasks/task-list.tsx:31-37 | one task whose project is named after an inherited key, first or last in the list, leaves the list with no groups |
| TaskList.ConstructorProjectBreaksList | components/tasks/task-list.tsx:31-37 | a single task in a project called "constructor" leaves no groups |
| EisenhowerMatrix.QuadrantTasks | components/tasks/enseinhower-matrix.tsx:23-59 | keeps exactly the tasks of the quadrant |
| EisenhowerMatrix.BadgeCount | components/tasks/enseinhower-matrix.tsx:102 | a badge counts no more than all tasks |
| EisenhowerMatrix.QuadrantsDisjoint | components/tasks/enseinhower-matrix.tsx:23-49 | no task is in two quadrants |
| EisenhowerMatrix.CompletedTaskIsDone | components/tasks/enseinhower-matrix.tsx:49 | a completed task is in Done, whatever its priority |
| EisenhowerMatrix.ShownIffKnownPriority | components/tasks/enseinhower-matrix.tsx:23-49 | a task appears somewhere exactly when it is completed or its priority is HIGH, MEDIUM or LOW |
| EisenhowerMatrix.BadgesCountShownTasks | components/tasks/enseinhower-matrix.tsx:59-102 | the four badges add up to the number of tasks shown |
| EisenhowerMatrix.CriticalTaskIsUncounted | components/tasks/enseinhower-matrix.tsx:23-49 | an open CRITICAL task appears in no quadrant |
| EisenhowerMatrix.CheckboxClick | components/tasks/enseinhower-matrix.tsx:126-129 | the checkbox asks to flip that task's completion |
| EisenhowerMatrix.CheckboxLeavesQuadrant | components/tasks/enseinhower-matrix.tsx:23-49 | the checkbox completes a task of the three open quadrants and reopens one in Done |
| KanbanBoard.ColumnsPartition | components/tasks/kanban-board.tsx:27-28 | the two columns split the tasks: the sizes add up and each task is in the column of its state |
| KanbanBoard.TodoTasks | components/tasks/kanban-board.tsx:27 | the "todo" column holds exactly the open tasks |
| KanbanBoard.DoneTasks | components/tasks/kanban-board.tsx:28 | the "done" column holds exactly the completed tasks |
| KanbanBoard.HandleDragEnd | components/tasks/kanban-board.tsx:33-47 | a write happens exactly for a drop on the other id that is a column, and it sets completed exactly for "done" |
| KanbanBoard.DropLandsInColumn | components/tasks/kanban-board.tsx:41-45 | after the write the task is in the column it was dropped on |
| KanbanBoard.DropOnOwnIdIgnored | components/tasks/kanban-board.tsx:36 | a drop whose target id is the dragged id does nothing |
| TaskForm.PriorityOf | components/tasks/task-form.tsx:32-35 | HIGH exactly for urgent and important, MEDIUM exactly for important alone, LOW exactly when not important |
| TaskForm.UrgencyAloneIsLow | components/tasks/task-form.tsx:35 | urgency without importance is LOW |
| TaskForm.Submit | components/tasks/task-form.tsx:29-52 | a blank title sends nothing and keeps the fields; otherwise the request carries the fields, with an empty date or project as absent, and every field is reset |
| TaskForm.SpacesTitleRefused | components/tasks/task-form.tsx:29 | a title of spaces is refused |
| TaskForm.ToggleLabel | components/tasks/task-form.tsx:56-62 | a present id is removed, an absent one appended, other ids unaffected |
| TaskForm.ToggleLabelTwice | components/tasks/task-form.tsx:56-62 | toggling an absent id twice restores the selection |
| HabitForm.ToggleDay | components/habits/habit-form.tsx:45-51 | a present day is removed with all its copies, an absent one appended, other days unaffected |
| HabitForm.ToggleDayTwice | components/habits/habit-form.tsx:45-51 | toggling an absent day twice restores the selection |
| HabitForm.ChooseCustom | components/habits/habit-form.tsx:124-129 | switching to custom with no days selects Mon, Wed and Fri, and otherwise keeps the days |
| HabitForm.EditGoalReadsNumber | components/habits/habit-form.tsx:254 | typing a number sets that goal; clearing the input leaves no number |
| HabitForm.NumberToString | components/habits/habit-form.tsx:58 | `String(n)` of a non-negative number is its decimal form |
| HabitForm.FrequencyData | components/habits/habit-form.tsx:57-58 | daily encodes as `["DAILY"]`, custom as the days' decimal strings in order |
| HabitForm.WeekdayEncodesAsDigit | components/habits/habit-form.tsx:58 | a weekday 0..6 encodes as its one digit |
| HabitForm.Submit | components/habits/habit-form.tsx:55-69 | nothing exactly for a blank title; otherwise the title and description as typed, the encoded frequency, ANYTIME, the goal and start, and an end date exactly when one is set and enabled |
| HabitForm.OnSuccess | components/habits/habit-form.tsx:71-78 | title, description, frequency, days and goal reset; the dates stay |
| HabitForm.ResetFormSubmitsNothing | components/habits/habit-form.tsx:55-78 | submitting the reset form sends nothing |
| JsNumber.DigitRun | components/habits/habit-form.tsx:254 | the length of the leading run of digits `parseInt` reads |
| JsNumber.ParseIntOfNat | app/focus/page.tsx:70 | `parseInt` reads back any decimal number |
| JsNumber.ParseIntLeading | app/focus/page.tsx:70 | leading white space is skipped and reading stops at the first character that is not a digit |
| JsNumber.ParseIntSkipsSpaceAndUnit | app/focus/page.tsx:70 | " 12min" reads as 12 |
| JsNumber.ParseIntStopsAtPoint | app/focus/page.tsx:70 | "1.5" reads as 1 |
| JsNumber.ParseIntNegated | app/focus/page.tsx:70-71 | a minus sign in front of a number negates it |
| JsNumber.ParseIntNoDigits | app/focus/page.tsx:70-71 | no digits gives NaN |
| JsNumber.ParseInt | app/focus/page.tsx:70 | `parseInt` without a radix; it has no contract of its own, and the other JsNumber.ParseInt rows state its cases |
| JsNumber.ParseIntNeedsDigit | app/focus/page.tsx:70 | text without a single decimal digit is NaN, whatever signs, spaces or `x` it holds |
| JsNumber.ParseIntNegative | app/focus/page.tsx:70-71 | a minus sign negates |
| JsNumber.ParseIntHex | app/focus/page.tsx:70 | a `0x` prefix reads hexadecimal |
| TaskDetails.HandleSave | components/tasks/task-details.tsx:28-32 | a write exactly when the title or the description differs from the task's, and then both fields are sent |
| TaskDetails.UntouchedSavesNothing | components/tasks/task-details.tsx:24-32 | saving the fields as they opened writes nothing, also for a task without a description |
| TaskDetails.Open | components/tasks/task-details.tsx:24-26 | the pane opens with the task's title and the prompt closed, and saving it untouched writes nothing |
| TaskDetails.EmptyDescriptionIsNoDescription | components/tasks/task-details.tsx:25-29 | an empty description counts as the missing one |
| TaskDetails.FlipPriority | components/tasks/task-details.tsx:100-104 | the button writes MEDIUM or HIGH for that task |
| TaskDetails.FlipPriorityFlipsUrgency | components/tasks/task-details.tsx:34-104 | once stored, the new priority has the opposite urgency |
| TaskDetails.FlipTwiceNormalises | components/tasks/task-details.tsx:34-104 | two presses give HIGH for a task that was urgent and MEDIUM otherwise, so CRITICAL and LOW are not restored |
| TaskDetails.HandleToggle | components/tasks/task-details.tsx:36-44 | completing only opens the prompt; un-completing writes at once |
| TaskDetails.HandleMoodSelect | components/tasks/task-details.tsx:46-64 | logs the chosen mood's value (1..5, 3 when none) with `Completed task: <title>` and no date, completes the task, closes the prompt |
| TaskDetails.NoMoodLogsThree | components/tasks/task-details.tsx:55 | no mood logs 3 |
| TasksPage.HandleToggleTask | app/tasks/page.tsx:59-74 | an unknown id does nothing; completing opens the prompt for that task; un-completing writes at once |
| TasksPage.HandleMoodSelect | app/tasks/page.tsx:76-102 | with a task remembered, logs the mood and note, completes it and clears the prompt; otherwise nothing |
| TasksPage.ToggleThenMoodCompletes | app/tasks/page.tsx:59-102 | toggling an open task and choosing a mood completes exactly that task |
| TasksPage.ChangeView | app/tasks/page.tsx:154-157 | switching views clears the selection |
| TasksPage.ChangeViewClosesDialog | app/tasks/page.tsx:154-157 | after a view change no details dialog is open |
| TasksPage.SelectOpensDialog | app/tasks/page.tsx:251-252 | picking a task on the board or matrix opens the dialog, and closing it clears the pick |
| TasksPage.ListViewHasNoDialog | app/tasks/page.tsx:251 | the list view never shows the dialog |
| TasksPage.DetailsDialogOpen | app/tasks/page.tsx:251 | the dialog test; it has no contract of its own, and ChangeViewClosesDialog, SelectOpensDialog and ListViewHasNoDialog state it |
| HabitsPage.ActiveHabitId | app/habits/page.tsx:39 | the explicit pick, else the first habit's id, else nothing exactly when there is neither |
| HabitsPage.FirstHabitShownByDefault | app/habits/page.tsx:39-40 | with nothing picked, the first habit is shown |
| HabitsPage.CompletedOnIffInCompletionSet | app/habits/page.tsx:47-50 | the same-day check agrees with the completion set |
| HabitsPage.HandleToggleHabit | app/habits/page.tsx:42-70 | an unknown habit does nothing; completing opens the prompt remembering the date; un-completing writes at once |
| HabitsPage.HandleMoodSelect | app/habits/page.tsx:72-100 | with a subject, logs the mood and the habit note, completes the habit on the remembered date, clears the prompt |
| HabitsPage.BackfillWritesChosenDate | app/habits/page.tsx:42-100 | completing on a past date through the prompt writes the log for that date |
| MoodPage.LogsOn | app/mood/page.tsx:75-79 | keeps exactly the logs whose instant falls on the day |
| MoodPage.SumMoodsBounds | app/mood/page.tsx:82-83 | n moods in 1..5 sum to between n and 5n |
| MoodPage.SumMoods | app/mood/page.tsx:83 | the `reduce` sum of the moods; it has no contract of its own, and SumMoodsBounds bounds it |
| MoodPage.RoundedMood | app/mood/page.tsx:75-84 | nothing exactly for a day without logs; otherwise within half of the mean, and in 1..5 when the moods are |
| MoodPage.Last7Days | app/mood/page.tsx:70-86 | seven entries, entry i for the day 6 - i days ago with that day's rounded mood |
| MoodPage.Mean | app/mood/page.tsx:98 | the quotient of the sum by the count: multiplied by the count it gives the sum back |
| MoodPage.AverageMood | app/mood/page.tsx:93-99 | 0 without logs; otherwise the mean of that day's moods |
| MoodPage.MeanBetween | app/mood/page.tsx:96-99 | when the sum lies between lo·n and hi·n, the mean lies between lo and hi |
| MoodPage.ChartData | app/mood/page.tsx:89-106 | fourteen points, point i for the day 13 - i days ago with that day's mean |
| MoodPage.ChartPointRange | app/mood/page.tsx:94-97 | with moods in 1..5 a point is 0 exactly on a day without logs and otherwise lies in [1, 5] |
| MoodPage.StripRoundsChart | app/mood/page.tsx:70-106 | on each of the last seven days the strip shows the chart's mean rounded, half up |
| MoodPage.TaskLogs | app/mood/page.tsx:111-113 | keeps exactly the logs whose note starts with `Completed task:` |
| MoodPage.ToInsights | app/mood/page.tsx:115-129 | one row per log with its task name, mood and instant |
| MoodPage.InsightsAreDisjointClasses | app/mood/page.tsx:115-129 | happy rows have mood 4 or more and drained rows 2 or less, so no log feeds both; together they are no more than the task logs |
| MoodPage.TaskName | app/mood/page.tsx:118 | for a note that starts with the completion prefix, the text after it; "" without a note |
| MoodPage.HappyTasks | app/mood/page.tsx:111-121 | only moods of 4 or more; every task log with such a mood appears as a row, and every row is the row of such a task log (a note starting `Completed task:`) |
| MoodPage.DrainedTasks | app/mood/page.tsx:111-129 | only moods of 2 or less; every task log with such a mood appears as a row, and every row is the row of such a task log |
| MoodPage.ClassInsightsComplete | app/mood/page.tsx:111-129 | every task log of a class appears among that class's rows |
| MoodPage.ClassInsightsSound | app/mood/page.tsx:111-129 | every row of a class comes from a task log of that class |
| MoodPage.TaskNoteHasMarker | app/mood/page.tsx:111-113 | the note the completion flow writes passes the task filter |
| MoodPage.CompletionLogBecomesInsight | app/mood/page.tsx:109-132 | a completion log is a task log whose name is the task's title, and it is happy or drained exactly for the corresponding moods |
| MoodPage.HabitNoteIsNoTaskLog | app/mood/page.tsx:111-113 | a habit completion's note does not pass the task filter |
| MoodPage.HabitLogChangesNoInsight | app/mood/page.tsx:111-129 | logging a habit completion, before or after the other logs, changes neither insight list, so habit completions never appear among the task insights |
| MoodPage.Latest | app/mood/page.tsx:137-140 | the first log, in input order, among those with the greatest instant |
| MoodPage.TodaysLatestMood | app/mood/page.tsx:135-141 | nothing exactly when no log falls today; otherwise the mood of one of today's logs |
| MoodPage.LatestMoodIsMostRecent | app/mood/page.tsx:135-141 | no log of today is later than the one whose mood is shown |
| FocusTimer.Tick | app/focus/page.tsx:38-50 | only an active timer with time left ticks; time drops by one to at least 0; the last tick stops the timer and logs a session only in focus mode |
| FocusTimer.TickKeepsTimeNonNegative | app/focus/page.tsx:41-48 | time left never goes below zero |
| FocusTimer.CountdownCompletes | app/focus/page.tsx:22-50 | k ticks from k seconds stop the timer at 0 having logged one session in focus mode and none in a break |
| FocusTimer.StoppedTimerIsIdle | app/focus/page.tsx:38 | a stopped or finished timer does nothing however long it waits |
| FocusTimer.Reset | app/focus/page.tsx:58-61 | stops and refills the current mode's full time, nothing else changes |
| FocusTimer.SwitchMode | app/focus/page.tsx:63-67 | sets the mode, stops, and refills that mode's time: a reset in the new mode |
| FocusTimer.DurationChange | app/focus/page.tsx:69-77 | anything but a positive number changes nothing; activity, mode and task never change. The input is rendered only for a stopped timer in focus mode (app/focus/page.tsx:170-181), so the running and break cases are defined but unreachable from the page |
| FocusTimer.DurationChangeAccepts | app/focus/page.tsx:71-75 | a positive number becomes the duration, and the time left too when stopped in focus mode |
| FocusTimer.DurationChangeRejects | app/focus/page.tsx:71 | "0", "-3" and "abc" are ignored |
| FocusTimer.SelectTask | app/focus/page.tsx:106-112 | only a stopped timer in focus mode takes the new task: the picker is shown only in focus mode and is disabled while the timer runs; nothing else changes |
| FocusTimer.PaddedNumber | app/focus/page.tsx:82-84 | a padded number is digits that read back as the number |
| FocusTimer.ParseClockOfDigits | app/focus/page.tsx:82-84 | `m:ss` made of digits reads back as 60 m + ss |
| FocusTimer.FormatTimeRoundTrip | app/focus/page.tsx:79-85 | reading back the formatted time gives the seconds |
| FocusTimer.FormatTime | app/focus/page.tsx:79-85 | at least five characters: the whole minutes in digits, a colon, then the remaining seconds in exactly two digits |
| FocusTimer.FormatTimeShape | app/focus/page.tsx:79-85 | under 100 minutes the text is five characters with the colon in the middle |
| RouteGuard.Decide | proxy.ts:16-29 | a redirect to /login exactly for a private path without a session, a redirect home exactly for /login with one, and a pass otherwise |
| RouteGuard.LoginNeverRedirectsToLogin | proxy.ts:8-21 | /login is never sent to /login |
| RouteGuard.RedirectTargetPasses | proxy.ts:20-29 | following a redirect with the same session passes, so there is no redirect loop |
| RouteGuard.PublicPrefixesArePublic | proxy.ts:10-13 | every path under the public prefixes is public |
| RouteGuard.PrefixIsTextual | proxy.ts:13 | the prefix test is textual: /publication is public, /api/tasks is not |
| LocalStore.AddTask | store/useStore.ts:83-95 | appends one open task with the fresh id and labels defaulting to none; existing tasks are unchanged |
| LocalStore.ToggleTask | store/useStore.ts:97-104 | only tasks with that id flip completion, and their mood changes only when one is given |
| LocalStore.ToggleTaskTwice | store/useStore.ts:97-104 | two toggles without a mood restore the store |
| LocalStore.ToggleKeepsMood | store/useStore.ts:101 | a mood given on completion survives un-completing |
| Seqs.FilterAppend | store/useStore.ts:106-109 | `filter` distributes over concatenation, so it keeps the order of what it keeps |
| Seqs.FilterSplice | store/useStore.ts:106-109 | filtering out the single element that fails the test cuts out exactly its position |
| LocalStore.DeleteTask | store/useStore.ts:106-109 | exactly the tasks with that id go, and the others stay; DeleteKeepsOrder and DeleteTaskDistributes state their order |
| LocalStore.DeleteKeepsOrder | store/useStore.ts:106-109 | deleting the only task with that id cuts out exactly its position, so the others keep their order |
| LocalStore.DeleteTaskDistributes | store/useStore.ts:106-109 | deleting from two runs of tasks deletes from each and keeps the runs in order, so no survivor moves or is copied |
| LocalStore.DeleteUnknownTask | store/useStore.ts:106-109 | deleting an id no task has changes nothing |
| LocalStore.DeleteUndoesAdd | store/useStore.ts:83-109 | deleting a just-added task restores the store |
| LocalStore.Merge | store/useStore.ts:114 | for each of the eleven fields, a present value overrides and an absent one keeps the task's value |
| LocalStore.MergeLaws | store/useStore.ts:114 | merging nothing keeps the task, and merging twice is merging once |
| LocalStore.UpdateTask | store/useStore.ts:111-116 | the patch goes into the tasks with that id only |
| LocalStore.ToggleIsUpdate | store/useStore.ts:97-116 | a toggle without a mood is an update of the completion flag |
| LocalStore.AddHabit | store/useStore.ts:118-129 | appends a habit with streak 0 and no completed dates |
| LocalStore.ToggledHabit | store/useStore.ts:137-156 | the date flips, no other date changes, and the counter goes up by one or down to no less than 0 |
| LocalStore.ToggleHabit | store/useStore.ts:131-159 | only habits with that id change |
| LocalStore.NewHabitKeepsInvariant | store/useStore.ts:118-129 | a new habit's counter equals its number of completed dates |
| LocalStore.ToggleKeepsInvariant | store/useStore.ts:137-156 | toggling keeps the counter equal to the number of completed dates |
| LocalStore.StreakNonNegative | store/useStore.ts:148-150 | the counter never goes negative |
| LocalStore.ToggleHabitTwice | store/useStore.ts:137-145 | two toggles on a date restore the map, and the whole habit when the counter matches it |
| LocalStore.CounterIgnoresGaps | store/useStore.ts:147-150 | two dates two months apart count as a streak of 2 |
| LocalStore.DeleteHabit | store/useStore.ts:161-164 | exactly the habits with that id go, and the others stay |
| LocalStore.DeleteHabitKeepsOrder | store/useStore.ts:161-164 | deleting the only habit with that id cuts out exactly its position |
| LocalStore.DeleteHabitDistributes | store/useStore.ts:161-164 | deleting from two runs of habits deletes from each, in order |
| LocalStore.DeleteUndoesAddHabit | store/useStore.ts:118-164 | deleting a just-added habit restores the store |
| LocalStore.AddCategory | store/useStore.ts:166-169 | appends the category under the fresh id |
| LocalStore.DeleteCategory | store/useStore.ts:171-174 | exactly the categories with that id go; tasks keep their category ids |
| LocalStore.DeleteCategoryKeepsOrder | store/useStore.ts:171-174 | deleting the only category with that id cuts out exactly its position |
| LocalStore.DeleteCategoryDistributes | store/useStore.ts:171-174 | deleting from two runs of categories deletes from each, in order |
| LocalStore.DeleteUndoesAddCategory | store/useStore.ts:166-174 | deleting a just-added category restores the store |
| SeedData.FirstIndex | scripts/seed-data.ts:13 | the first position of the separator, or nothing exactly when it is absent |
| SeedData.Split | scripts/seed-data.ts:11-13 | at least one piece and no piece contains the separator |
| SeedData.JoinSplit | scripts/seed-data.ts:13-17 | joining the pieces with the separator gives the string back |
| SeedData.SplitAtFirst | scripts/seed-data.ts:13-17 | the key is the text before the first `=`, and the rest rejoined is everything after it |
| SeedData.StripQuotes | scripts/seed-data.ts:18 | at most two characters go: a value without quotes at either end is kept, a quoted one loses both |
| SeedData.ParseLineCharacterised | scripts/seed-data.ts:12-19 | a line is kept exactly when it is not empty, not a comment, and has an `=` after at least one character; it yields the trimmed key and the trimmed, unquoted rest |
| SeedData.ParseLine | scripts/seed-data.ts:12-19 | one line of the file; it has no contract of its own, and ParseLineCharacterised states what it yields |
| SeedData.AssignmentRoundTrip | scripts/seed-data.ts:13-19 | writing `key=value` and parsing it gives the pair back, even when the value holds `=` |
| SeedData.QuotedRoundTrip | scripts/seed-data.ts:17-18 | a value in a pair of quotes is read without them |
| SeedData.SkippedLines | scripts/seed-data.ts:12-14 | empty lines, comments, lines without `=` and lines starting with `=` set nothing |
| SeedData.ParseAll | scripts/seed-data.ts:11 | one parse result per line, in order |
| SeedData.AssignKeys | scripts/seed-data.ts:11-21 | a key is set exactly when some kept line names it |
| SeedData.LastAssignmentWins | scripts/seed-data.ts:19 | the last line that names a key decides its value |
| SeedData.ParseEnvMeaning | scripts/seed-data.ts:8-21 | over the whole file a key is set exactly when some kept line names it, and it holds the value of the last such line |
| SeedData.ParseEnv | scripts/seed-data.ts:11-21 | the whole file; it has no contract of its own, and ParseEnvMeaning states which keys it sets and to what |
| SeedData.WaterLogs | scripts/seed-data.ts:80-95 | nine completed logs, for the first to the ninth day before today, newest first |
| SeedData.WaterLogsDates | scripts/seed-data.ts:80-95 | their completion set is the nine days before today |
| SeedData.WaterStreak | scripts/seed-data.ts:80-95 | the nine seeded logs give a streak of 9, and 10 with a check-in today |
| SeedData.WaterStreakAsServed | app/api/habits/route.ts:20-27 | with the route's seven-day window the client shows the seeded water habit with streak 7, and 8 after today's check-in |
| SeedData.StreakOfDaysBack | lib/habit-utils.ts:25-46 | a completion set of the n days before today gives streak n, and n + 1 with today |
| SeedData.CompletedDatesAppend | scripts/seed-data.ts:80-95 | the completion set of appended logs is the union of the two sets |

## Left out

- The API routes (`app/api/*`) are not part of this model. They are database
  and authentication I/O. Only the habits route's seven-day window on logs is
  modelled (`HabitUtils.ServedLogs`), because it bounds the streak the client
  sees. The other members take a habit's logs as given.
- The data hooks (`hooks/use-queries.ts`) are not part of this model: fetching,
  caching and invalidation. A mutation is modelled as the `Effect` a handler
  returns.
- Time zones. The source mixes UTC (`toISOString`) with local dates
  (`toLocaleDateString`, `format`, `getDay`). The model uses one abstract day
  per instant, so it shows none of the disagreements these can cause near
  midnight.
- ISO date strings. The model uses day numbers instead. The store's habit
  dates stay opaque `yyyy-MM-dd` strings.
- `localeCompare` is modelled as code-point lexicographic order. Case mapping
  covers ASCII letters only. `Math.round` and `parseInt` are written out over
  integers.
- Floating point. The monthly rate is the exact integer rounding of
  100 × check-ins / days. The check-in counts never produce a tie, so float
  rounding cannot differ from it. The chart's mean is an exact `real`.
- The focus timer's `setInterval`, the completion sound, and the
  floating-point progress ring are left out. Each tick is one call of
  `FocusTimer.Tick`.
- The insights page (`app/insights/page.tsx`) is left out: it shows random
  mock data.
- The route matcher configuration (`proxy.ts:32-45`) is left out. It is
  framework routing, not logic. The cookie lookup is a boolean parameter.
- Presentation-only components are left out: layouts, sidebar, auth, login,
  the mood modal's list, the project dialog, the habit list, items and
  details, and the task item. The end-date picker's disabled-day rule in the
  habit form is left out too.
- `TaskDetails.Delete`, `TasksPage.SelectTask`, `TasksPage.DialogOpenChange`,
  `TasksPage.ListDetails`, `HabitForm.ChooseDaily`, `HabitForm.EditGoal`,
  `HabitForm.SelectStartDay`, `FocusTimer.ToggleTimer` and
  `Dashboard.CloseMoodPrompt` are plain setters without a contract of their
  own. Their effect is stated by the lemmas that use them.
- The seed script's file and database I/O, `Math.random`, and the other
  seeded habits, tasks and moods are left out. Only the `.env` parser and the
  water habit's logs are modelled.
- `LocalStore.Merge`: a patch key set explicitly to `undefined` is read as
  absent. JavaScript's spread would erase the field instead.
- `FocusTimer.DurationChange` also defines a change typed while the timer
  runs or in a break. The page renders the input only for a stopped timer in
  focus mode, so those cases cannot happen there.
- `LocalStore.AddTask` and `LocalStore.AddCategory`: fresh ids and creation
  instants are parameters. They stand in for `uuidv4()` and `new Date()`.
- `LocalStore.ToggleHabitTwice` is stated for maps whose entries are all
  `true`, which is all the store writes. For a persisted `false` entry, two
  toggles delete the entry.
- `HabitForm.EditGoal` represents `NaN` from `parseInt` as `None`.
- JavaScript numbers are doubles. `toString` switches to exponent notation
  from 10^21, and `parseInt` is exact only up to 2^53. The model's integers
  are unbounded, so three lemmas claim more than the source keeps:
- `FocusTimer.FormatTimeRoundTrip` holds in the source only while the minutes
  stay below 10^21 and the seconds below 2^53.
- `JsNumber.ParseIntOfNat` holds in the source only for numbers below 2^53
  (below 10^21 for the `toString` that writes them).
- `FocusTimer.DurationChangeAccepts` holds in the source only for typed
  numbers below 2^53; larger ones are rounded by `parseInt`.

=== FILE: calendar.dfy ===
/**
 * Gregorian calendar arithmetic over epoch days.
 *
 * A calendar day is an integer counting days since 1970-01-01 (day 0, a
 * Thursday). A month is an integer index counting months since January 1970
 * (index 0), so `MonthIndex` 0 is 1970-01 and index -1 is 1969-12. Two days
 * share a `yyyy-MM` prefix exactly when `MonthOf` maps them to the same index.
 * Every date is read in one abstract time zone.
 */
module Calendar {

  /** Days since 1970-01-01. */
  type Day = int

  /** Months since January 1970. */
  type MonthIndex = int

  const MillisPerDay: int := 86_400_000

  /** The calendar day of an instant given in milliseconds since the epoch (floor). */
  function DayOfInstant(ms: int): (d: Day)
    ensures d * MillisPerDay <= ms < (d + 1) * MillisPerDay
  {
    ms / MillisPerDay
  }

  /** Day of the week, 0 = Sunday .. 6 = Saturday; 1970-01-01 was a Thursday. */
  function Weekday(d: Day): (w: int)
    ensures 0 <= w < 7
  {
    (d + 4) % 7
  }

  /** Consecutive days have consecutive weekdays, wrapping Saturday to Sunday. */
  lemma WeekdayNext(d: Day)
    ensures Weekday(d + 1) == (Weekday(d) + 1) % 7
  {
  }

  /** The upper-case three-letter day names, indexed by `Weekday`. */
  const WeekdayTokens: seq<string> := ["SUN", "MON", "TUE", "WED", "THU", "FRI", "SAT"]

  /** The upper-cased `EEE` name of a day, e.g. "MON". */
  function WeekdayToken(d: Day): (t: string)
    ensures t in WeekdayTokens
    ensures |t| == 3
  {
    WeekdayTokens[Weekday(d)]
  }

  predicate IsLeapYear(y: int) {
    y % 4 == 0 && (y % 100 != 0 || y % 400 == 0)
  }

  /** The calendar year of a month index. */
  function YearOf(k: MonthIndex): int {
    1970 + k / 12
  }

  /** The month number of a month index, 1 = January .. 12 = December. */
  function MonthNumber(k: MonthIndex): (m: int)
    ensures 1 <= m <= 12
  {
    k % 12 + 1
  }

  /** Gregorian length of a month: 31/30 by month, February 29 in leap years. */
  function DaysInMonth(k: MonthIndex): (n: int)
    ensures 28 <= n <= 31
    ensures n == 28 <==> MonthNumber(k) == 2 && !IsLeapYear(YearOf(k))
    ensures n == 29 <==> MonthNumber(k) == 2 && IsLeapYear(YearOf(k))
    ensures n == 30 <==> MonthNumber(k) in {4, 6, 9, 11}
  {
    var m := MonthNumber(k);
    if m == 2 then (if IsLeapYear(YearOf(k)) then 29 else 28)
    else if m == 4 || m == 6 || m == 9 || m == 11 then 30
    else 31
  }

  /** The first day of month `k`, laid out month after month from 1970-01-01. */
  function MonthStart(k: MonthIndex): Day
    decreases if k < 0 then -k else k
  {
    if k == 0 then 0
    else if k > 0 then MonthStart(k - 1) + DaysInMonth(k - 1)
    else MonthStart(k + 1) - DaysInMonth(k)
  }

  /** Month k + 1 starts right after the last day of month k. */
  lemma MonthsAreContiguous(k: MonthIndex)
    ensures MonthStart(k + 1) == MonthStart(k) + DaysInMonth(k)
  {
  }

  /** Later months start after earlier months end. */
  lemma {:induction false} MonthStartMonotone(j: MonthIndex, k: MonthIndex)
    requires j < k
    ensures MonthStart(j) + DaysInMonth(j) <= MonthStart(k)
    decreases k - j
  {
    MonthsAreContiguous(j);
    if j + 1 < k {
      MonthStartMonotone(j + 1, k);
      MonthsAreContiguous(j + 1);
    }
  }

  /** Day `d` lies in month `k`. */
  predicate InMonth(d: Day, k: MonthIndex) {
    MonthStart(k) <= d < MonthStart(k) + DaysInMonth(k)
  }

  /** Walks month by month from `k` to the month that holds `d`. */
  function FindMonth(d: Day, k: MonthIndex): (r: MonthIndex)
    ensures InMonth(d, r)
    decreases (if d < MonthStart(k) then MonthStart(k) - d else 0),
              (if d < MonthStart(k) then 0 else d - MonthStart(k))
  {
    if d < MonthStart(k) then
      MonthsAreContiguous(k - 1);
      FindMonth(d, k - 1)
    else if d >= MonthStart(k) + DaysInMonth(k) then
      MonthsAreContiguous(k);
      FindMonth(d, k + 1)
    else
      k
  }

  /** The month that contains day `d`: the `yyyy-MM` of the day. */
  function MonthOf(d: Day): (k: MonthIndex)
    ensures InMonth(d, k)
  {
    FindMonth(d, 0)
  }

  /** A day belongs to exactly one month. */
  lemma MonthOfUnique(d: Day, k: MonthIndex)
    ensures InMonth(d, k) <==> MonthOf(d) == k
  {
    var m := MonthOf(d);
    if InMonth(d, k) && k != m {
      if k < m { MonthStartMonotone(k, m); } else { MonthStartMonotone(m, k); }
    }
  }

  /** 1971-01-01 is day 365 and 1969-12-01 is day -31. */
  lemma MonthStartAnchors()
    ensures MonthStart(12) == 365
    ensures MonthStart(-1) == -31
  {
  }
}

=== FILE: dashboard.dfy ===
/**
 * The dashboard (app/page.tsx): today's tasks grouped by project, the habits
 * scheduled for today with their done-today flag, and the completion-with-mood
 * flow for both. A habit's frequency tokens are compared, upper-cased, with
 * "DAILY" and with today's three-letter day name; the digit tokens the habit
 * form writes for specific days never match either, so such habits are never
 * listed here.
 */
module Dashboard {
  import opened Wrappers
  import opened Text
  import opened Seqs
  import opened Calendar
  import opened Types
  import opened HabitUtils
  import opened TaskList
  import opened Lookup
  import opened MoodProtocol
  import HabitForm

  /** `t.date || t.dueDate`: the scheduled day wins over the due day. */
  function TargetDay(t: Task): (d: Option<Day>)
    ensures t.date.Some? ==> d == t.date
    ensures t.date.None? ==> d == t.dueDate
  {
    if t.date.Some? then t.date else t.dueDate
  }

  predicate IsTodaysTask(t: Task, today: Day) {
    TargetDay(t) == Some(today)
  }

  function DueToday(today: Day): Task -> bool {
    t => IsTodaysTask(t, today)
  }

  /** `todaysTasks`, in list order. */
  function TodaysTasks(tasks: seq<Task>, today: Day): (r: seq<Task>)
    ensures forall i :: 0 <= i < |r| ==> r[i] in tasks && IsTodaysTask(r[i], today)
    ensures forall i :: 0 <= i < |tasks| && IsTodaysTask(tasks[i], today) ==> tasks[i] in r
  {
    Filter(tasks, DueToday(today))
  }

  /** A task with neither a date nor a due date is never today's. */
  lemma UndatedTaskNeverToday(t: Task, today: Day)
    requires t.date.None? && t.dueDate.None?
    ensures !IsTodaysTask(t, today)
  {
  }

  /** A task scheduled for another day is not today's, even when it is due today. */
  lemma DateTakesPrecedence(t: Task, today: Day)
    requires t.date.Some? && t.date.value != today
    ensures !IsTodaysTask(t, today)
  {
  }

  /** Today's tasks break the grouping exactly when one of the tasks is today's and has an inherited project name. */
  lemma TodaysTasksBreakGrouping(tasks: seq<Task>, today: Day)
    ensures BreaksGrouping(TodaysTasks(tasks, today)) <==>
      exists i :: 0 <= i < |tasks| && IsTodaysTask(tasks[i], today) && ProjectName(tasks[i]) in InheritedKeys
  {
    var todays := TodaysTasks(tasks, today);
    if exists i :: 0 <= i < |tasks| && IsTodaysTask(tasks[i], today) && ProjectName(tasks[i]) in InheritedKeys {
      var i :| 0 <= i < |tasks| && IsTodaysTask(tasks[i], today) && ProjectName(tasks[i]) in InheritedKeys;
      var k :| 0 <= k < |todays| && todays[k] == tasks[i];
    }
    if BreaksGrouping(todays) {
      var k :| 0 <= k < |todays| && ProjectName(todays[k]) in InheritedKeys;
      var i :| 0 <= i < |tasks| && tasks[i] == todays[k];
    }
  }

  /**
   * Today's tasks, grouped and ordered as the task list does it: nothing is
   * shown when one of today's tasks has a project named after an inherited
   * key.
   */
  function TodaysGroups(tasks: seq<Task>, today: Day): (r: Option<seq<Group>>)
    ensures r.None? <==>
      exists i :: 0 <= i < |tasks| && IsTodaysTask(tasks[i], today) && ProjectName(tasks[i]) in InheritedKeys
  {
    TodaysTasksBreakGrouping(tasks, today);
    GroupAndSort(TodaysTasks(tasks, today))
  }

  /**
   * A shown dashboard group holds exactly today's tasks of its project: a
   * task is in group `j` when it is one of the tasks, is today's, and carries
   * the group's project name.
   */
  lemma TodaysGroupsHoldTodaysTasks(tasks: seq<Task>, today: Day, t: Task)
    ensures var r := TodaysGroups(tasks, today);
      r.Some? ==> forall j :: 0 <= j < |r.value| ==>
        (t in r.value[j].tasks <==> t in tasks && IsTodaysTask(t, today) && ProjectName(t) == r.value[j].name)
  {
    var todays := TodaysTasks(tasks, today);
    var r := TodaysGroups(tasks, today);
    if r.Some? {
      var v := r.value;
      forall j | 0 <= j < |v|
        ensures t in v[j].tasks <==> t in tasks && IsTodaysTask(t, today) && ProjectName(t) == v[j].name
      {
        var g := v[j];
        assert g.tasks == Filter(todays, InProject(g.name));
        if t in g.tasks {
          var i :| 0 <= i < |g.tasks| && g.tasks[i] == t;
          assert t in todays;
          var k :| 0 <= k < |todays| && todays[k] == t;
        }
        if t in tasks && IsTodaysTask(t, today) && ProjectName(t) == g.name {
          var i :| 0 <= i < |tasks| && tasks[i] == t;
          assert t in todays;
          var k :| 0 <= k < |todays| && todays[k] == t;
        }
      }
    }
  }

  /** The frequency tokens, upper-cased. */
  function UpperTokens(frequency: seq<string>): (r: seq<string>)
    ensures |r| == |frequency|
    ensures forall i :: 0 <= i < |r| ==> r[i] == ToUpper(frequency[i])
  {
    seq(|frequency|, i requires 0 <= i < |frequency| => ToUpper(frequency[i]))
  }

  /** `todaysHabits`' filter: "DAILY", or today's day name, among the upper-cased tokens. */
  predicate IsScheduledToday(h: Habit, today: Day) {
    var freq := UpperTokens(h.frequency);
    "DAILY" in freq || WeekdayToken(today) in freq
  }

  function ScheduledOn(today: Day): Habit -> bool {
    h => IsScheduledToday(h, today)
  }

  function TodaysHabits(habits: seq<Habit>, today: Day): (r: seq<Habit>)
    ensures forall i :: 0 <= i < |r| ==> r[i] in habits && IsScheduledToday(r[i], today)
    ensures forall i :: 0 <= i < |habits| && IsScheduledToday(habits[i], today) ==> habits[i] in r
  {
    Filter(habits, ScheduledOn(today))
  }

  /** A "daily" token in any letter case schedules the habit every day. */
  lemma DailyAnyCaseIsEveryDay(h: Habit, i: int, today: Day)
    requires 0 <= i < |h.frequency| && ToUpper(h.frequency[i]) == "DAILY"
    ensures IsScheduledToday(h, today)
  {
    assert UpperTokens(h.frequency)[i] == "DAILY";
  }

  /** "daily", "Daily" and "DAILY" all read as "DAILY". */
  lemma DailySpellings()
    ensures ToUpper("daily") == "DAILY" && ToUpper("Daily") == "DAILY" && ToUpper("DAILY") == "DAILY"
  {
  }

  /** Without a daily token, a habit is scheduled exactly on the days some token names. */
  lemma ScheduledIffDayNamed(h: Habit, today: Day)
    requires forall i :: 0 <= i < |h.frequency| ==> ToUpper(h.frequency[i]) != "DAILY"
    ensures IsScheduledToday(h, today) <==> exists i :: 0 <= i < |h.frequency| && ToUpper(h.frequency[i]) == WeekdayToken(today)
  {
    var freq := UpperTokens(h.frequency);
    if WeekdayToken(today) in freq {
      var i :| 0 <= i < |freq| && freq[i] == WeekdayToken(today);
      assert ToUpper(h.frequency[i]) == WeekdayToken(today);
    }
  }

  /** The schedule repeats every seven days. */
  lemma ScheduleIsWeekly(h: Habit, today: Day)
    ensures IsScheduledToday(h, today) == IsScheduledToday(h, today + 7)
  {
    assert Weekday(today + 7) == Weekday(today);
  }

  /**
   * A habit whose tokens are all single characters (the digit strings the
   * habit form stores for specific days) is never scheduled: no token can
   * equal "DAILY" or a three-letter day name.
   */
  lemma SingleCharacterTokensNeverScheduled(h: Habit, today: Day)
    requires forall i :: 0 <= i < |h.frequency| ==> |h.frequency[i]| == 1
    ensures !IsScheduledToday(h, today)
  {
    var freq := UpperTokens(h.frequency);
    assert forall i :: 0 <= i < |freq| ==> |freq[i]| == 1;
  }

  /**
   * A habit created with specific days 0..6 is stored with one-digit tokens,
   * so the dashboard never lists it, on any day.
   */
  lemma CustomDayHabitNeverListed(f: HabitForm.Fields, h: Habit, today: Day)
    requires f.frequency == HabitForm.Custom
    requires forall i :: 0 <= i < |f.customDays| ==> 0 <= f.customDays[i] <= 6
    requires h.frequency == HabitForm.FrequencyData(f)
    ensures !IsScheduledToday(h, today)
  {
    forall i | 0 <= i < |h.frequency|
      ensures |h.frequency[i]| == 1
    {
      HabitForm.WeekdayEncodesAsDigit(f, i);
    }
    SingleCharacterTokensNeverScheduled(h, today);
  }

  /** A habit counts as done today when some log of today's day is completed. */
  predicate IsCompletedToday(h: Habit, today: Day) {
    exists i :: 0 <= i < |h.logs| && h.logs[i].day == today && h.logs[i].completed
  }

  /** The done-today flag agrees with the completion set of the habit analytics. */
  lemma CompletedTodayIffInCompletionSet(h: Habit, today: Day)
    ensures IsCompletedToday(h, today) <==> today in CompletedDates(h.logs)
  {
  }

  /** The item the mood prompt is about; `date` is the instant a habit toggle was clicked. */
  datatype Subject = Subject(isTask: bool, id: string, title: string, date: Option<int>)

  /** The mood prompt: whether it is shown, and what it is about. */
  datatype Prompt = Prompt(open: bool, subject: Option<Subject>)

  const NoPrompt: Prompt := Prompt(false, None)

  /** A handler's result: the prompt afterwards and the writes it asks for. */
  datatype Outcome = Outcome(prompt: Prompt, effects: seq<Effect>)

  /** `handleTaskToggle`: completing asks for a mood first; un-completing writes at once. */
  function HandleTaskToggle(p: Prompt, t: Task): (o: Outcome)
    ensures !t.completed ==> o == Outcome(Prompt(true, Some(Subject(true, t.id, t.title, None))), [])
    ensures t.completed ==> o == Outcome(p, [SetTaskCompleted(t.id, false)])
  {
    if !t.completed then Outcome(Prompt(true, Some(Subject(true, t.id, t.title, None))), [])
    else Outcome(p, [SetTaskCompleted(t.id, false)])
  }

  /**
   * `handleHabitToggle` at instant `now`: an unknown habit does nothing;
   * completing asks for a mood and remembers `now`; un-completing writes at once.
   */
  function HandleHabitToggle(p: Prompt, habits: seq<Habit>, habitId: string, isCompleted: bool, now: int): (o: Outcome)
    ensures FindHabit(habits, habitId).None? ==> o == Outcome(p, [])
    ensures FindHabit(habits, habitId).Some? && !isCompleted ==>
      o == Outcome(Prompt(true, Some(Subject(false, habitId, FindHabit(habits, habitId).value.title, Some(now)))), [])
    ensures FindHabit(habits, habitId).Some? && isCompleted ==> o == Outcome(p, [SetHabitLog(habitId, now, false)])
  {
    match FindHabit(habits, habitId)
    case None => Outcome(p, [])
    case Some(h) =>
      if !isCompleted then Outcome(Prompt(true, Some(Subject(false, habitId, h.title, Some(now)))), [])
      else Outcome(p, [SetHabitLog(habitId, now, false)])
  }

  /**
   * `handleMoodSelect` at instant `now`: log the mood with a note naming the
   * item, then complete it, and close the prompt. Without a subject nothing
   * happens.
   */
  function HandleMoodSelect(p: Prompt, mood: Option<Mood>, now: int): (o: Outcome)
    ensures p.subject.None? ==> o == Outcome(p, [])
    ensures p.subject.Some? ==>
      o.prompt == NoPrompt && |o.effects| >= 1 && o.effects[0] == LogMood(MoodValue(mood), CompletionNote(p.subject.value.isTask, p.subject.value.title), Some(now))
    ensures p.subject.Some? ==>
      o.effects[1..] ==
        if p.subject.value.isTask then [SetTaskCompleted(p.subject.value.id, true)]
        else if p.subject.value.date.Some? then [SetHabitLog(p.subject.value.id, p.subject.value.date.value, true)]
        else []
  {
    match p.subject
    case None => Outcome(p, [])
    case Some(s) =>
      var log := LogMood(MoodValue(mood), CompletionNote(s.isTask, s.title), Some(now));
      var action :=
        if s.isTask then [SetTaskCompleted(s.id, true)]
        else if s.date.Some? then [SetHabitLog(s.id, s.date.value, true)]
        else [];
      Outcome(NoPrompt, [log] + action)
  }

  /** Dismissing the prompt hides it but keeps its subject. */
  function CloseMoodPrompt(p: Prompt): Prompt {
    p.(open := false)
  }

  /**
   * Completing an open task: the toggle writes nothing; choosing a mood then
   * logs it with `Completed task: <title>` and marks the task completed.
   */
  lemma CompleteTaskWithMood(p: Prompt, t: Task, mood: Option<Mood>, now: int)
    requires !t.completed
    ensures HandleTaskToggle(p, t).effects == []
    ensures var o := HandleMoodSelect(HandleTaskToggle(p, t).prompt, mood, now);
      o.prompt == NoPrompt
      && o.effects == [LogMood(MoodValue(mood), TaskNotePrefix + t.title, Some(now)), SetTaskCompleted(t.id, true)]
  {
  }

  /**
   * Completing a habit: the log is written for the instant the habit was
   * clicked, not the instant the mood was chosen.
   */
  lemma CompleteHabitWithMood(p: Prompt, habits: seq<Habit>, h: Habit, clickedAt: int, mood: Option<Mood>, now: int)
    requires h in habits && forall g :: g in habits && g.id == h.id ==> g == h
    ensures HandleHabitToggle(p, habits, h.id, false, clickedAt).effects == []
    ensures var o := HandleMoodSelect(HandleHabitToggle(p, habits, h.id, false, clickedAt).prompt, mood, now);
      o.prompt == NoPrompt
      && o.effects == [LogMood(MoodValue(mood), HabitNotePrefix + h.title, Some(now)), SetHabitLog(h.id, clickedAt, true)]
  {
    assert FindHabit(habits, h.id) == Some(h);
  }

  /** A done-today habit's button un-completes it for the current instant, with no prompt. */
  lemma UncompleteHabitWritesAtOnce(p: Prompt, habits: seq<Habit>, h: Habit, today: Day, now: int)
    requires h in habits && IsCompletedToday(h, today)
    ensures FindHabit(habits, h.id).Some?
    ensures HandleHabitToggle(p, habits, h.id, IsCompletedToday(h, today), now) == Outcome(p, [SetHabitLog(h.id, now, false)])
  {
  }
}

=== FILE: eisenhower_matrix.dfy ===
/**
 * The Eisenhower matrix (components/tasks/enseinhower-matrix.tsx): four
 * quadrants filtering the tasks, a badge with each quadrant's count, and a
 * checkbox per task that asks to flip its completion.
 */
module EisenhowerMatrix {
  import opened Seqs
  import opened Types
  import opened MoodProtocol

  datatype Quadrant = DoFirst | Schedule | Delegate | Done

  const Quadrants: seq<Quadrant> := [DoFirst, Schedule, Delegate, Done]

  /** The quadrant filters: open tasks by priority, and every completed task. */
  predicate InQuadrant(q: Quadrant, t: Task) {
    match q
    case DoFirst => t.priority == "HIGH" && !t.completed
    case Schedule => t.priority == "MEDIUM" && !t.completed
    case Delegate => t.priority == "LOW" && !t.completed
    case Done => t.completed
  }

  function QuadrantFilter(q: Quadrant): Task -> bool {
    t => InQuadrant(q, t)
  }

  /** The tasks shown in a quadrant, in list order. */
  function QuadrantTasks(tasks: seq<Task>, q: Quadrant): (r: seq<Task>)
    ensures forall i :: 0 <= i < |r| ==> r[i] in tasks && InQuadrant(q, r[i])
    ensures forall i :: 0 <= i < |tasks| && InQuadrant(q, tasks[i]) ==> tasks[i] in r
  {
    Filter(tasks, QuadrantFilter(q))
  }

  /** The number on a quadrant's badge. */
  function BadgeCount(tasks: seq<Task>, q: Quadrant): (n: nat)
    ensures n <= |tasks|
  {
    |QuadrantTasks(tasks, q)|
  }

  /** No task is in two quadrants. */
  lemma QuadrantsDisjoint(t: Task, q1: Quadrant, q2: Quadrant)
    requires InQuadrant(q1, t) && InQuadrant(q2, t)
    ensures q1 == q2
  {
  }

  /** A completed task is in "Done", whatever its priority. */
  lemma CompletedTaskIsDone(t: Task)
    requires t.completed
    ensures InQuadrant(Done, t)
  {
  }

  /**
   * A task is shown somewhere exactly when it is completed or its priority is
   * HIGH, MEDIUM or LOW: an open CRITICAL task appears in no quadrant.
   */
  lemma ShownIffKnownPriority(t: Task)
    ensures (exists q :: InQuadrant(q, t)) <==> t.completed || t.priority in {"HIGH", "MEDIUM", "LOW"}
  {
    if t.completed {
      assert InQuadrant(Done, t);
    } else if t.priority == "HIGH" {
      assert InQuadrant(DoFirst, t);
    } else if t.priority == "MEDIUM" {
      assert InQuadrant(Schedule, t);
    } else if t.priority == "LOW" {
      assert InQuadrant(Delegate, t);
    }
  }

  /** Shown in some quadrant. */
  predicate IsShown(t: Task) {
    t.completed || t.priority in {"HIGH", "MEDIUM", "LOW"}
  }

  function Open3(t: Task): bool { InQuadrant(DoFirst, t) || InQuadrant(Schedule, t) || InQuadrant(Delegate, t) }
  function OpenHighOrMedium(t: Task): bool { InQuadrant(DoFirst, t) || InQuadrant(Schedule, t) }

  /** The four badges add up to the number of shown tasks, each counted once. */
  lemma BadgesCountShownTasks(tasks: seq<Task>)
    ensures BadgeCount(tasks, DoFirst) + BadgeCount(tasks, Schedule) + BadgeCount(tasks, Delegate) + BadgeCount(tasks, Done)
         == |Filter(tasks, IsShown)|
  {
    FilterDisjointCount(tasks, QuadrantFilter(DoFirst), QuadrantFilter(Schedule), OpenHighOrMedium);
    FilterDisjointCount(tasks, OpenHighOrMedium, QuadrantFilter(Delegate), Open3);
    FilterDisjointCount(tasks, Open3, QuadrantFilter(Done), IsShown);
  }

  /** An open CRITICAL task makes the badges add up to less than the number of tasks. */
  lemma CriticalTaskIsUncounted(t: Task)
    requires t.priority == "CRITICAL" && !t.completed
    ensures BadgeCount([t], DoFirst) + BadgeCount([t], Schedule) + BadgeCount([t], Delegate) + BadgeCount([t], Done) == 0
  {
    BadgesCountShownTasks([t]);
    assert Filter([t], IsShown) == Filter([], IsShown) + [];
  }

  /** The checkbox: ask for the opposite completion state. */
  function CheckboxClick(t: Task): (e: Effect)
    ensures e.SetTaskCompleted? && e.taskId == t.id
    ensures e.completed != t.completed
  {
    SetTaskCompleted(t.id, !t.completed)
  }

  /** Checking a task off in "Done" reopens it; in the other quadrants it completes it. */
  lemma CheckboxLeavesQuadrant(t: Task, q: Quadrant)
    requires InQuadrant(q, t)
    ensures CheckboxClick(t).completed <==> q != Done
  {
  }
}

=== FILE: focus_timer.dfy ===
/**
 * The focus timer (app/focus/page.tsx) as a step function. A tick runs once a
 * second while the timer is active and time is left; the last tick stops the
 * timer and, in focus mode, logs a session of the configured length for the
 * selected task. Time left is shown as `mm:ss`.
 */
module FocusTimer {
  import opened Wrappers
  import opened Text
  import opened JsNumber

  datatype Mode = Focus | Break

  /** The page state. `focusDuration` is in minutes, `timeLeft` in seconds. */
  datatype Timer = Timer(isActive: bool, focusDuration: int, timeLeft: int, mode: Mode, selectedTaskId: string)

  const BreakSeconds: int := 5 * 60

  /** The page as it opens: paused, 25 minutes of focus, no task. */
  const Initial: Timer := Timer(false, 25, 25 * 60, Focus, "")

  /** A finished focus session as logged: minutes and the task, if one was chosen. */
  datatype Session = Session(duration: int, taskId: Option<string>)

  /** The full time of a mode. */
  function FullTime(mode: Mode, focusDuration: int): int {
    if mode == Focus then focusDuration * 60 else BreakSeconds
  }

  /** An interval is running exactly when the timer is active with time left. */
  predicate TickScheduled(t: Timer) {
    t.isActive && t.timeLeft > 0
  }

  /** The session `handleSessionComplete` logs. */
  function SessionOf(t: Timer): Session {
    Session(t.focusDuration, if t.selectedTaskId != "" then Some(t.selectedTaskId) else None)
  }

  datatype Step = Step(timer: Timer, logged: Option<Session>)

  /** One second passes. */
  function Tick(t: Timer): (s: Step)
    ensures !TickScheduled(t) ==> s == Step(t, None)
    ensures TickScheduled(t) ==> s.timer.timeLeft == if t.timeLeft > 1 then t.timeLeft - 1 else 0
    ensures s.timer.isActive <==> (TickScheduled(t) && t.timeLeft > 1) || (!TickScheduled(t) && t.isActive)
    ensures s.logged.Some? <==> TickScheduled(t) && t.timeLeft <= 1 && t.mode == Focus
    ensures s.logged.Some? ==> s.logged.value == SessionOf(t)
    ensures s.timer.(isActive := t.isActive, timeLeft := t.timeLeft) == t
  {
    if !TickScheduled(t) then Step(t, None)
    else if t.timeLeft <= 1 then
      Step(t.(isActive := false, timeLeft := 0), if t.mode == Focus then Some(SessionOf(t)) else None)
    else Step(t.(timeLeft := t.timeLeft - 1), None)
  }

  /** A tick never makes the time left negative. */
  lemma TickKeepsTimeNonNegative(t: Timer)
    requires t.timeLeft >= 0
    ensures Tick(t).timer.timeLeft >= 0
  {
  }

  /** `n` ticks in a row: the state reached and the sessions logged on the way. */
  function Run(t: Timer, n: nat): (Timer, seq<Session>)
    decreases n
  {
    if n == 0 then (t, [])
    else
      var s := Tick(t);
      var (last, logs) := Run(s.timer, n - 1);
      (last, (if s.logged.Some? then [s.logged.value] else []) + logs)
  }

  /**
   * Started with `k` seconds left, the timer counts down for exactly `k`
   * ticks and stops at 0, logging one session in focus mode and none in
   * break mode.
   */
  lemma {:induction false} CountdownCompletes(t: Timer, k: nat)
    requires t.isActive && t.timeLeft == k && k >= 1
    ensures Run(t, k).0 == t.(isActive := false, timeLeft := 0)
    ensures Run(t, k).1 == if t.mode == Focus then [SessionOf(t)] else []
    decreases k
  {
    if k > 1 {
      var t' := Tick(t).timer;
      assert t' == t.(timeLeft := k - 1);
      CountdownCompletes(t', k - 1);
      assert SessionOf(t') == SessionOf(t);
    }
  }

  /** A stopped timer stays stopped: further ticks change nothing and log nothing. */
  lemma {:induction false} StoppedTimerIsIdle(t: Timer, n: nat)
    requires !TickScheduled(t)
    ensures Run(t, n) == (t, [])
    decreases n
  {
    if n > 0 {
      assert Tick(t) == Step(t, None);
      StoppedTimerIsIdle(t, n - 1);
      var none: seq<Session> := [];
      assert none + none == none;
    }
  }

  /** The start/pause button. */
  function ToggleTimer(t: Timer): Timer {
    t.(isActive := !t.isActive)
  }

  /** `resetTimer`: stop, and load the current mode's full time. */
  function Reset(t: Timer): (r: Timer)
    ensures !r.isActive && r.timeLeft == FullTime(t.mode, t.focusDuration)
    ensures r.(isActive := t.isActive, timeLeft := t.timeLeft) == t
  {
    t.(isActive := false, timeLeft := if t.mode == Focus then t.focusDuration * 60 else 5 * 60)
  }

  /** `switchMode`: set the mode, stop, and load the new mode's full time. */
  function SwitchMode(t: Timer, mode: Mode): (r: Timer)
    ensures r.mode == mode && !r.isActive && r.timeLeft == FullTime(mode, t.focusDuration)
    ensures r == Reset(t.(mode := mode))
  {
    t.(mode := mode, timeLeft := if mode == Focus then t.focusDuration * 60 else 5 * 60, isActive := false)
  }

  /** `handleDurationChange`: only a positive integer is taken. */
  function DurationChange(t: Timer, input: string): (r: Timer)
    ensures (ParseInt(input).Some? && ParseInt(input).value > 0) || r == t
    ensures r.isActive == t.isActive && r.mode == t.mode && r.selectedTaskId == t.selectedTaskId
  {
    match ParseInt(input)
    case Some(v) =>
      if v > 0 then
        t.(focusDuration := v, timeLeft := if !t.isActive && t.mode == Focus then v * 60 else t.timeLeft)
      else t
    case None => t
  }

  /**
   * Typing a positive whole number sets the duration; while paused in focus
   * mode it also reloads the time left, and otherwise leaves it alone.
   */
  lemma DurationChangeAccepts(t: Timer, n: nat)
    requires n > 0
    ensures DurationChange(t, NatToString(n)).focusDuration == n
    ensures DurationChange(t, NatToString(n)).timeLeft == if !t.isActive && t.mode == Focus then n * 60 else t.timeLeft
  {
    ParseIntOfNat(n);
  }

  /** Zero, negative and non-numeric input leave the timer as it was. */
  lemma DurationChangeRejects(t: Timer)
    ensures DurationChange(t, "0") == t
    ensures DurationChange(t, "-3") == t
    ensures DurationChange(t, "abc") == t
  {
    ParseIntOfNat(0);
    ParseIntNegative();
    ParseIntNoDigits();
  }

  /**
   * The task picker: shown only in focus mode and disabled while the timer
   * runs, so only a stopped focus timer takes the new task. Nothing else
   * changes.
   */
  function SelectTask(t: Timer, id: string): (r: Timer)
    ensures r.selectedTaskId == if t.isActive || t.mode == Break then t.selectedTaskId else id
    ensures r.(selectedTaskId := t.selectedTaskId) == t
  {
    if t.isActive || t.mode == Break then t else t.(selectedTaskId := id)
  }

  /**
   * `formatTime`: whole minutes in at least two digits, a colon, and the
   * remaining seconds in exactly two digits.
   */
  function FormatTime(seconds: nat): (r: string)
    ensures |r| >= 5 && r[|r| - 3] == ':'
    ensures AllDigits(r[..|r| - 3]) && ParseDigits(r[..|r| - 3]) == seconds / 60
    ensures AllDigits(r[|r| - 2..]) && ParseDigits(r[|r| - 2..]) == seconds % 60
  {
    var m := PadStart2(NatToString(seconds / 60));
    var sec := PadStart2(NatToString(seconds % 60));
    PaddedNumber(seconds / 60);
    PaddedNumber(seconds % 60);
    AtMostTwoDigits(seconds % 60);
    var r := m + ":" + sec;
    assert r[..|r| - 3] == m;
    assert r[|r| - 2..] == sec;
    r
  }

  predicate AllDigits(s: string) {
    forall k :: 0 <= k < |s| ==> IsDigit(s[k])
  }

  /** Reads `mm:ss` back into seconds: the digits before the first colon are minutes. */
  function ParseClock(c: string): Option<nat> {
    match IndexOf(c, ":")
    case None => None
    case Some(i) => if i < |c| then ReadClock(c[..i], c[i + 1..]) else None
  }

  /** Minutes and seconds from their digit strings. */
  function ReadClock(m: string, sec: string): Option<nat> {
    if AllDigits(m) && AllDigits(sec) then Some(60 * ParseDigits(m) + ParseDigits(sec)) else None
  }

  /** A padded rendering is all digits and reads back as the number. */
  lemma PaddedNumber(n: nat)
    ensures AllDigits(PadStart2(NatToString(n)))
    ensures ParseDigits(PadStart2(NatToString(n))) == n
  {
    var s := NatToString(n);
    ParseNatToString(n);
    if |s| == 1 {
      ParseDigitsLeadingZero(s);
    }
  }

  /** Minutes and seconds written as digits around a colon are read back. */
  lemma ParseClockOfDigits(m: string, sec: string)
    requires AllDigits(m) && AllDigits(sec)
    ensures ParseClock(m + ":" + sec) == Some(60 * ParseDigits(m) + ParseDigits(sec))
  {
    var c := m + ":" + sec;
    FirstColon(m, sec);
    var i := |m|;
    assert ParseClock(c) == ReadClock(c[..i], c[i + 1..]);
    assert c[..i] == m;
    assert c[i + 1..] == sec;
    ReadClockOfDigits(m, sec);
  }

  lemma ReadClockOfDigits(m: string, sec: string)
    requires AllDigits(m) && AllDigits(sec)
    ensures ReadClock(m, sec) == Some(60 * ParseDigits(m) + ParseDigits(sec))
  {
  }

  /** The first colon in digits, a colon, and more digits is the one after the first digits. */
  lemma FirstColon(m: string, sec: string)
    requires AllDigits(m)
    ensures IndexOf(m + ":" + sec, ":") == Some(|m|)
  {
    var c := m + ":" + sec;
    assert OccursAt(c, ":", |m|) by {
      assert c[|m|..|m| + 1] == ":";
    }
    forall k | 0 <= k < |m|
      ensures !OccursAt(c, ":", k)
    {
      assert c[k] == m[k] && IsDigit(m[k]);
      assert c[k..k + 1] == [c[k]];
    }
    FirstOccurrence(c, ":", 0, |m|);
  }

  /** `indexOf` from `from` finds `i` when `p` occurs at `i` and nowhere in between. */
  lemma {:induction false} FirstOccurrence(s: string, p: string, from: nat, i: nat)
    requires from <= i && OccursAt(s, p, i)
    requires forall k :: from <= k < i ==> !OccursAt(s, p, k)
    ensures IndexFrom(s, p, from) == Some(i)
    decreases i - from
  {
    if from < i {
      FirstOccurrence(s, p, from + 1, i);
    }
  }

  /** Reading a formatted time back gives the seconds. */
  lemma FormatTimeRoundTrip(seconds: nat)
    ensures ParseClock(FormatTime(seconds)) == Some(seconds)
  {
    PaddedNumber(seconds / 60);
    PaddedNumber(seconds % 60);
    ParseClockOfDigits(PadStart2(NatToString(seconds / 60)), PadStart2(NatToString(seconds % 60)));
  }

  /** Under 100 minutes the display is exactly five characters, `mm:ss`. */
  lemma FormatTimeShape(seconds: nat)
    requires seconds < 6000
    ensures |FormatTime(seconds)| == 5 && FormatTime(seconds)[2] == ':'
  {
    var m := seconds / 60;
    var sec := seconds % 60;
    assert m < 100;
    AtMostTwoDigits(m);
    AtMostTwoDigits(sec);
    assert |PadStart2(NatToString(m))| == 2;
    assert |PadStart2(NatToString(sec))| == 2;
  }

  /** A number below 100 renders in at most two digits. */
  lemma AtMostTwoDigits(n: nat)
    requires n < 100
    ensures |NatToString(n)| <= 2
  {
    if n >= 10 {
      assert NatToString(n) == NatToString(n / 10) + [Digits[n % 10]];
      assert n / 10 < 10;
    }
  }
}

=== FILE: habit_calendar.dfy ===
/**
 * The month grid of the habit calendar (components/habits/habit-calendar.tsx):
 * blank cells up to the weekday of the month's first day, then one cell per
 * day of the month; a cell is filled when its day is completed and outlined
 * when it is today and not completed. The arrows move the shown date by one
 * month.
 */
module HabitCalendar {
  import opened Calendar

  /** A grid cell: leading padding, or one day of the month. */
  datatype Cell = Padding | DayCell(day: Day)

  /** The grid for the month of the shown date `shown`. */
  function Grid(shown: Day): (g: seq<Cell>)
    ensures var k := MonthOf(shown);
      && |g| == Weekday(MonthStart(k)) + DaysInMonth(k)
      && (forall i :: 0 <= i < |g| ==> (g[i].Padding? <==> i < Weekday(MonthStart(k))))
      && (forall i :: 0 <= i < |g| && g[i].DayCell? ==> MonthOf(g[i].day) == k)
      && (forall d :: MonthOf(d) == k ==> DayCell(d) in g)
  {
    var k := MonthOf(shown);
    var first := MonthStart(k);
    var pad := Weekday(first);
    var g := seq(pad, _ => Padding) + seq(DaysInMonth(k), i requires 0 <= i < DaysInMonth(k) => DayCell(first + i));
    forall i | 0 <= i < |g| && g[i].DayCell?
      ensures MonthOf(g[i].day) == k
    {
      MonthOfUnique(g[i].day, k);
    }
    forall d | MonthOf(d) == k
      ensures DayCell(d) in g
    {
      assert g[pad + d - first] == DayCell(d);
    }
    g
  }

  /** The padding is the weekday of the first day of the month, so at most six cells. */
  lemma PaddingIsFirstWeekday(shown: Day)
    ensures var g := Grid(shown);
      var first := MonthStart(MonthOf(shown));
      && 0 <= Weekday(first) <= 6
      && (forall i :: 0 <= i < Weekday(first) ==> g[i] == Padding)
      && g[Weekday(first)] == DayCell(first)
  {
    var k := MonthOf(shown);
    var g := Grid(shown);
    var first := MonthStart(k);
    assert DayCell(first) in g by {
      assert InMonth(first, k);
      MonthOfUnique(first, k);
    }
    var j :| 0 <= j < |g| && g[j] == DayCell(first);
    DayCellsAscend(shown, Weekday(first), j);
  }

  /** Day cells run in strictly ascending order, one day apart. */
  lemma DayCellsAscend(shown: Day, i: int, j: int)
    requires var g := Grid(shown); Weekday(MonthStart(MonthOf(shown))) <= i <= j < |g|
    ensures Grid(shown)[i].DayCell? && Grid(shown)[j].DayCell?
    ensures Grid(shown)[j].day - Grid(shown)[i].day == j - i
  {
  }

  /** How one day cell is drawn. */
  datatype CellStyle = CellStyle(highlighted: bool, todayOutline: bool)

  function StyleOf(day: Day, completed: set<Day>, today: Day): (st: CellStyle)
    ensures st.highlighted <==> day in completed
    ensures st.todayOutline <==> day == today && day !in completed
    ensures !(st.highlighted && st.todayOutline)
  {
    var isCompleted := day in completed;
    CellStyle(isCompleted, day == today && !isCompleted)
  }

  /**
   * `addMonths(d, n)`: the same day of the month `n` months later, clamped
   * to the last day of a shorter month.
   */
  function AddMonths(d: Day, n: int): (r: Day)
    ensures MonthOf(r) == MonthOf(d) + n
    ensures r - MonthStart(MonthOf(r)) <= d - MonthStart(MonthOf(d))
    ensures var i := d - MonthStart(MonthOf(d)); var k := MonthOf(d) + n;
      r - MonthStart(MonthOf(r)) == if i < DaysInMonth(k) then i else DaysInMonth(k) - 1
  {
    var k := MonthOf(d);
    var dayIndex := d - MonthStart(k);
    var k' := k + n;
    var dayIndex' := if dayIndex < DaysInMonth(k') then dayIndex else DaysInMonth(k') - 1;
    var r := MonthStart(k') + dayIndex';
    MonthOfUnique(r, k');
    r
  }

  /** The arrow buttons: `dir` is +1 or -1. */
  function ToggleMonth(shown: Day, dir: int): (r: Day)
    requires dir == 1 || dir == -1
    ensures MonthOf(r) == MonthOf(shown) + dir
  {
    if dir == 1 then AddMonths(shown, 1) else AddMonths(shown, -1)
  }

  /** Going forward and back shows the month shown before. */
  lemma ToggleMonthRoundTrip(shown: Day)
    ensures Grid(ToggleMonth(ToggleMonth(shown, 1), -1)) == Grid(shown)
  {
  }
}

=== FILE: habit_chart.dfy ===
/**
 * The 14-day completion chart (components/habits/habit-chart.tsx): one point
 * per day from 13 days ago through today, valued 1 when the day is completed
 * and 0 otherwise.
 */
module HabitChart {
  import opened Calendar
  import opened HabitUtils

  datatype Point = Point(day: Day, value: int)

  const ChartLength: nat := 14

  /** Points for the `n` days starting at `first`. */
  function Window(completed: set<Day>, first: Day, n: nat): (pts: seq<Point>)
    ensures |pts| == n
    ensures forall i :: 0 <= i < n ==> pts[i].day == first + i
    ensures forall i :: 0 <= i < n ==> pts[i].value in {0, 1}
    ensures forall i :: 0 <= i < n ==> (pts[i].value == 1 <==> pts[i].day in completed)
  {
    seq(n, i requires 0 <= i < n => Point(first + i, if first + i in completed then 1 else 0))
  }

  /** The chart series as of `today`. */
  function Series(completed: set<Day>, today: Day): (pts: seq<Point>)
    ensures |pts| == ChartLength
    ensures pts[ChartLength - 1].day == today
    ensures forall i, j :: 0 <= i < j < |pts| ==> pts[i].day < pts[j].day
  {
    Window(completed, today - (ChartLength - 1), ChartLength)
  }

  /** Point i is the day 13 - i days before today, valued 1 exactly when completed. */
  lemma SeriesPoint(completed: set<Day>, today: Day, i: int)
    requires 0 <= i < ChartLength
    ensures Series(completed, today)[i].day == today - (13 - i)
    ensures Series(completed, today)[i].value in {0, 1}
    ensures Series(completed, today)[i].value == 1 <==> today - (13 - i) in completed
  {
  }

  function SumValues(pts: seq<Point>): int {
    if pts == [] then 0 else SumValues(pts[..|pts| - 1]) + pts[|pts| - 1].value
  }

  /** The completed days among the `n` days starting at `first`. */
  ghost function CompletedIn(completed: set<Day>, first: Day, n: nat): set<Day> {
    set d | d in completed && first <= d < first + n
  }

  lemma {:induction false} WindowSum(completed: set<Day>, first: Day, n: nat)
    ensures SumValues(Window(completed, first, n)) == |CompletedIn(completed, first, n)|
  {
    if n > 0 {
      var w := Window(completed, first, n);
      assert w[..n - 1] == Window(completed, first, n - 1);
      WindowSum(completed, first, n - 1);
      var last := first + n - 1;
      if last in completed {
        assert CompletedIn(completed, first, n) == CompletedIn(completed, first, n - 1) + {last};
      } else {
        assert CompletedIn(completed, first, n) == CompletedIn(completed, first, n - 1);
      }
    }
  }

  /** The chart's total is the number of completed days in the last 14 days. */
  lemma SeriesSumCountsRecentDays(completed: set<Day>, today: Day)
    ensures SumValues(Series(completed, today)) == |set d | d in completed && today - 13 <= d <= today|
  {
    WindowSum(completed, today - 13, 14);
    assert CompletedIn(completed, today - 13, 14) == set d | d in completed && today - 13 <= d <= today;
  }

  /**
   * The chart agrees with the streak: the last `min(streak, 14)` points ending
   * at the streak's start day are 1, and the point just before the run, when
   * it is on the chart, is 0.
   */
  lemma SeriesShowsStreak(completed: set<Day>, today: Day)
    requires today in completed
    ensures var pts := Series(completed, today);
      var k := Streak(completed, today);
      && (forall i :: 0 <= i < ChartLength && 13 - i < k ==> pts[i].value == 1)
      && (k < ChartLength ==> pts[13 - k].value == 0)
  {
    var k := Streak(completed, today);
    assert IsRunEndingAt(completed, today, k);
  }
}

=== FILE: habit_form.dfy ===
/**
 * The new-habit form (components/habits/habit-form.tsx): every day or
 * specific weekdays (0 = Sunday), a blank title submits nothing, and a
 * successful create resets the form. Specific days are sent as the digit
 * strings "0".."6".
 */
module HabitForm {
  import opened Wrappers
  import opened Text
  import opened Seqs
  import opened Calendar
  import opened JsNumber

  datatype Frequency = Daily | Custom

  /**
   * The form fields. `goal` is `None` when the goal input did not parse as a
   * number (`NaN`).
   */
  datatype Fields = Fields(
    title: string,
    description: string,
    frequency: Frequency,
    customDays: seq<int>,
    goal: Option<int>,
    startDay: Day,
    endDay: Option<Day>,
    hasEndDate: bool
  )

  function Initial(today: Day): Fields {
    Fields("", "", Daily, [], Some(1), today, None, false)
  }

  function IsNotDay(d: int): int -> bool {
    x => x != d
  }

  /** `toggleDay`: remove every copy of a selected day, or append an unselected one. */
  function ToggleDay(days: seq<int>, d: int): (r: seq<int>)
    ensures d in days ==> d !in r
    ensures d !in days ==> r == days + [d]
    ensures forall x :: x != d ==> (x in r <==> x in days)
  {
    if d in days then Filter(days, IsNotDay(d)) else days + [d]
  }

  /** Toggling an unselected day twice gives back the selection. */
  lemma ToggleDayTwice(days: seq<int>, d: int)
    requires d !in days
    ensures ToggleDay(ToggleDay(days, d), d) == days
  {
    FilterAll(days, IsNotDay(d));
    FilterAppend(days, [d], IsNotDay(d));
    assert Filter([d], IsNotDay(d)) == Filter([], IsNotDay(d)) + [];
  }

  /** The "Every Day" button. */
  function ChooseDaily(f: Fields): Fields {
    f.(frequency := Daily)
  }

  /** The "Specific Days" button: Monday, Wednesday and Friday when no day is chosen yet. */
  function ChooseCustom(f: Fields): (g: Fields)
    ensures g.frequency == Custom
    ensures g.customDays == if f.customDays == [] then [1, 3, 5] else f.customDays
    ensures g.(frequency := f.frequency, customDays := f.customDays) == f
  {
    f.(frequency := Custom, customDays := if |f.customDays| == 0 then [1, 3, 5] else f.customDays)
  }

  /** The goal input: `parseInt` of the text, `NaN` included. */
  function EditGoal(f: Fields, input: string): Fields {
    f.(goal := ParseInt(input))
  }

  /** A typed number becomes the goal; a cleared input leaves the goal `NaN`. */
  lemma EditGoalReadsNumber(f: Fields, n: nat)
    ensures EditGoal(f, NatToString(n)).goal == Some(n)
    ensures EditGoal(f, "").goal == None
  {
    ParseIntOfNat(n);
  }

  /** The start-date picker ignores a cleared selection. */
  function SelectStartDay(f: Fields, d: Option<Day>): Fields {
    if d.Some? then f.(startDay := d.value) else f
  }

  /** `String(n)` for a weekday number; negative numbers keep their sign. */
  function NumberToString(n: int): (s: string)
    ensures 0 <= n ==> s == NatToString(n)
  {
    if n < 0 then "-" + NatToString(-n) else NatToString(n)
  }

  /** The stored frequency tokens. */
  function FrequencyData(f: Fields): (tokens: seq<string>)
    ensures f.frequency == Daily ==> tokens == ["DAILY"]
    ensures f.frequency == Custom ==> |tokens| == |f.customDays|
    ensures f.frequency == Custom ==> forall i :: 0 <= i < |tokens| ==> tokens[i] == NumberToString(f.customDays[i])
  {
    if f.frequency == Daily then ["DAILY"]
    else seq(|f.customDays|, i requires 0 <= i < |f.customDays| => NumberToString(f.customDays[i]))
  }

  /** A weekday number is sent as the one digit naming it. */
  lemma WeekdayEncodesAsDigit(f: Fields, i: int)
    requires f.frequency == Custom && 0 <= i < |f.customDays| && 0 <= f.customDays[i] <= 6
    ensures |FrequencyData(f)[i]| == 1 && IsDigit(FrequencyData(f)[i][0])
    ensures DigitValue(FrequencyData(f)[i][0]) == f.customDays[i]
  {
  }

  /** The body of the create request. */
  datatype Payload = Payload(
    title: string,
    description: string,
    frequency: seq<string>,
    period: string,
    goal: Option<int>,
    startDay: Day,
    endDay: Option<Day>
  )

  /** Pressing submit: nothing for a blank title; the fields stay until the create succeeds. */
  function Submit(f: Fields): (r: Option<Payload>)
    ensures r.None? <==> IsBlank(f.title)
    ensures r.Some? ==> r.value.frequency == FrequencyData(f) && r.value.period == "ANYTIME"
    ensures r.Some? ==> r.value.title == f.title && r.value.description == f.description && r.value.goal == f.goal && r.value.startDay == f.startDay
    ensures r.Some? ==> (r.value.endDay.Some? <==> f.hasEndDate && f.endDay.Some?)
    ensures r.Some? && r.value.endDay.Some? ==> r.value.endDay == f.endDay
  {
    if IsBlank(f.title) then None
    else Some(Payload(f.title, f.description, FrequencyData(f), "ANYTIME", f.goal, f.startDay,
                      if f.hasEndDate && f.endDay.Some? then f.endDay else None))
  }

  /**
   * The create succeeded: title, description, frequency, days and goal go back
   * to their initial values; the dates and the end-date switch are kept.
   */
  function OnSuccess(f: Fields): (g: Fields)
    ensures g.title == "" && g.description == "" && g.frequency == Daily && g.customDays == [] && g.goal == Some(1)
    ensures g.startDay == f.startDay && g.endDay == f.endDay && g.hasEndDate == f.hasEndDate
  {
    f.(title := "", description := "", frequency := Daily, customDays := [], goal := Some(1))
  }

  /** After a success the form submits nothing until a title is typed again. */
  lemma ResetFormSubmitsNothing(f: Fields)
    ensures Submit(OnSuccess(f)) == None
  {
  }
}

=== FILE: habit_stats_card.dfy ===
/**
 * The four numbers of the habit statistics card
 * (components/habits/habit-stats.tsx): check-ins this month, total
 * check-ins, this month's check-in rate in percent, and the streak.
 */
module HabitStatsCard {
  import opened Calendar
  import opened Types
  import opened JsMath
  import opened HabitUtils

  /** Completed days whose `yyyy-MM` is the month of `today`. */
  function MonthlyCheckIns(dates: set<Day>, today: Day): (n: nat)
    ensures n <= |dates|
    ensures n <= DaysInMonth(MonthOf(today))
  {
    var k := MonthOf(today);
    InMonthSetBound(dates, k);
    |set d | d in dates && MonthOf(d) == k|
  }

  /** At most one check-in per day of the month, and no more than there are check-ins. */
  lemma InMonthSetBound(dates: set<Day>, k: MonthIndex)
    ensures |set d | d in dates && MonthOf(d) == k| <= |dates|
    ensures |set d | d in dates && MonthOf(d) == k| <= DaysInMonth(k)
  {
    var inMonth := set d | d in dates && MonthOf(d) == k;
    var span := DaysBack(MonthStart(k) + DaysInMonth(k) - 1, DaysInMonth(k));
    forall d | d in inMonth
      ensures d in span
    {
      assert InMonth(d, MonthOf(d));
    }
    SubsetSize(inMonth, span);
    SubsetSize(inMonth, dates);
    DaysBackSize(MonthStart(k) + DaysInMonth(k) - 1, DaysInMonth(k));
  }

  lemma SubsetSize<T>(a: set<T>, b: set<T>)
    requires a <= b
    ensures |a| <= |b|
  {
    assert b == (b - a) + a;
  }

  /**
   * Counting by `yyyy-MM` prefix is counting the completed days that fall
   * between the first and the last day of today's month.
   */
  lemma MonthlyCheckInsCountsMonthSpan(dates: set<Day>, today: Day)
    ensures MonthlyCheckIns(dates, today)
         == |set d | d in dates && MonthStart(MonthOf(today)) <= d < MonthStart(MonthOf(today)) + DaysInMonth(MonthOf(today))|
  {
    var k := MonthOf(today);
    forall d | d in dates
      ensures MonthOf(d) == k <==> InMonth(d, k)
    {
      MonthOfUnique(d, k);
    }
    assert (set d | d in dates && MonthOf(d) == k)
        == (set d | d in dates && MonthStart(k) <= d < MonthStart(k) + DaysInMonth(k));
  }

  /** `Math.round(checkIns / daysInMonth * 100)`. */
  function MonthlyRate(checkIns: nat, daysInMonth: int): (r: int)
    requires daysInMonth > 0
    requires checkIns <= daysInMonth
    ensures 0 <= r <= 100
    ensures 2 * daysInMonth * r - daysInMonth <= 200 * checkIns < 2 * daysInMonth * r + daysInMonth
  {
    RoundDivBetween(100 * checkIns, daysInMonth, 0, 100);
    RoundDiv(100 * checkIns, daysInMonth)
  }

  /** Fifteen check-ins in a thirty-day month is a 50% rate. */
  lemma HalfMonthIsFiftyPercent()
    ensures MonthlyRate(15, 30) == 50
  {
  }

  /** What the card displays. */
  datatype StatsCard = StatsCard(monthlyCheckIns: nat, totalCheckIns: nat, monthlyRate: int, streak: nat)

  /** The card for a habit's logs as of `today`. */
  function Card(logs: seq<HabitLog>, today: Day): (c: StatsCard)
    ensures c.totalCheckIns == |CompletedDates(logs)|
    ensures c.monthlyCheckIns <= c.totalCheckIns
    ensures c.monthlyCheckIns <= DaysInMonth(MonthOf(today))
    ensures 0 <= c.monthlyRate <= 100
    ensures c.streak == Streak(CompletedDates(logs), today)
    ensures c.monthlyCheckIns == MonthlyCheckIns(CompletedDates(logs), today)
    ensures c.monthlyRate == MonthlyRate(c.monthlyCheckIns, DaysInMonth(MonthOf(today)))
  {
    var dates := CompletedDates(logs);
    var checkIns := MonthlyCheckIns(dates, today);
    StatsCard(checkIns, |dates|, MonthlyRate(checkIns, DaysInMonth(MonthOf(today))), Streak(dates, today))
  }
}

=== FILE: habit_utils.dfy ===
/**
 * Habit analytics (lib/habit-utils.ts): the set of days on which a habit was
 * completed, and the current streak, which is the run of consecutive
 * completed days ending today, or ending yesterday when today is not yet
 * checked in.
 */
module HabitUtils {
  import opened Wrappers
  import opened Calendar
  import opened Types

  /** How many logs are marked completed. */
  function CountCompleted(logs: seq<HabitLog>): nat {
    if logs == [] then 0
    else CountCompleted(logs[..|logs| - 1]) + (if logs[|logs| - 1].completed then 1 else 0)
  }

  /**
   * The completion set: the days of the completed logs. Uncompleted logs add
   * nothing, and two logs on one day collapse into one member.
   */
  function CompletedDates(logs: seq<HabitLog>): (s: set<Day>)
    ensures forall d :: d in s <==> exists i :: 0 <= i < |logs| && logs[i].completed && logs[i].day == d
    ensures |s| <= CountCompleted(logs)
  {
    if logs == [] then {}
    else
      var init := logs[..|logs| - 1];
      var last := logs[|logs| - 1];
      var rest := CompletedDates(init);
      assert forall i :: 0 <= i < |init| ==> init[i] == logs[i];
      if last.completed then rest + {last.day} else rest
  }

  /** More logs never shrink the completion set. */
  lemma CompletedDatesMonotone(logs: seq<HabitLog>, more: seq<HabitLog>)
    ensures CompletedDates(logs) <= CompletedDates(logs + more)
  {
    forall d | d in CompletedDates(logs)
      ensures d in CompletedDates(logs + more)
    {
      var i :| 0 <= i < |logs| && logs[i].completed && logs[i].day == d;
      assert (logs + more)[i] == logs[i];
    }
  }

  /** How many days back the habits route serves logs: from local midnight seven days ago. */
  const ServedDays: nat := 7

  /**
   * The logs the habits route (app/api/habits/route.ts) hands to the client:
   * those dated from `ServedDays` days before today onwards, in stored order.
   */
  function ServedLogs(logs: seq<HabitLog>, today: Day): (r: seq<HabitLog>)
    ensures forall l :: l in r <==> l in logs && today - ServedDays <= l.day
  {
    if logs == [] then []
    else
      var init := logs[..|logs| - 1];
      var last := logs[|logs| - 1];
      assert logs == init + [last];
      ServedLogs(init, today) + (if today - ServedDays <= last.day then [last] else [])
  }

  /** The client's completion set is the stored one cut to the served days. */
  lemma ServedDates(logs: seq<HabitLog>, today: Day)
    ensures forall d :: d in CompletedDates(ServedLogs(logs, today)) <==> d in CompletedDates(logs) && today - ServedDays <= d
  {
    var r := ServedLogs(logs, today);
    forall d
      ensures d in CompletedDates(r) <==> d in CompletedDates(logs) && today - ServedDays <= d
    {
      if d in CompletedDates(r) {
        var i :| 0 <= i < |r| && r[i].completed && r[i].day == d;
        assert r[i] in r;
        var j :| 0 <= j < |logs| && logs[j] == r[i];
      }
      if d in CompletedDates(logs) && today - ServedDays <= d {
        var i :| 0 <= i < |logs| && logs[i].completed && logs[i].day == d;
        assert logs[i] in logs;
        var j :| 0 <= j < |r| && r[j] == logs[i];
      }
    }
  }

  /** The days `d`, `d - 1`, .., `d - k + 1` are completed and `d - k` is not. */
  ghost predicate IsRunEndingAt(s: set<Day>, d: Day, k: nat) {
    && (forall x :: d - k < x <= d ==> x in s)
    && d - k !in s
  }

  /** The days `d - n + 1 .. d`. */
  ghost function DaysBack(d: Day, n: nat): (r: set<Day>)
    ensures forall x :: x in r <==> d - n < x <= d
  {
    if n == 0 then {} else DaysBack(d, n - 1) + {d - n + 1}
  }

  lemma {:induction false} DaysBackSize(d: Day, n: nat)
    ensures |DaysBack(d, n)| == n
  {
    if n > 0 {
      DaysBackSize(d, n - 1);
      assert DaysBack(d, n) == DaysBack(d, n - 1) + {d - n + 1};
    }
  }

  /** A run of `n` completed days needs at least `n` members in the set. */
  lemma RunFitsInSet(s: set<Day>, d: Day, n: nat)
    requires forall x :: d - n < x <= d ==> x in s
    ensures n <= |s|
  {
    DaysBackSize(d, n);
    var run := DaysBack(d, n);
    assert s == (s - run) + run;
  }

  /** Length of the run of consecutive completed days that ends at day `d`. */
  function RunLength(s: set<Day>, d: Day): (k: nat)
    ensures IsRunEndingAt(s, d, k)
    ensures k <= |s|
    decreases |s|
  {
    if d in s then
      var k' := RunLength(s - {d}, d - 1);
      assert forall x :: d - 1 - k' < x <= d ==> x in s by {
        forall x | d - 1 - k' < x <= d
          ensures x in s
        {
          if x != d { assert x in s - {d}; }
        }
      }
      1 + k'
    else 0
  }

  /** There is only one run ending at a given day. */
  lemma RunUnique(s: set<Day>, d: Day, k: nat, k': nat)
    requires IsRunEndingAt(s, d, k) && IsRunEndingAt(s, d, k')
    ensures k == k'
  {
  }

  /** The day the backward walk starts from: today if completed, else yesterday if completed. */
  function StreakStart(s: set<Day>, today: Day): (r: Option<Day>)
    ensures r.Some? <==> today in s || today - 1 in s
    ensures r.Some? ==> r.value in s && (r.value == today || (r.value == today - 1 && today !in s))
  {
    if today in s then Some(today)
    else if today - 1 in s then Some(today - 1)
    else None
  }

  /** The current streak as of `today`. */
  function Streak(s: set<Day>, today: Day): nat {
    match StreakStart(s, today)
    case None => 0
    case Some(d) => RunLength(s, d)
  }

  /** What `getHabitStats` returns. */
  datatype HabitStats = HabitStats(completedDates: set<Day>, streak: nat)

  /**
   * getHabitStats: builds the completion set, picks the start day and counts
   * backwards one day at a time until the first day that is not completed.
   */
  method GetHabitStats(logs: seq<HabitLog>, today: Day) returns (stats: HabitStats)
    ensures stats.completedDates == CompletedDates(logs)
    ensures stats.streak == Streak(stats.completedDates, today)
  {
    var completed := CompletedDates(logs);
    var start: Day;
    if today in completed {
      start := today;
    } else if today - 1 in completed {
      start := today - 1;
    } else {
      return HabitStats(completed, 0);
    }
    var streak: nat := 0;
    var current := start;
    while current in completed
      invariant current == start - streak
      invariant forall x :: current < x <= start ==> x in completed
      decreases |completed| - streak
    {
      RunFitsInSet(completed, start, streak + 1);
      streak := streak + 1;
      current := current - 1;
    }
    RunUnique(completed, start, streak, RunLength(completed, start));
    stats := HabitStats(completed, streak);
  }

  /** The streak never exceeds the number of completed days. */
  lemma StreakAtMostSetSize(s: set<Day>, today: Day)
    ensures Streak(s, today) <= |s|
  {
  }

  /** With neither today nor yesterday completed the streak is 0, whatever came before. */
  lemma StreakZeroWithoutRecentCheckIn(s: set<Day>, today: Day)
    requires today !in s && today - 1 !in s
    ensures Streak(s, today) == 0
  {
  }

  /**
   * A positive streak is a run: it ends today when today is completed,
   * otherwise yesterday, every day of it is completed and the day before it is not.
   */
  lemma StreakIsRun(s: set<Day>, today: Day)
    ensures var k := Streak(s, today);
      && (k > 0 <==> today in s || today - 1 in s)
      && (today in s ==> IsRunEndingAt(s, today, k))
      && (today !in s && today - 1 in s ==> IsRunEndingAt(s, today - 1, k))
  {
  }

  /** Checking in today extends a streak that was alive through yesterday by one. */
  lemma StreakExtendsWhenTodayCompleted(s: set<Day>, today: Day)
    requires today !in s && today - 1 in s
    ensures Streak(s + {today}, today) == Streak(s, today) + 1
  {
    assert (s + {today}) - {today} == s;
  }

  /** Completed on D and D-1 but not D-2: the streak as of D is 2. */
  lemma StreakBoundaryExample(s: set<Day>, d: Day)
    requires d in s && d - 1 in s && d - 2 !in s
    ensures Streak(s, d) == 2
  {
    assert RunLength(s - {d}, d - 1) == 1 by {
      assert (s - {d}) - {d - 1} == s - {d, d - 1};
    }
  }

  /** Completed on D-2 and D-3 but not D or D-1: the streak as of D is 0. */
  lemma StreakGapExample(d: Day)
    ensures Streak({d - 2, d - 3}, d) == 0
  {
  }

  /** Not completed on D but completed on D-1, D-2, D-3: the streak as of D is 3. */
  lemma StreakGraceExample(d: Day)
    ensures Streak({d - 1, d - 2, d - 3}, d) == 3
  {
    var s := {d - 1, d - 2, d - 3};
    assert s - {d - 1} == {d - 2, d - 3};
    assert {d - 2, d - 3} - {d - 2} == {d - 3};
    assert {d - 3} - {d - 3} == {};
  }

  /** Completed logs for each of the `n` days before `today`, oldest first. */
  function LogsForDaysBefore(today: Day, n: nat): (logs: seq<HabitLog>)
    ensures |logs| == n
    ensures forall i :: 0 <= i < n ==> logs[i] == HabitLog(today - n + i, true)
  {
    seq(n, i requires 0 <= i < n => HabitLog(today - n + i, true))
  }

  /** The completion set of `LogsForDaysBefore` is exactly those `n` days. */
  lemma {:induction false} LogsForDaysBeforeDates(today: Day, n: nat)
    ensures CompletedDates(LogsForDaysBefore(today, n)) == DaysBack(today - 1, n)
  {
    var logs := LogsForDaysBefore(today, n);
    forall d
      ensures d in CompletedDates(logs) <==> d in DaysBack(today - 1, n)
    {
      if d in DaysBack(today - 1, n) {
        assert logs[d - today + n].day == d;
      }
    }
  }

  /** The run ending at `d` over the `n` days `d - n + 1 .. d` has length `n`. */
  lemma {:induction false} RunOverDaysBack(d: Day, n: nat)
    ensures RunLength(DaysBack(d, n), d) == n
  {
    var s := DaysBack(d, n);
    assert d - n !in s;
    RunUnique(s, d, n, RunLength(s, d));
  }

  /**
   * A daily habit completed on the `n >= 1` days before today (not today) has
   * streak `n`; checking in today makes it `n + 1`.
   */
  lemma StreakOfConsecutiveDaysBefore(today: Day, n: nat)
    requires n >= 1
    ensures Streak(CompletedDates(LogsForDaysBefore(today, n)), today) == n
    ensures Streak(CompletedDates(LogsForDaysBefore(today, n) + [HabitLog(today, true)]), today) == n + 1
  {
    var logs := LogsForDaysBefore(today, n);
    var s := CompletedDates(logs);
    LogsForDaysBeforeDates(today, n);
    assert today - 1 in s;
    assert today !in s;
    RunOverDaysBack(today - 1, n);
    var logs' := logs + [HabitLog(today, true)];
    assert CompletedDates(logs') == s + {today} by {
      assert logs'[..|logs'| - 1] == logs;
    }
    StreakExtendsWhenTodayCompleted(s, today);
  }
}

=== FILE: habits_page.dfy ===
/**
 * The habits page (app/habits/page.tsx): which habit is shown, and
 * completion with a mood for a habit on a chosen date.
 */
module HabitsPage {
  import opened Wrappers
  import opened Calendar
  import opened Types
  import opened HabitUtils
  import opened Lookup
  import opened MoodProtocol

  /** The habit and date the mood prompt is about; `date` is an instant. */
  datatype HabitRef = HabitRef(id: string, title: string, date: int)

  datatype Page = Page(explicitHabitId: Option<string>, moodModalOpen: bool, moodSubject: Option<HabitRef>)

  /** `explicitlySelectedHabitId ?? habits[0]?.id ?? null`. */
  function ActiveHabitId(explicit: Option<string>, habits: seq<Habit>): (r: Option<string>)
    ensures explicit.Some? ==> r == explicit
    ensures explicit.None? && |habits| > 0 ==> r == Some(habits[0].id)
    ensures r.None? <==> explicit.None? && habits == []
  {
    if explicit.Some? then explicit
    else if |habits| > 0 then Some(habits[0].id)
    else None
  }

  /** The habit shown in the details pane. */
  function SelectedHabit(pg: Page, habits: seq<Habit>): Option<Habit> {
    match ActiveHabitId(pg.explicitHabitId, habits)
    case None => None
    case Some(id) => FindHabit(habits, id)
  }

  /** With nothing picked, the first habit is shown. */
  lemma FirstHabitShownByDefault(pg: Page, habits: seq<Habit>)
    requires pg.explicitHabitId.None? && |habits| > 0
    ensures SelectedHabit(pg, habits) == Some(habits[0])
  {
  }

  /** Done on the calendar day of instant `at`: some completed log falls on that day. */
  predicate CompletedOn(h: Habit, at: int) {
    exists i :: 0 <= i < |h.logs| && h.logs[i].day == DayOfInstant(at) && h.logs[i].completed
  }

  /** The same-day test agrees with the habit's completion set. */
  lemma CompletedOnIffInCompletionSet(h: Habit, at: int)
    ensures CompletedOn(h, at) <==> DayOfInstant(at) in CompletedDates(h.logs)
  {
  }

  /**
   * `handleToggleHabit` for a date: unknown habits do nothing; completing asks
   * for a mood and remembers the date; un-completing writes at once.
   */
  function HandleToggleHabit(pg: Page, habits: seq<Habit>, id: string, at: int): (r: (Page, seq<Effect>))
    ensures FindHabit(habits, id).None? ==> r == (pg, [])
    ensures FindHabit(habits, id).Some? && !CompletedOn(FindHabit(habits, id).value, at) ==>
      r == (pg.(moodModalOpen := true, moodSubject := Some(HabitRef(id, FindHabit(habits, id).value.title, at))), [])
    ensures FindHabit(habits, id).Some? && CompletedOn(FindHabit(habits, id).value, at) ==>
      r == (pg, [SetHabitLog(id, at, false)])
  {
    match FindHabit(habits, id)
    case None => (pg, [])
    case Some(h) =>
      if !CompletedOn(h, at) then (pg.(moodModalOpen := true, moodSubject := Some(HabitRef(id, h.title, at))), [])
      else (pg, [SetHabitLog(id, at, false)])
  }

  /** `handleMoodSelect`: log the mood with the habit's note, then complete the habit on the remembered date. */
  function HandleMoodSelect(pg: Page, mood: Option<Mood>): (r: (Page, seq<Effect>))
    ensures pg.moodSubject.None? ==> r == (pg, [])
    ensures pg.moodSubject.Some? ==>
      && r.0 == pg.(moodModalOpen := false, moodSubject := None)
      && r.1 == [LogMood(MoodValue(mood), HabitNotePrefix + pg.moodSubject.value.title, None),
                 SetHabitLog(pg.moodSubject.value.id, pg.moodSubject.value.date, true)]
  {
    match pg.moodSubject
    case None => (pg, [])
    case Some(s) =>
      (pg.(moodModalOpen := false, moodSubject := None),
       [LogMood(MoodValue(mood), CompletionNote(false, s.title), None), SetHabitLog(s.id, s.date, true)])
  }

  /**
   * Backfilling: completing a habit on a past date through the prompt writes
   * the log for that date, whatever day it is now.
   */
  lemma BackfillWritesChosenDate(pg: Page, habits: seq<Habit>, id: string, at: int, mood: Option<Mood>)
    requires FindHabit(habits, id).Some? && !CompletedOn(FindHabit(habits, id).value, at)
    ensures var (pg', effects) := HandleToggleHabit(pg, habits, id, at);
      effects == [] && HandleMoodSelect(pg', mood).1[1] == SetHabitLog(id, at, true)
  {
  }
}

=== FILE: js_math.dfy ===
/** Integer readings of the JavaScript `Math` calls the source makes on quotients. */
module JsMath {

  /**
   * `Math.round(a / b)` for a positive divisor: the nearest integer to a/b,
   * halves rounding up (towards +infinity), as `Math.round` does.
   */
  function RoundDiv(a: int, b: int): (r: int)
    requires b > 0
    ensures 2 * b * r - b <= 2 * a < 2 * b * r + b
  {
    (2 * a + b) / (2 * b)
  }

  /** Rounding a quotient that lies in [lo, hi] lands in [lo, hi]. */
  lemma RoundDivBetween(a: int, b: int, lo: int, hi: int)
    requires b > 0
    requires lo * b <= a <= hi * b
    ensures lo <= RoundDiv(a, b) <= hi
  {
    var r := RoundDiv(a, b);
    assert b * (2 * (r - lo) + 1) == 2 * b * r + b - 2 * (lo * b);
    PositiveFactor(b, 2 * (r - lo) + 1);
    assert b * (2 * (hi - r) + 1) == 2 * (hi * b) - (2 * b * r - b);
    PositiveFactor(b, 2 * (hi - r) + 1);
  }

  lemma PositiveFactor(b: int, y: int)
    requires b > 0 && b * y > 0
    ensures y > 0
  {
  }
}

=== FILE: js_number.dfy ===
/**
 * `parseInt(s)` with no radix, as the focus duration and habit goal inputs
 * call it: leading whitespace is skipped, one sign is read, a `0x`/`0X` prefix
 * switches to base 16, and the longest run of digits that follows is the
 * value. No digits at all gives `NaN`, modelled as `None`.
 */
module JsNumber {
  import opened Wrappers
  import opened Text

  predicate IsHexDigit(c: char) {
    IsDigit(c) || 'a' <= c <= 'f' || 'A' <= c <= 'F'
  }

  function HexDigitValue(c: char): (v: nat)
    requires IsHexDigit(c)
    ensures v < 16
  {
    if IsDigit(c) then DigitValue(c)
    else if 'a' <= c <= 'f' then c as int - 'a' as int + 10
    else c as int - 'A' as int + 10
  }

  predicate IsRadixDigit(c: char, hex: bool) {
    if hex then IsHexDigit(c) else IsDigit(c)
  }

  /** The length of the run of digits at the start of `s`. */
  function DigitRun(s: string, hex: bool): (n: nat)
    ensures n <= |s|
    ensures forall k :: 0 <= k < n ==> IsRadixDigit(s[k], hex)
    ensures n < |s| ==> !IsRadixDigit(s[n], hex)
  {
    if s == [] || !IsRadixDigit(s[0], hex) then 0 else 1 + DigitRun(s[1..], hex)
  }

  /** The value of a run of hexadecimal digits. */
  function HexValue(s: string): nat
    requires forall k :: 0 <= k < |s| ==> IsHexDigit(s[k])
  {
    if s == [] then 0 else 16 * HexValue(s[..|s| - 1]) + HexDigitValue(s[|s| - 1])
  }

  /** The value of the digit run at the start of `body`, or `None` when there is none. */
  function ParseRun(body: string, hex: bool): Option<nat> {
    var n := DigitRun(body, hex);
    if n == 0 then None
    else if hex then Some(HexValue(body[..n]))
    else Some(ParseDigits(body[..n]))
  }

  /** An unsigned number, in base 16 after a `0x` or `0X` prefix. */
  function ParseUnsigned(u: string): Option<nat> {
    if |u| >= 2 && u[0] == '0' && (u[1] == 'x' || u[1] == 'X') then ParseRun(u[2..], true)
    else ParseRun(u, false)
  }

  /** A number read from a suffix of `s`, also in base 16 (`0x`), needs a decimal digit of `s`. */
  lemma DigitInSuffix(s: string, u: string)
    requires |u| <= |s| && u == s[|s| - |u|..]
    ensures ParseUnsigned(u).Some? ==> exists k :: 0 <= k < |s| && IsDigit(s[k])
  {
    if ParseUnsigned(u).Some? {
      assert IsDigit(u[0]);
      assert s[|s| - |u|] == u[0];
    }
  }

  /** `parseInt(s)`. */
  function ParseInt(s: string): Option<int> {
    var t := TrimStart(s);
    if |t| > 0 && t[0] == '-' then
      match ParseUnsigned(t[1..])
      case None => None
      case Some(m) => Some(-(m as int))
    else if |t| > 0 && t[0] == '+' then
      match ParseUnsigned(t[1..])
      case None => None
      case Some(m) => Some(m)
    else
      match ParseUnsigned(t)
      case None => None
      case Some(m) => Some(m)
  }

  /** Text without a single decimal digit is `NaN`, whatever signs, spaces or `x` it holds. */
  lemma ParseIntNeedsDigit(s: string)
    ensures (forall k :: 0 <= k < |s| ==> !IsDigit(s[k])) ==> ParseInt(s).None?
  {
    var t := TrimStart(s);
    DigitInSuffix(s, t);
    if |t| > 0 {
      DigitInSuffix(s, t[1..]);
    }
  }

  /** `TrimStart` drops exactly the leading white space `sp`. */
  lemma {:induction false} TrimStartSpaces(sp: string, t: string)
    requires forall k :: 0 <= k < |sp| ==> IsJsSpace(sp[k])
    requires t == [] || !IsJsSpace(t[0])
    ensures TrimStart(sp + t) == t
  {
    if sp != [] {
      assert (sp + t)[1..] == sp[1..] + t;
      TrimStartSpaces(sp[1..], t);
    } else {
      assert sp + t == t;
    }
  }

  /** The digit run of `d + rest` is `d` when `rest` does not start with a digit. */
  lemma {:induction false} DigitRunOf(d: string, rest: string, hex: bool)
    requires forall k :: 0 <= k < |d| ==> IsRadixDigit(d[k], hex)
    requires rest == [] || !IsRadixDigit(rest[0], hex)
    ensures DigitRun(d + rest, hex) == |d|
    ensures (d + rest)[..|d|] == d
  {
    if d != [] {
      assert (d + rest)[1..] == d[1..] + rest;
      DigitRunOf(d[1..], rest, hex);
    } else {
      assert d + rest == rest;
    }
  }

  /** The unsigned part: the decimal digits `d`, up to the first non-digit of `rest`. */
  lemma UnsignedDecimal(d: string, rest: string)
    requires |d| > 0 && forall k :: 0 <= k < |d| ==> IsDigit(d[k])
    requires rest == [] || !IsDigit(rest[0])
    requires d[0] != '0' || |d| > 1 || rest == [] || (rest[0] != 'x' && rest[0] != 'X')
    ensures ParseUnsigned(d + rest) == Some(ParseDigits(d))
  {
    var u := d + rest;
    assert u[0] == d[0];
    assert |u| >= 2 ==> u[1] == if |d| > 1 then d[1] else rest[0];
    DigitRunOf(d, rest, false);
  }

  /** An unsigned reading after the white space is the value of `parseInt`. */
  lemma ParseIntUnsigned(s: string, m: nat)
    requires |TrimStart(s)| > 0 && TrimStart(s)[0] != '-' && TrimStart(s)[0] != '+'
    requires ParseUnsigned(TrimStart(s)) == Some(m)
    ensures ParseInt(s) == Some(m)
  {
  }

  /** A minus sign after the white space negates the unsigned reading. */
  lemma ParseIntMinus(s: string, m: nat)
    requires |TrimStart(s)| > 0 && TrimStart(s)[0] == '-'
    requires ParseUnsigned(TrimStart(s)[1..]) == Some(m)
    ensures ParseInt(s) == Some(-(m as int))
  {
  }

  /** White space before a digit is all that `TrimStart` drops. */
  lemma TrimStartBeforeDigits(sp: string, d: string, rest: string)
    requires forall k :: 0 <= k < |sp| ==> IsJsSpace(sp[k])
    requires |d| > 0 && IsDigit(d[0])
    ensures TrimStart(sp + d + rest) == d + rest
  {
    var t := d + rest;
    assert sp + d + rest == sp + t;
    assert t[0] == d[0];
    TrimStartSpaces(sp, t);
  }

  /**
   * `parseInt` skips the leading white space `sp` and reads the decimal
   * digits `d`, stopping at `rest`, which does not start with a digit.
   */
  lemma ParseIntLeading(sp: string, d: string, rest: string)
    requires forall k :: 0 <= k < |sp| ==> IsJsSpace(sp[k])
    requires |d| > 0 && forall k :: 0 <= k < |d| ==> IsDigit(d[k])
    requires rest == [] || !IsDigit(rest[0])
    requires d[0] != '0' || |d| > 1 || rest == [] || (rest[0] != 'x' && rest[0] != 'X')
    ensures ParseInt(sp + d + rest) == Some(ParseDigits(d))
  {
    var s := sp + d + rest;
    var t := d + rest;
    TrimStartBeforeDigits(sp, d, rest);
    assert TrimStart(s) == t;
    UnsignedDecimal(d, rest);
    assert ParseUnsigned(t) == Some(ParseDigits(d));
    assert t[0] == d[0];
    ParseIntUnsigned(s, ParseDigits(d));
  }

  /** A minus sign in front of an unsigned number negates its value. */
  lemma ParseIntNegated(u: string, m: nat)
    requires ParseUnsigned(u) == Some(m)
    ensures ParseInt(['-'] + u) == Some(-(m as int))
  {
    var t := ['-'] + u;
    assert t[0] == '-';
    TrimStartSpaces([], t);
    assert [] + t == t;
    assert t[1..] == u;
    ParseIntMinus(t, m);
  }

  /** Parsing a rendered natural number gives the number back. */
  lemma ParseIntOfNat(n: nat)
    ensures ParseInt(NatToString(n)) == Some(n)
  {
    var s := NatToString(n);
    ParseIntLeading([], s, []);
    assert [] + s + [] == s;
    ParseNatToString(n);
  }

  /** Leading spaces are skipped and a trailing unit is ignored. */
  lemma ParseIntSkipsSpaceAndUnit()
    ensures ParseInt(" 12min") == Some(12)
  {
    ParseIntLeading([' '], "12", "min");
    assert [' '] + "12" + "min" == " 12min";
    assert ParseDigits("12") == 12 by { assert "12"[..1] == "1"; }
  }

  /** Reading stops at a decimal point. */
  lemma ParseIntStopsAtPoint()
    ensures ParseInt("1.5") == Some(1)
  {
    var s := "1.5";
    ParseIntLeading([], [s[0]], s[1..]);
    assert [] + [s[0]] + s[1..] == s;
    assert ParseDigits([s[0]]) == 1 by { assert [s[0]][..0] == []; }
  }

  /** No digits is `NaN`. */
  lemma ParseIntNoDigits()
    ensures ParseInt("") == None
    ensures ParseInt("abc") == None
  {
    var s := "abc";
    TrimStartSpaces([], s);
    assert [] + s == s;
    assert DigitRun(s, false) == 0 by { assert !IsDigit(s[0]); }
    assert !(|s| >= 2 && s[0] == '0');
  }

  /** A minus sign negates. */
  lemma ParseIntNegative()
    ensures ParseInt("-3") == Some(-3)
  {
    var s := "-3";
    var u := s[1..];
    UnsignedDecimal(u, []);
    assert u + [] == u;
    assert ParseDigits(u) == 3 by { assert u[..0] == []; }
    ParseIntNegated(u, 3);
    assert ['-'] + u == s;
  }

  /** A `0x` prefix switches to base 16. */
  lemma ParseIntHex()
    ensures ParseInt("0x1A") == Some(26)
  {
    var s := "0x1A";
    assert !IsJsSpace(s[0]);
    assert TrimStart(s) == s;
    var body := s[2..];
    assert body == "1A";
    HexRunExample();
  }

  lemma HexRunExample()
    ensures ParseRun("1A", true) == Some(26)
  {
    var body := "1A";
    assert IsHexDigit(body[0]) && IsHexDigit(body[1]);
    assert body[1..][1..] == [];
    assert DigitRun(body, true) == 2;
    assert body[..2] == body;
    assert body[..1] == "1";
    assert HexValue(body) == 16 * HexValue("1") + 10;
  }
}

=== FILE: kanban_board.dfy ===
/**
 * The Kanban board (components/tasks/kanban-board.tsx): a "todo" column of
 * open tasks, a "done" column of completed ones, and the drop handler that
 * asks to change a task's completion when it is dragged onto a column.
 */
module KanbanBoard {
  import opened Wrappers
  import opened Seqs
  import opened Types
  import opened MoodProtocol

  const TodoColumn: string := "todo"
  const DoneColumn: string := "done"

  function IsOpen(t: Task): bool { !t.completed }
  function IsCompleted(t: Task): bool { t.completed }

  /** The "todo" column: exactly the open tasks, in list order. */
  function TodoTasks(tasks: seq<Task>): (r: seq<Task>)
    ensures forall i :: 0 <= i < |r| ==> r[i] in tasks && !r[i].completed
    ensures forall i :: 0 <= i < |tasks| && !tasks[i].completed ==> tasks[i] in r
  {
    Filter(tasks, IsOpen)
  }

  /** The "done" column: exactly the completed tasks, in list order. */
  function DoneTasks(tasks: seq<Task>): (r: seq<Task>)
    ensures forall i :: 0 <= i < |r| ==> r[i] in tasks && r[i].completed
    ensures forall i :: 0 <= i < |tasks| && tasks[i].completed ==> tasks[i] in r
  {
    Filter(tasks, IsCompleted)
  }

  /** The columns split the tasks: each task is in exactly one, and the sizes add up. */
  lemma ColumnsPartition(tasks: seq<Task>)
    ensures |TodoTasks(tasks)| + |DoneTasks(tasks)| == |tasks|
    ensures forall i :: 0 <= i < |tasks| ==> (tasks[i] in TodoTasks(tasks) <==> !tasks[i].completed)
    ensures forall i :: 0 <= i < |tasks| ==> (tasks[i] in DoneTasks(tasks) <==> tasks[i].completed)
  {
    FilterSplits(tasks, IsOpen, IsCompleted);
    forall i | 0 <= i < |tasks|
      ensures tasks[i] in TodoTasks(tasks) <==> !tasks[i].completed
      ensures tasks[i] in DoneTasks(tasks) <==> tasks[i].completed
    {
      if tasks[i] in TodoTasks(tasks) {
        var j :| 0 <= j < |TodoTasks(tasks)| && TodoTasks(tasks)[j] == tasks[i];
      }
      if tasks[i] in DoneTasks(tasks) {
        var j :| 0 <= j < |DoneTasks(tasks)| && DoneTasks(tasks)[j] == tasks[i];
      }
    }
  }

  /**
   * `handleDragEnd`: `activeId` is the dragged task, `overId` the drop
   * target, if any. Only a drop on a column other than the dragged item asks
   * for a write.
   */
  function HandleDragEnd(activeId: string, overId: Option<string>): (r: Option<Effect>)
    ensures r.Some? <==> overId.Some? && overId.value != activeId && overId.value in {TodoColumn, DoneColumn}
    ensures r.Some? ==> r.value == SetTaskCompleted(activeId, overId.value == DoneColumn)
  {
    match overId
    case None => None
    case Some(columnId) =>
      if columnId == activeId then None
      else if columnId == TodoColumn then Some(SetTaskCompleted(activeId, false))
      else if columnId == DoneColumn then Some(SetTaskCompleted(activeId, true))
      else None
  }

  /** The task a write leaves behind: its completion set as asked. */
  function Apply(t: Task, e: Effect): Task
    requires e.SetTaskCompleted?
  {
    if t.id == e.taskId then t.(completed := e.completed) else t
  }

  /** A task dropped on a column lands in that column once the write is applied. */
  lemma DropLandsInColumn(t: Task, column: string)
    requires column in {TodoColumn, DoneColumn} && column != t.id
    ensures HandleDragEnd(t.id, Some(column)).Some?
    ensures var t' := Apply(t, HandleDragEnd(t.id, Some(column)).value);
      [t'] == (if column == DoneColumn then DoneTasks([t']) else TodoTasks([t']))
  {
    var t' := Apply(t, HandleDragEnd(t.id, Some(column)).value);
    assert Filter([t'], IsOpen) == Filter([], IsOpen) + (if IsOpen(t') then [t'] else []);
    assert Filter([t'], IsCompleted) == Filter([], IsCompleted) + (if IsCompleted(t') then [t'] else []);
  }

  /** A task whose own id is "done" dropped on the "done" column asks for nothing. */
  lemma DropOnOwnIdIgnored()
    ensures HandleDragEnd(DoneColumn, Some(DoneColumn)) == None
  {
  }
}

=== FILE: local_store.dfy ===
/**
 * The persisted client store (store/useStore.ts): tasks, habits and
 * categories kept in the browser, with add, toggle, update and delete
 * actions. Each action is a pure function from the old state to the new one.
 * Fresh ids and creation instants are parameters; habit dates are the
 * `yyyy-MM-dd` strings the store keys its completion map by.
 */
module LocalStore {
  import opened Wrappers
  import opened Seqs
  import opened MoodProtocol

  datatype Category = Category(id: string, name: string, color: string)

  /** A task of the local store; `mood` stands for both `null` and absent. */
  datatype LocalTask = LocalTask(
    id: string,
    title: string,
    description: Option<string>,
    isCompleted: bool,
    dueDate: Option<string>,
    mood: Option<Mood>,
    categoryId: Option<string>,
    labels: seq<string>,
    createdAt: string,
    isUrgent: Option<bool>,
    isImportant: Option<bool>
  )

  datatype Frequency = Daily | Weekly | CustomDays

  /** A habit of the local store, with its naive streak counter and its map of completed dates. */
  datatype LocalHabit = LocalHabit(
    id: string,
    title: string,
    description: Option<string>,
    frequency: Frequency,
    customDays: Option<seq<int>>,
    goal: int,
    goalDays: int,
    startDate: string,
    endDate: Option<string>,
    streak: int,
    completedDates: map<string, bool>
  )

  datatype Store = Store(tasks: seq<LocalTask>, habits: seq<LocalHabit>, categories: seq<Category>)

  /** The state of a first visit: no tasks or habits, two categories. */
  const Initial: Store := Store([], [], [Category("1", "Personal", "#3b82f6"), Category("2", "Work", "#ef4444")])

  /** What `addTask` is given: a task without id, creation instant or completion flag. */
  datatype TaskDraft = TaskDraft(
    title: string,
    description: Option<string>,
    dueDate: Option<string>,
    mood: Option<Mood>,
    categoryId: Option<string>,
    labels: Option<seq<string>>,
    isUrgent: Option<bool>,
    isImportant: Option<bool>
  )

  /** `addTask`: appends the new, open task; labels default to none. */
  function AddTask(s: Store, d: TaskDraft, id: string, createdAt: string): (r: Store)
    ensures |r.tasks| == |s.tasks| + 1 && r.tasks[..|s.tasks|] == s.tasks
    ensures var t := r.tasks[|s.tasks|];
      && t.id == id && t.createdAt == createdAt && !t.isCompleted
      && t.title == d.title && t.labels == (if d.labels.Some? then d.labels.value else [])
    ensures r.habits == s.habits && r.categories == s.categories
  {
    var t := LocalTask(id, d.title, d.description, false, d.dueDate, d.mood, d.categoryId,
                       if d.labels.Some? then d.labels.value else [], createdAt, d.isUrgent, d.isImportant);
    s.(tasks := s.tasks + [t])
  }

  /** One task after `toggleTask`: completion flipped, the mood replaced only when one is given. */
  function Toggled(t: LocalTask, mood: Option<Mood>): LocalTask {
    t.(isCompleted := !t.isCompleted, mood := if mood.Some? then mood else t.mood)
  }

  /** `toggleTask`: only the tasks with that id change. */
  function ToggleTask(s: Store, id: string, mood: Option<Mood>): (r: Store)
    ensures |r.tasks| == |s.tasks|
    ensures forall i :: 0 <= i < |s.tasks| && s.tasks[i].id != id ==> r.tasks[i] == s.tasks[i]
    ensures forall i :: 0 <= i < |s.tasks| && s.tasks[i].id == id ==>
      && r.tasks[i].isCompleted == !s.tasks[i].isCompleted
      && r.tasks[i].mood == (if mood.Some? then mood else s.tasks[i].mood)
      && r.tasks[i] == s.tasks[i].(isCompleted := r.tasks[i].isCompleted, mood := r.tasks[i].mood)
    ensures r.habits == s.habits && r.categories == s.categories
  {
    s.(tasks := seq(|s.tasks|, i requires 0 <= i < |s.tasks| =>
      if s.tasks[i].id == id then Toggled(s.tasks[i], mood) else s.tasks[i]))
  }

  /** Toggling twice without a mood gives back the same store. */
  lemma ToggleTaskTwice(s: Store, id: string)
    ensures ToggleTask(ToggleTask(s, id, None), id, None) == s
  {
    var r := ToggleTask(ToggleTask(s, id, None), id, None);
    assert r.tasks == s.tasks;
  }

  /** A mood given when completing survives un-completing without one. */
  lemma ToggleKeepsMood(s: Store, id: string, m: Mood, i: int)
    requires 0 <= i < |s.tasks| && s.tasks[i].id == id
    ensures ToggleTask(ToggleTask(s, id, Some(m)), id, None).tasks[i].mood == Some(m)
    ensures ToggleTask(ToggleTask(s, id, Some(m)), id, None).tasks[i].isCompleted == s.tasks[i].isCompleted
  {
  }

  function TaskIdIsNot(id: string): LocalTask -> bool {
    (t: LocalTask) => t.id != id
  }

  /** `deleteTask`: drops every task with that id and keeps the others in order. */
  function DeleteTask(s: Store, id: string): (r: Store)
    ensures forall i :: 0 <= i < |r.tasks| ==> r.tasks[i].id != id && r.tasks[i] in s.tasks
    ensures forall i :: 0 <= i < |s.tasks| && s.tasks[i].id != id ==> s.tasks[i] in r.tasks
    ensures r.habits == s.habits && r.categories == s.categories
  {
    s.(tasks := Filter(s.tasks, TaskIdIsNot(id)))
  }

  /**
   * The survivors keep their order and their copies: deleting from two runs of
   * tasks deletes from each, and deleting the only task with that id cuts out
   * exactly its position.
   */
  lemma DeleteKeepsOrder(s: Store, id: string, k: int)
    requires 0 <= k < |s.tasks| && s.tasks[k].id == id
    requires forall i :: 0 <= i < |s.tasks| && i != k ==> s.tasks[i].id != id
    ensures DeleteTask(s, id).tasks == s.tasks[..k] + s.tasks[k + 1..]
  {
    FilterSplice(s.tasks, k, TaskIdIsNot(id));
  }

  lemma DeleteTaskDistributes(s: Store, a: seq<LocalTask>, b: seq<LocalTask>, id: string)
    requires s.tasks == a + b
    ensures DeleteTask(s, id).tasks == DeleteTask(s.(tasks := a), id).tasks + DeleteTask(s.(tasks := b), id).tasks
  {
    FilterAppend(a, b, TaskIdIsNot(id));
  }

  /** Deleting an id no task has changes nothing; deleting after adding removes the added task. */
  lemma DeleteUnknownTask(s: Store, id: string)
    requires forall i :: 0 <= i < |s.tasks| ==> s.tasks[i].id != id
    ensures DeleteTask(s, id) == s
  {
    FilterAll(s.tasks, TaskIdIsNot(id));
  }

  lemma DeleteUndoesAdd(s: Store, d: TaskDraft, id: string, createdAt: string)
    requires forall i :: 0 <= i < |s.tasks| ==> s.tasks[i].id != id
    ensures DeleteTask(AddTask(s, d, id, createdAt), id) == s
  {
    var added := AddTask(s, d, id, createdAt);
    assert added.tasks == s.tasks + [added.tasks[|s.tasks|]];
    FilterAppend(s.tasks, [added.tasks[|s.tasks|]], TaskIdIsNot(id));
    FilterAll(s.tasks, TaskIdIsNot(id));
    assert Filter([added.tasks[|s.tasks|]], TaskIdIsNot(id)) == [];
  }

  /** A `Partial<Task>`: each field present or absent. */
  datatype TaskPatch = TaskPatch(
    id: Option<string>,
    title: Option<string>,
    description: Option<string>,
    isCompleted: Option<bool>,
    dueDate: Option<string>,
    mood: Option<Mood>,
    categoryId: Option<string>,
    labels: Option<seq<string>>,
    createdAt: Option<string>,
    isUrgent: Option<bool>,
    isImportant: Option<bool>
  )

  const EmptyPatch: TaskPatch := TaskPatch(None, None, None, None, None, None, None, None, None, None, None)

  /** `{ ...t, ...updates }`: a present field overrides, an absent one keeps the task's value. */
  function Merge(t: LocalTask, p: TaskPatch): (r: LocalTask)
    ensures r.id == if p.id.Some? then p.id.value else t.id
    ensures r.title == if p.title.Some? then p.title.value else t.title
    ensures r.description == if p.description.Some? then p.description else t.description
    ensures r.isCompleted == if p.isCompleted.Some? then p.isCompleted.value else t.isCompleted
    ensures r.dueDate == if p.dueDate.Some? then p.dueDate else t.dueDate
    ensures r.mood == if p.mood.Some? then p.mood else t.mood
    ensures r.categoryId == if p.categoryId.Some? then p.categoryId else t.categoryId
    ensures r.labels == if p.labels.Some? then p.labels.value else t.labels
    ensures r.createdAt == if p.createdAt.Some? then p.createdAt.value else t.createdAt
    ensures r.isUrgent == if p.isUrgent.Some? then p.isUrgent else t.isUrgent
    ensures r.isImportant == if p.isImportant.Some? then p.isImportant else t.isImportant
  {
    LocalTask(
      if p.id.Some? then p.id.value else t.id,
      if p.title.Some? then p.title.value else t.title,
      if p.description.Some? then p.description else t.description,
      if p.isCompleted.Some? then p.isCompleted.value else t.isCompleted,
      if p.dueDate.Some? then p.dueDate else t.dueDate,
      if p.mood.Some? then p.mood else t.mood,
      if p.categoryId.Some? then p.categoryId else t.categoryId,
      if p.labels.Some? then p.labels.value else t.labels,
      if p.createdAt.Some? then p.createdAt.value else t.createdAt,
      if p.isUrgent.Some? then p.isUrgent else t.isUrgent,
      if p.isImportant.Some? then p.isImportant else t.isImportant)
  }

  /** Merging nothing keeps the task; merging the same patch twice is merging it once. */
  lemma MergeLaws(t: LocalTask, p: TaskPatch)
    ensures Merge(t, EmptyPatch) == t
    ensures Merge(Merge(t, p), p) == Merge(t, p)
  {
  }

  /** `updateTask`: merges the patch into the tasks with that id only. */
  function UpdateTask(s: Store, id: string, p: TaskPatch): (r: Store)
    ensures |r.tasks| == |s.tasks|
    ensures forall i :: 0 <= i < |s.tasks| ==> r.tasks[i] == if s.tasks[i].id == id then Merge(s.tasks[i], p) else s.tasks[i]
    ensures r.habits == s.habits && r.categories == s.categories
  {
    s.(tasks := seq(|s.tasks|, i requires 0 <= i < |s.tasks| =>
      if s.tasks[i].id == id then Merge(s.tasks[i], p) else s.tasks[i]))
  }

  /** Toggling is updating with the flipped flag when no mood is given. */
  lemma ToggleIsUpdate(s: Store, id: string, i: int)
    requires 0 <= i < |s.tasks| && s.tasks[i].id == id
    ensures ToggleTask(s, id, None).tasks[i] == Merge(s.tasks[i], EmptyPatch.(isCompleted := Some(!s.tasks[i].isCompleted)))
  {
  }

  /** What `addHabit` is given. */
  datatype HabitDraft = HabitDraft(
    title: string,
    description: Option<string>,
    frequency: Frequency,
    customDays: Option<seq<int>>,
    goal: int,
    goalDays: int,
    startDate: string,
    endDate: Option<string>
  )

  /** `addHabit`: appends the habit with streak 0 and no completed dates. */
  function AddHabit(s: Store, d: HabitDraft, id: string): (r: Store)
    ensures |r.habits| == |s.habits| + 1 && r.habits[..|s.habits|] == s.habits
    ensures var h := r.habits[|s.habits|]; h.id == id && h.streak == 0 && h.completedDates == map[] && h.title == d.title
    ensures r.tasks == s.tasks && r.categories == s.categories
  {
    var h := LocalHabit(id, d.title, d.description, d.frequency, d.customDays, d.goal, d.goalDays,
                        d.startDate, d.endDate, 0, map[]);
    s.(habits := s.habits + [h])
  }

  /** `!h.completedDates[date]`: a missing key and a `false` entry both read as not done. */
  predicate DoneOn(h: LocalHabit, date: string) {
    date in h.completedDates && h.completedDates[date]
  }

  /** One habit after `toggleHabit` on `date`. */
  function ToggledHabit(h: LocalHabit, date: string): (r: LocalHabit)
    ensures DoneOn(r, date) == !DoneOn(h, date)
    ensures forall k :: k != date ==> (k in r.completedDates <==> k in h.completedDates)
    ensures forall k :: k != date && k in h.completedDates ==> r.completedDates[k] == h.completedDates[k]
    ensures r.streak == if DoneOn(h, date) then (if h.streak - 1 > 0 then h.streak - 1 else 0) else h.streak + 1
    ensures r == h.(completedDates := r.completedDates, streak := r.streak)
  {
    var nowDone := !DoneOn(h, date);
    var dates := if nowDone then h.completedDates[date := true] else h.completedDates - {date};
    var streak := if nowDone then h.streak + 1 else if h.streak - 1 > 0 then h.streak - 1 else 0;
    h.(completedDates := dates, streak := streak)
  }

  /** `toggleHabit`: only the habits with that id change. */
  function ToggleHabit(s: Store, id: string, date: string): (r: Store)
    ensures |r.habits| == |s.habits|
    ensures forall i :: 0 <= i < |s.habits| ==> r.habits[i] == if s.habits[i].id == id then ToggledHabit(s.habits[i], date) else s.habits[i]
    ensures r.tasks == s.tasks && r.categories == s.categories
  {
    s.(habits := seq(|s.habits|, i requires 0 <= i < |s.habits| =>
      if s.habits[i].id == id then ToggledHabit(s.habits[i], date) else s.habits[i]))
  }

  /** Every entry of the map is `true`, as the store writes it. */
  predicate OnlyTrue(m: map<string, bool>) {
    forall k :: k in m ==> m[k]
  }

  /**
   * The store's own habits keep two facts: every entry of the map is `true`,
   * and the counter equals the number of completed dates. So the counter counts
   * dates, not consecutive days.
   */
  predicate HabitInvariant(h: LocalHabit) {
    OnlyTrue(h.completedDates) && h.streak == |h.completedDates.Keys|
  }

  lemma NewHabitKeepsInvariant(s: Store, d: HabitDraft, id: string)
    ensures HabitInvariant(AddHabit(s, d, id).habits[|s.habits|])
  {
  }

  lemma ToggleKeepsInvariant(h: LocalHabit, date: string)
    requires HabitInvariant(h)
    ensures HabitInvariant(ToggledHabit(h, date))
  {
    var r := ToggledHabit(h, date);
    if DoneOn(h, date) {
      assert r.completedDates.Keys == h.completedDates.Keys - {date};
      assert |h.completedDates.Keys| >= 1;
    } else {
      assert r.completedDates.Keys == h.completedDates.Keys + {date};
    }
  }

  /** The counter never goes below zero. */
  lemma StreakNonNegative(h: LocalHabit, date: string)
    requires h.streak >= 0
    ensures ToggledHabit(h, date).streak >= 0
  {
  }

  /** Two toggles on one date restore the map, and, for the store's own habits, the whole habit. */
  lemma ToggleHabitTwice(h: LocalHabit, date: string)
    requires OnlyTrue(h.completedDates)
    ensures ToggledHabit(ToggledHabit(h, date), date).completedDates == h.completedDates
    ensures HabitInvariant(h) ==> ToggledHabit(ToggledHabit(h, date), date) == h
  {
    var once := ToggledHabit(h, date);
    var twice := ToggledHabit(once, date);
    assert twice.completedDates.Keys == h.completedDates.Keys;
    if HabitInvariant(h) {
      ToggleKeepsInvariant(h, date);
      ToggleKeepsInvariant(once, date);
    }
  }

  /** The counter is naive: two dates far apart count as 2. */
  lemma CounterIgnoresGaps(h: LocalHabit)
    requires h.completedDates == map[] && h.streak == 0
    ensures ToggledHabit(ToggledHabit(h, "2024-01-01"), "2024-03-01").streak == 2
  {
  }

  function HabitIdIsNot(id: string): LocalHabit -> bool {
    (h: LocalHabit) => h.id != id
  }

  /** `deleteHabit`: drops every habit with that id and keeps the others in order. */
  function DeleteHabit(s: Store, id: string): (r: Store)
    ensures forall i :: 0 <= i < |r.habits| ==> r.habits[i].id != id && r.habits[i] in s.habits
    ensures forall i :: 0 <= i < |s.habits| && s.habits[i].id != id ==> s.habits[i] in r.habits
    ensures r.tasks == s.tasks && r.categories == s.categories
  {
    s.(habits := Filter(s.habits, HabitIdIsNot(id)))
  }

  /** Deleting the only habit with that id cuts out exactly its position. */
  lemma DeleteHabitKeepsOrder(s: Store, id: string, k: int)
    requires 0 <= k < |s.habits| && s.habits[k].id == id
    requires forall i :: 0 <= i < |s.habits| && i != k ==> s.habits[i].id != id
    ensures DeleteHabit(s, id).habits == s.habits[..k] + s.habits[k + 1..]
  {
    FilterSplice(s.habits, k, HabitIdIsNot(id));
  }

  lemma DeleteHabitDistributes(s: Store, a: seq<LocalHabit>, b: seq<LocalHabit>, id: string)
    requires s.habits == a + b
    ensures DeleteHabit(s, id).habits == DeleteHabit(s.(habits := a), id).habits + DeleteHabit(s.(habits := b), id).habits
  {
    FilterAppend(a, b, HabitIdIsNot(id));
  }

  lemma DeleteUndoesAddHabit(s: Store, d: HabitDraft, id: string)
    requires forall i :: 0 <= i < |s.habits| ==> s.habits[i].id != id
    ensures DeleteHabit(AddHabit(s, d, id), id) == s
  {
    var added := AddHabit(s, d, id);
    assert added.habits == s.habits + [added.habits[|s.habits|]];
    FilterAppend(s.habits, [added.habits[|s.habits|]], HabitIdIsNot(id));
    FilterAll(s.habits, HabitIdIsNot(id));
    assert Filter([added.habits[|s.habits|]], HabitIdIsNot(id)) == [];
  }

  /** `addCategory`: appends the category under the fresh id. */
  function AddCategory(s: Store, name: string, color: string, id: string): (r: Store)
    ensures r.categories == s.categories + [Category(id, name, color)]
    ensures r.tasks == s.tasks && r.habits == s.habits
  {
    s.(categories := s.categories + [Category(id, name, color)])
  }

  function CategoryIdIsNot(id: string): Category -> bool {
    (c: Category) => c.id != id
  }

  /** `deleteCategory`: drops the categories with that id; tasks keep their `categoryId`. */
  function DeleteCategory(s: Store, id: string): (r: Store)
    ensures forall i :: 0 <= i < |r.categories| ==> r.categories[i].id != id && r.categories[i] in s.categories
    ensures forall i :: 0 <= i < |s.categories| && s.categories[i].id != id ==> s.categories[i] in r.categories
    ensures r.tasks == s.tasks && r.habits == s.habits
  {
    s.(categories := Filter(s.categories, CategoryIdIsNot(id)))
  }

  /** Deleting the only category with that id cuts out exactly its position. */
  lemma DeleteCategoryKeepsOrder(s: Store, id: string, k: int)
    requires 0 <= k < |s.categories| && s.categories[k].id == id
    requires forall i :: 0 <= i < |s.categories| && i != k ==> s.categories[i].id != id
    ensures DeleteCategory(s, id).categories == s.categories[..k] + s.categories[k + 1..]
  {
    FilterSplice(s.categories, k, CategoryIdIsNot(id));
  }

  lemma DeleteCategoryDistributes(s: Store, a: seq<Category>, b: seq<Category>, id: string)
    requires s.categories == a + b
    ensures DeleteCategory(s, id).categories == DeleteCategory(s.(categories := a), id).categories + DeleteCategory(s.(categories := b), id).categories
  {
    FilterAppend(a, b, CategoryIdIsNot(id));
  }

  lemma DeleteUndoesAddCategory(s: Store, name: string, color: string, id: string)
    requires forall i :: 0 <= i < |s.categories| ==> s.categories[i].id != id
    ensures DeleteCategory(AddCategory(s, name, color, id), id) == s
  {
    var c := [Category(id, name, color)];
    FilterAppend(s.categories, c, CategoryIdIsNot(id));
    FilterAll(s.categories, CategoryIdIsNot(id));
    assert Filter(c, CategoryIdIsNot(id)) == [];
  }
}

=== FILE: lookup.dfy ===
/** `Array.prototype.find` by id over tasks and habits: the first element with that id. */
module Lookup {
  import opened Wrappers
  import opened Types

  /** The first element whose key is `id`, or `None` when no element has it. */
  function Find<T>(s: seq<T>, key: T -> string, id: string): (r: Option<T>)
    ensures r.Some? ==> r.value in s && key(r.value) == id
    ensures r.None? <==> forall i :: 0 <= i < |s| ==> key(s[i]) != id
    ensures r.Some? ==>
      (exists i :: 0 <= i < |s| && s[i] == r.value && forall j :: 0 <= j < i ==> key(s[j]) != id)
  {
    if s == [] then None
    else if key(s[0]) == id then Some(s[0])
    else
      var r := Find(s[1..], key, id);
      assert forall i :: 1 <= i < |s| ==> s[i] == s[1..][i - 1];
      r
  }

  function TaskId(t: Task): string { t.id }

  function HabitId(h: Habit): string { h.id }

  /** `tasks.find((t) => t.id === id)`. */
  function FindTask(tasks: seq<Task>, id: string): Option<Task> {
    Find(tasks, TaskId, id)
  }

  /** `habits.find((h) => h.id === id)`. */
  function FindHabit(habits: seq<Habit>, id: string): Option<Habit> {
    Find(habits, HabitId, id)
  }
}

=== FILE: mood_page.dfy ===
/**
 * The mood page (app/mood/page.tsx): a seven-day strip of rounded daily
 * averages, a fourteen-day chart of exact daily averages, the tasks whose
 * completion was logged with a high or a low mood, and today's latest mood.
 * A log belongs to a day when its instant falls on that calendar day.
 */
module MoodPage {
  import opened Wrappers
  import opened Text
  import opened Seqs
  import opened Calendar
  import opened Types
  import opened JsMath
  import opened MoodProtocol

  /** The filter "logged on day d". */
  function OnDay(d: Day): MoodLog -> bool {
    (l: MoodLog) => DayOfInstant(l.at) == d
  }

  /** The logs of one day, in input order. */
  function LogsOn(logs: seq<MoodLog>, d: Day): (r: seq<MoodLog>)
    ensures forall i :: 0 <= i < |r| ==> r[i] in logs && DayOfInstant(r[i].at) == d
    ensures forall i :: 0 <= i < |logs| && DayOfInstant(logs[i].at) == d ==> logs[i] in r
  {
    Filter(logs, OnDay(d))
  }

  /** `reduce((acc, curr) => acc + curr.mood, 0)`. */
  function SumMoods(logs: seq<MoodLog>): int {
    if logs == [] then 0 else SumMoods(logs[..|logs| - 1]) + logs[|logs| - 1].mood
  }

  /** Every mood lies in 1..5, as the client writes them. */
  predicate MoodsInRange(logs: seq<MoodLog>) {
    forall i :: 0 <= i < |logs| ==> 1 <= logs[i].mood <= 5
  }

  /** A sum of `n` moods in 1..5 lies between `n` and `5 n`. */
  lemma {:induction false} SumMoodsBounds(logs: seq<MoodLog>)
    requires MoodsInRange(logs)
    ensures |logs| <= SumMoods(logs) <= 5 * |logs|
  {
    if logs != [] {
      SumMoodsBounds(logs[..|logs| - 1]);
    }
  }

  /** The moods of a subsequence of in-range logs are in range too. */
  lemma FilteredMoodsInRange(logs: seq<MoodLog>, p: MoodLog -> bool)
    requires MoodsInRange(logs)
    ensures MoodsInRange(Filter(logs, p))
  {
    var r := Filter(logs, p);
    forall i | 0 <= i < |r|
      ensures 1 <= r[i].mood <= 5
    {
      var j :| 0 <= j < |logs| && logs[j] == r[i];
    }
  }

  /** One entry of the seven-day strip: `None` for a day without logs. */
  datatype DayMood = DayMood(day: Day, mood: Option<int>)

  /** `Math.round(sum / count)` of one day's logs, or nothing for an empty day. */
  function RoundedMood(logs: seq<MoodLog>, d: Day): (m: Option<int>)
    ensures m.None? <==> LogsOn(logs, d) == []
    ensures m.Some? ==> var n := |LogsOn(logs, d)|; var s := SumMoods(LogsOn(logs, d));
      2 * n * m.value - n <= 2 * s < 2 * n * m.value + n
    ensures m.Some? && MoodsInRange(logs) ==> 1 <= m.value <= 5
  {
    var day := LogsOn(logs, d);
    if |day| == 0 then None
    else
      assert MoodsInRange(logs) ==> 1 <= RoundDiv(SumMoods(day), |day|) <= 5 by {
        if MoodsInRange(logs) {
          FilteredMoodsInRange(logs, OnDay(d));
          SumMoodsBounds(day);
          RoundDivBetween(SumMoods(day), |day|, 1, 5);
        }
      }
      Some(RoundDiv(SumMoods(day), |day|))
  }

  /** The strip: the six days before today and today, oldest first. */
  function Last7Days(logs: seq<MoodLog>, today: Day): (strip: seq<DayMood>)
    ensures |strip| == 7
    ensures forall i :: 0 <= i < 7 ==> strip[i] == DayMood(today - (6 - i), RoundedMood(logs, today - (6 - i)))
  {
    seq(7, i requires 0 <= i < 7 => DayMood(today - (6 - i), RoundedMood(logs, today - (6 - i))))
  }

  /** One point of the fourteen-day chart; `avg` is 0 for a day without logs. */
  datatype ChartPoint = ChartPoint(day: Day, avg: real)

  /** The quotient `sum / n`. */
  function Mean(sum: int, n: int): (q: real)
    requires n > 0
    ensures q * (n as real) == sum as real
  {
    (sum as real) / (n as real)
  }

  /** The exact average of one day's logs, 0 when there are none. */
  function AverageMood(logs: seq<MoodLog>, d: Day): (avg: real)
    ensures LogsOn(logs, d) == [] ==> avg == 0.0
    ensures LogsOn(logs, d) != [] ==> avg == Mean(SumMoods(LogsOn(logs, d)), |LogsOn(logs, d)|)
  {
    var day := LogsOn(logs, d);
    if |day| > 0 then Mean(SumMoods(day), |day|) else 0.0
  }

  /** The chart: the thirteen days before today and today, oldest first. */
  function ChartData(logs: seq<MoodLog>, today: Day): (pts: seq<ChartPoint>)
    ensures |pts| == 14
    ensures forall i :: 0 <= i < 14 ==> pts[i] == ChartPoint(today - (13 - i), AverageMood(logs, today - (13 - i)))
  {
    seq(14, i requires 0 <= i < 14 => ChartPoint(today - (13 - i), AverageMood(logs, today - (13 - i))))
  }

  /** With in-range moods a chart point is 0 exactly on days without logs, and otherwise in [1, 5]. */
  lemma ChartPointRange(logs: seq<MoodLog>, d: Day)
    requires MoodsInRange(logs)
    ensures AverageMood(logs, d) == 0.0 <==> LogsOn(logs, d) == []
    ensures LogsOn(logs, d) != [] ==> 1.0 <= AverageMood(logs, d) <= 5.0
  {
    if LogsOn(logs, d) != [] {
      DayAverageInRange(logs, d);
    }
  }

  /** The mean of a day with logs lies in [1, 5]. */
  lemma DayAverageInRange(logs: seq<MoodLog>, d: Day)
    requires MoodsInRange(logs) && LogsOn(logs, d) != []
    ensures 1.0 <= AverageMood(logs, d) <= 5.0
  {
    var day := LogsOn(logs, d);
    DaySumBounds(logs, d);
    MeanBetween(SumMoods(day), |day|, 1, 5);
  }

  /** A sum between `lo n` and `hi n` has its mean between `lo` and `hi`. */
  lemma MeanBetween(s: int, n: int, lo: int, hi: int)
    requires n > 0 && lo * n <= s <= hi * n
    ensures lo as real <= Mean(s, n) <= hi as real
  {
    QuotientBetween(Mean(s, n), s, n, lo, hi);
  }

  /** A day's moods add up to between one and five per log. */
  lemma DaySumBounds(logs: seq<MoodLog>, d: Day)
    requires MoodsInRange(logs)
    ensures |LogsOn(logs, d)| <= SumMoods(LogsOn(logs, d)) <= 5 * |LogsOn(logs, d)|
  {
    FilteredMoodsInRange(logs, OnDay(d));
    SumMoodsBounds(LogsOn(logs, d));
  }

  /** A quotient of a sum lying between `lo n` and `hi n` lies between `lo` and `hi`. */
  lemma QuotientBetween(q: real, s: int, n: int, lo: int, hi: int)
    requires n > 0 && q * (n as real) == s as real
    requires lo * n <= s <= hi * n
    ensures lo as real <= q <= hi as real
  {
    var nr := n as real;
    assert (q - lo as real) * nr == s as real - (lo * n) as real;
    SignOfFactor(q - lo as real, nr);
    assert (hi as real - q) * nr == (hi * n) as real - s as real;
    SignOfFactor(hi as real - q, nr);
  }

  /** Multiplying by a positive number keeps the sign. */
  lemma SignOfFactor(a: real, n: real)
    requires n > 0.0
    ensures a * n >= 0.0 ==> a >= 0.0
    ensures a * n > 0.0 ==> a > 0.0
  {
  }

  /**
   * The strip and the chart agree: on each of the last seven days the strip
   * shows the chart's average rounded to the nearest integer, halves up.
   */
  lemma StripRoundsChart(logs: seq<MoodLog>, today: Day, i: int)
    requires 0 <= i < 7
    ensures var m := Last7Days(logs, today)[i].mood; var avg := ChartData(logs, today)[7 + i].avg;
      && Last7Days(logs, today)[i].day == ChartData(logs, today)[7 + i].day
      && (m.None? <==> LogsOn(logs, today - (6 - i)) == [])
      && (m.Some? ==> (2 * m.value - 1) as real <= 2.0 * avg < (2 * m.value + 1) as real)
  {
    var d := today - (6 - i);
    var m := RoundedMood(logs, d);
    if m.Some? {
      var day := LogsOn(logs, d);
      assert Last7Days(logs, today)[i] == DayMood(d, m);
      assert ChartData(logs, today)[7 + i] == ChartPoint(d, AverageMood(logs, d));
      MeanBrackets(SumMoods(day), |day|, m.value);
    }
  }

  /** The mean of `s` over `n` lies within a half of `k` when rounding gives `k`. */
  lemma MeanBrackets(s: int, n: int, k: int)
    requires n > 0 && 2 * n * k - n <= 2 * s < 2 * n * k + n
    ensures (2 * k - 1) as real <= 2.0 * Mean(s, n) < (2 * k + 1) as real
  {
    RoundingBrackets(Mean(s, n), s, n, k);
  }

  /** Rounding `s / n` to `k` brackets the exact quotient within a half of `k`. */
  lemma RoundingBrackets(q: real, s: int, n: int, k: int)
    requires n > 0 && q * (n as real) == s as real
    requires 2 * n * k - n <= 2 * s < 2 * n * k + n
    ensures (2 * k - 1) as real <= 2.0 * q < (2 * k + 1) as real
  {
    var nr := n as real;
    var lo := (2 * k - 1) as real;
    var hi := (2 * k + 1) as real;
    assert (2.0 * q - lo) * nr == (2 * s - (2 * k - 1) * n) as real;
    SignOfFactor(2.0 * q - lo, nr);
    assert (hi - 2.0 * q) * nr == ((2 * k + 1) * n - 2 * s) as real;
    SignOfFactor(hi - 2.0 * q, nr);
  }

  /** `note?.startsWith("Completed task:")`: the filter has no space after the colon. */
  const TaskLogMarker: string := "Completed task:"

  predicate IsTaskLog(l: MoodLog) {
    l.note.Some? && StartsWith(l.note.value, TaskLogMarker)
  }

  function TaskLogs(logs: seq<MoodLog>): (r: seq<MoodLog>)
    ensures forall i :: 0 <= i < |r| ==> r[i] in logs && IsTaskLog(r[i])
    ensures forall i :: 0 <= i < |logs| && IsTaskLog(logs[i]) ==> logs[i] in r
  {
    Filter(logs, IsTaskLog)
  }

  /** An insight row: the task's name, the mood, the instant. */
  datatype Insight = Insight(taskName: string, mood: int, at: int)

  /**
   * `note?.replace("Completed task: ", "") || ""`: a note that starts with
   * the completion prefix yields the text after it; no note yields "".
   */
  function TaskName(l: MoodLog): (name: string)
    ensures l.note.None? ==> name == ""
    ensures l.note.Some? && StartsWith(l.note.value, TaskNotePrefix) ==> name == l.note.value[|TaskNotePrefix|..]
  {
    match l.note
    case Some(n) =>
      assert StartsWith(n, TaskNotePrefix) ==> OccursAt(n, TaskNotePrefix, 0);
      ReplaceFirst(n, TaskNotePrefix, "")
    case None => ""
  }

  function ToInsights(logs: seq<MoodLog>): (r: seq<Insight>)
    ensures |r| == |logs|
    ensures forall i :: 0 <= i < |logs| ==> r[i] == Insight(TaskName(logs[i]), logs[i].mood, logs[i].at)
  {
    seq(|logs|, i requires 0 <= i < |logs| => Insight(TaskName(logs[i]), logs[i].mood, logs[i].at))
  }

  predicate IsHappy(l: MoodLog) { l.mood >= 4 }
  predicate IsDrained(l: MoodLog) { l.mood <= 2 }

  /** `row` is the insight row of some task log of `logs` in class `p`. */
  predicate RowOfTaskLog(logs: seq<MoodLog>, p: MoodLog -> bool, row: Insight) {
    exists j :: 0 <= j < |logs| && IsTaskLog(logs[j]) && p(logs[j]) &&
      row == Insight(TaskName(logs[j]), logs[j].mood, logs[j].at)
  }

  /** Every insight row of class `p` comes from a task log of that class. */
  lemma ClassInsightsSound(logs: seq<MoodLog>, p: MoodLog -> bool)
    ensures forall i :: 0 <= i < |ToInsights(Filter(TaskLogs(logs), p))| ==>
      RowOfTaskLog(logs, p, ToInsights(Filter(TaskLogs(logs), p))[i])
  {
    var t := TaskLogs(logs);
    var f := Filter(t, p);
    forall i | 0 <= i < |f| ensures RowOfTaskLog(logs, p, ToInsights(f)[i]) {
      assert f[i] in t && p(f[i]);
      var j :| 0 <= j < |t| && t[j] == f[i];
      assert t[j] in logs && IsTaskLog(t[j]);
      var k :| 0 <= k < |logs| && logs[k] == f[i];
      assert ToInsights(f)[i] == Insight(TaskName(logs[k]), logs[k].mood, logs[k].at);
    }
  }

  /** Every task log of class `p` appears among the insight rows of that class. */
  lemma ClassInsightsComplete(logs: seq<MoodLog>, p: MoodLog -> bool)
    ensures forall i :: 0 <= i < |logs| && IsTaskLog(logs[i]) && p(logs[i]) ==>
      Insight(TaskName(logs[i]), logs[i].mood, logs[i].at) in ToInsights(Filter(TaskLogs(logs), p))
  {
    var t := TaskLogs(logs);
    var f := Filter(t, p);
    forall i | 0 <= i < |logs| && IsTaskLog(logs[i]) && p(logs[i])
      ensures Insight(TaskName(logs[i]), logs[i].mood, logs[i].at) in ToInsights(f)
    {
      var j :| 0 <= j < |t| && t[j] == logs[i];
      var k :| 0 <= k < |f| && f[k] == logs[i];
      assert ToInsights(f)[k] == Insight(TaskName(logs[i]), logs[i].mood, logs[i].at);
    }
  }

  /**
   * Task completions logged with a mood of 4 or more: every such log gives a
   * row, and every row comes from such a log.
   */
  function HappyTasks(logs: seq<MoodLog>): (r: seq<Insight>)
    ensures forall i :: 0 <= i < |r| ==> r[i].mood >= 4
    ensures forall i :: 0 <= i < |logs| && IsTaskLog(logs[i]) && logs[i].mood >= 4 ==>
      Insight(TaskName(logs[i]), logs[i].mood, logs[i].at) in r
    ensures forall i :: 0 <= i < |r| ==> RowOfTaskLog(logs, IsHappy, r[i])
  {
    ClassInsightsComplete(logs, IsHappy);
    ClassInsightsSound(logs, IsHappy);
    ToInsights(Filter(TaskLogs(logs), IsHappy))
  }

  /**
   * Task completions logged with a mood of 2 or less: every such log gives a
   * row, and every row comes from such a log.
   */
  function DrainedTasks(logs: seq<MoodLog>): (r: seq<Insight>)
    ensures forall i :: 0 <= i < |r| ==> r[i].mood <= 2
    ensures forall i :: 0 <= i < |logs| && IsTaskLog(logs[i]) && logs[i].mood <= 2 ==>
      Insight(TaskName(logs[i]), logs[i].mood, logs[i].at) in r
    ensures forall i :: 0 <= i < |r| ==> RowOfTaskLog(logs, IsDrained, r[i])
  {
    ClassInsightsComplete(logs, IsDrained);
    ClassInsightsSound(logs, IsDrained);
    ToInsights(Filter(TaskLogs(logs), IsDrained))
  }

  /**
   * Happy rows have a mood of 4 or more and drained rows one of 2 or less, so
   * no log feeds both lists; together they hold no more rows than there are
   * task logs.
   */
  lemma InsightsAreDisjointClasses(logs: seq<MoodLog>)
    ensures forall i :: 0 <= i < |HappyTasks(logs)| ==> HappyTasks(logs)[i].mood >= 4
    ensures forall i :: 0 <= i < |DrainedTasks(logs)| ==> DrainedTasks(logs)[i].mood <= 2
    ensures |HappyTasks(logs)| + |DrainedTasks(logs)| <= |TaskLogs(logs)|
  {
    var t := TaskLogs(logs);
    var h := Filter(t, IsHappy);
    var d := Filter(t, IsDrained);
    forall i | 0 <= i < |h| ensures h[i].mood >= 4 { }
    forall i | 0 <= i < |d| ensures d[i].mood <= 2 { }
    var either := (l: MoodLog) => IsHappy(l) || IsDrained(l);
    FilterDisjointCount(t, IsHappy, IsDrained, either);
  }

  /** The note the completion flow writes starts with the filter's marker. */
  lemma TaskNoteHasMarker(title: string)
    ensures StartsWith(CompletionNote(true, title), TaskLogMarker)
  {
    assert TaskLogMarker == TaskNotePrefix[..|TaskLogMarker|];
  }

  /**
   * Round trip with the completion flow: a log written for completing task
   * `title` with mood `m` is a task log whose name is `title`, and it is
   * listed as happy exactly for the upbeat moods and as drained exactly for
   * the low ones.
   */
  lemma CompletionLogBecomesInsight(title: string, m: Option<Mood>, at: int)
    ensures var l := MoodLog(MoodValue(m), Some(CompletionNote(true, title)), at);
      && IsTaskLog(l)
      && TaskName(l) == title
      && (IsHappy(l) <==> m in {Some(Happy), Some(Excited), Some(Active)})
      && (IsDrained(l) <==> m in {Some(Sad), Some(Tired)})
  {
    TaskNoteHasMarker(title);
    ReplacePrefixRecovers(TaskNotePrefix, title);
    MoodValueClasses(m);
  }

  /** Habit completions never show up among the task insights. */
  lemma HabitNoteIsNoTaskLog(title: string, mood: int, at: int)
    ensures !IsTaskLog(MoodLog(mood, Some(CompletionNote(false, title)), at))
  {
    var note := CompletionNote(false, title);
    assert note[10] == 'h';
  }

  /** Logging a habit completion, before or after the other logs, changes neither insight list. */
  lemma HabitLogChangesNoInsight(logs: seq<MoodLog>, title: string, mood: int, at: int)
    ensures var h := MoodLog(mood, Some(CompletionNote(false, title)), at);
      HappyTasks(logs + [h]) == HappyTasks(logs) && DrainedTasks(logs + [h]) == DrainedTasks(logs) &&
      HappyTasks([h] + logs) == HappyTasks(logs) && DrainedTasks([h] + logs) == DrainedTasks(logs)
  {
    var h := MoodLog(mood, Some(CompletionNote(false, title)), at);
    HabitNoteIsNoTaskLog(title, mood, at);
    assert Filter([h], IsTaskLog) == [] by {
      assert [h][..0] == [];
    }
    FilterAppend(logs, [h], IsTaskLog);
    FilterAppend([h], logs, IsTaskLog);
    assert TaskLogs(logs + [h]) == TaskLogs(logs);
    assert TaskLogs([h] + logs) == TaskLogs(logs);
  }

  /**
   * The first log, in input order, among those with the greatest instant: what
   * a stable sort by instant, newest first, puts at the front.
   */
  function Latest(logs: seq<MoodLog>): (r: Option<MoodLog>)
    ensures r.None? <==> logs == []
    ensures r.Some? ==> forall i :: 0 <= i < |logs| ==> logs[i].at <= r.value.at
    ensures r.Some? ==>
      (exists i :: 0 <= i < |logs| && logs[i] == r.value && forall j :: 0 <= j < i ==> logs[j].at < r.value.at)
  {
    if logs == [] then None
    else
      var rest := Latest(logs[1..]);
      assert forall i :: 1 <= i < |logs| ==> logs[i] == logs[1..][i - 1];
      if rest.None? || logs[0].at >= rest.value.at then Some(logs[0])
      else
        var k :| 0 <= k < |logs[1..]| && logs[1..][k] == rest.value
          && forall j :: 0 <= j < k ==> logs[1..][j].at < rest.value.at;
        assert logs[k + 1] == rest.value;
        rest
  }

  /** `todaysLatestMood`: the mood of today's most recent log, or nothing. */
  function TodaysLatestMood(logs: seq<MoodLog>, today: Day): (m: Option<int>)
    ensures m.None? <==> forall i :: 0 <= i < |logs| ==> DayOfInstant(logs[i].at) != today
    ensures m.Some? ==> exists i :: 0 <= i < |logs| && DayOfInstant(logs[i].at) == today && logs[i].mood == m.value
  {
    var todays := LogsOn(logs, today);
    match Latest(todays)
    case None => None
    case Some(l) => Some(l.mood)
  }

  /** No log of today is more recent than the one whose mood is shown. */
  lemma LatestMoodIsMostRecent(logs: seq<MoodLog>, today: Day)
    requires TodaysLatestMood(logs, today).Some?
    ensures var l := Latest(LogsOn(logs, today)).value;
      && l in logs && DayOfInstant(l.at) == today
      && TodaysLatestMood(logs, today) == Some(l.mood)
      && forall i :: 0 <= i < |logs| && DayOfInstant(logs[i].at) == today ==> logs[i].at <= l.at
  {
    var todays := LogsOn(logs, today);
    forall i | 0 <= i < |logs| && DayOfInstant(logs[i].at) == today
      ensures logs[i].at <= Latest(todays).value.at
    {
      var j :| 0 <= j < |todays| && todays[j] == logs[i];
    }
  }
}

=== FILE: mood_protocol.dfy ===
/**
 * Completion with a mood, as the dashboard, the tasks page's list view, the
 * habits page and the task details all do it: completing an item first asks
 * for a mood; the chosen mood is logged as a number from 1 to 5 with a note
 * naming the item, and only then is the item marked completed. Un-completing
 * writes at once. The requested writes are returned as effects rather than
 * performed. The board and the matrix complete a task directly, without a
 * mood (see KanbanBoard and EisenhowerMatrix).
 */
module MoodProtocol {
  import opened Wrappers
  import opened Text

  /**
   * The moods of the `Mood` type and of the value table; the prompt offers
   * all but `Tired`. `None` stands for `null`.
   */
  datatype Mood = Sad | Neutral | Happy | Excited | Tired | Active

  /**
   * `moodMap[moodVal || "neutral"] || 3`: the same table appears in the
   * dashboard, the tasks page, the habits page and the task details.
   */
  function MoodValue(m: Option<Mood>): (v: int)
    ensures 1 <= v <= 5
  {
    match m
    case None => 3
    case Some(Sad) => 1
    case Some(Tired) => 2
    case Some(Neutral) => 3
    case Some(Happy) => 4
    case Some(Excited) => 5
    case Some(Active) => 5
  }

  /** A missing mood is logged as neutral. */
  lemma NoMoodIsNeutral()
    ensures MoodValue(None) == MoodValue(Some(Neutral)) == 3
  {
  }

  /**
   * The logged value sorts the moods into the mood page's classes: 4 or more
   * for the upbeat ones, 2 or less for the low ones, 3 for neutral or none.
   */
  lemma MoodValueClasses(m: Option<Mood>)
    ensures MoodValue(m) >= 4 <==> m in {Some(Happy), Some(Excited), Some(Active)}
    ensures MoodValue(m) <= 2 <==> m in {Some(Sad), Some(Tired)}
    ensures MoodValue(m) == 3 <==> m in {None, Some(Neutral)}
  {
  }

  const TaskNotePrefix: string := "Completed task: "
  const HabitNotePrefix: string := "Completed habit: "

  /** `Completed task: <title>` or `Completed habit: <title>`. */
  function CompletionNote(isTask: bool, title: string): (note: string)
    ensures StartsWith(note, if isTask then TaskNotePrefix else HabitNotePrefix)
    ensures note[|if isTask then TaskNotePrefix else HabitNotePrefix|..] == title
  {
    (if isTask then TaskNotePrefix else HabitNotePrefix) + title
  }

  /** A write the client asks the server for. Instants are in milliseconds. */
  datatype Effect =
    | SetTaskCompleted(taskId: string, completed: bool)
    | SaveTaskText(taskId: string, title: string, description: string)
    | SetTaskPriority(taskId: string, priority: string)
    | DeleteTask(taskId: string)
    | SetHabitLog(habitId: string, at: int, completed: bool)
    | LogMood(mood: int, note: string, loggedAt: Option<int>)
}

=== FILE: route_guard.dfy ===
/**
 * The request guard (proxy.ts): requests for protected paths without a
 * session cookie are sent to the login page, the login page with a session is
 * sent to the dashboard, and everything else passes through.
 */
module RouteGuard {
  import opened Text

  const LoginPath: string := "/login"
  const HomePath: string := "/"

  /** The login page, the favicon, and everything under the auth API, `/_next`, `/static` and `/public`. */
  predicate IsPublicPath(path: string) {
    || path == LoginPath
    || StartsWith(path, "/api/auth")
    || StartsWith(path, "/_next")
    || StartsWith(path, "/static")
    || StartsWith(path, "/public")
    || path == "/favicon.ico"
  }

  datatype Decision = RedirectTo(target: string) | PassThrough

  /** The guard's answer for a path, given whether the session cookie is present. */
  function Decide(path: string, hasSessionToken: bool): (d: Decision)
    ensures d == RedirectTo(LoginPath) <==> !IsPublicPath(path) && !hasSessionToken
    ensures d == RedirectTo(HomePath) <==> path == LoginPath && hasSessionToken
    ensures d == PassThrough <==> (IsPublicPath(path) || hasSessionToken) && !(path == LoginPath && hasSessionToken)
  {
    if !IsPublicPath(path) && !hasSessionToken then RedirectTo(LoginPath)
    else if path == LoginPath && hasSessionToken then RedirectTo(HomePath)
    else PassThrough
  }

  /** The login page is never redirected to itself, so there is no redirect loop there. */
  lemma LoginNeverRedirectsToLogin(hasSessionToken: bool)
    ensures Decide(LoginPath, hasSessionToken) != RedirectTo(LoginPath)
  {
  }

  /**
   * Following a redirect ends at a page that passes: the login page without a
   * session, the dashboard with one.
   */
  lemma RedirectTargetPasses(path: string, hasSessionToken: bool)
    requires Decide(path, hasSessionToken).RedirectTo?
    ensures Decide(Decide(path, hasSessionToken).target, hasSessionToken) == PassThrough
  {
    assert !StartsWith(HomePath, "/api/auth") && !StartsWith(HomePath, "/_next");
  }

  /** Every path under a public prefix is public, whatever follows. */
  lemma PublicPrefixesArePublic(rest: string)
    ensures IsPublicPath("/api/auth" + rest) && IsPublicPath("/_next" + rest)
    ensures IsPublicPath("/static" + rest) && IsPublicPath("/public" + rest)
  {
    assert ("/api/auth" + rest)[..|"/api/auth"|] == "/api/auth";
    assert ("/_next" + rest)[..|"/_next"|] == "/_next";
    assert ("/static" + rest)[..|"/static"|] == "/static";
    assert ("/public" + rest)[..|"/public"|] == "/public";
  }

  /** The prefix test is textual: `/publication` counts as public, `/api/tasks` does not. */
  lemma PrefixIsTextual()
    ensures IsPublicPath("/publication")
    ensures !IsPublicPath("/api/tasks")
  {
    assert "/publication"[..|"/public"|] == "/public";
    assert "/api/tasks"[..|"/api/auth"|] != "/api/auth" by {
      assert "/api/tasks"[5] != "/api/auth"[5];
    }
    assert "/api/tasks"[..|"/_next"|] != "/_next" by { assert "/api/tasks"[1] != "/_next"[1]; }
    assert "/api/tasks"[..|"/static"|] != "/static" by { assert "/api/tasks"[1] != "/static"[1]; }
    assert "/api/tasks"[..|"/public"|] != "/public" by { assert "/api/tasks"[1] != "/public"[1]; }
  }
}

=== FILE: seed_data.dfy ===
/**
 * The pure parts of the seed script (scripts/seed-data.ts): the `.env` line
 * parser, which fills a map of variables from the file's text, and the
 * completion logs seeded for the daily water habit.
 */
module SeedData {
  import opened Wrappers
  import opened Text
  import opened Calendar
  import opened Types
  import opened HabitUtils

  /** The first index of character `c` in `s`. */
  function FirstIndex(s: string, c: char): (r: Option<nat>)
    ensures r.None? <==> c !in s
    ensures r.Some? ==> r.value < |s| && s[r.value] == c && forall j :: 0 <= j < r.value ==> s[j] != c
  {
    if s == [] then None
    else if s[0] == c then Some(0)
    else
      match FirstIndex(s[1..], c)
      case None => None
      case Some(i) => Some(i + 1)
  }

  /** `s.split(c)` for a one-character separator. */
  function Split(s: string, c: char): (parts: seq<string>)
    ensures |parts| >= 1
    ensures forall k :: 0 <= k < |parts| ==> c !in parts[k]
    decreases |s|
  {
    match FirstIndex(s, c)
    case None => [s]
    case Some(i) => [s[..i]] + Split(s[i + 1..], c)
  }

  /** `parts.join(c)`. */
  function Join(parts: seq<string>, c: char): string {
    if parts == [] then ""
    else if |parts| == 1 then parts[0]
    else parts[0] + [c] + Join(parts[1..], c)
  }

  /** Joining the pieces of a split gives back the string. */
  lemma {:induction false} JoinSplit(s: string, c: char)
    ensures Join(Split(s, c), c) == s
    decreases |s|
  {
    match FirstIndex(s, c)
    case None =>
    case Some(i) =>
      var rest := Split(s[i + 1..], c);
      JoinSplit(s[i + 1..], c);
      assert Split(s, c) == [s[..i]] + rest;
      JoinCons(s[..i], rest, c);
      assert s == s[..i] + [c] + s[i + 1..];
  }

  lemma JoinCons(first: string, rest: seq<string>, c: char)
    requires |rest| >= 1
    ensures Join([first] + rest, c) == first + [c] + Join(rest, c)
  {
    assert ([first] + rest)[1..] == rest;
  }

  /** One step of `Split`: the piece before the first separator, then the split of the rest. */
  lemma SplitUnfold(s: string, c: char, i: nat)
    requires FirstIndex(s, c) == Some(i)
    ensures Split(s, c) == [s[..i]] + Split(s[i + 1..], c)
  {
  }

  /** The first piece is everything before the first separator, and the rest join up to everything after it. */
  lemma SplitAtFirst(s: string, c: char)
    requires c in s
    ensures var i := FirstIndex(s, c).value;
      && |Split(s, c)| > 1
      && Split(s, c)[0] == s[..i]
      && Join(Split(s, c)[1..], c) == s[i + 1..]
  {
    var i := FirstIndex(s, c).value;
    var rest := Split(s[i + 1..], c);
    SplitUnfold(s, c, i);
    assert Split(s, c)[1..] == rest;
    JoinSplit(s[i + 1..], c);
  }

  predicate IsQuote(ch: char) {
    ch == '"' || ch == '\''
  }

  /** `replace(/^["']|["']$/g, "")`: one leading and one trailing quote, each removed on its own. */
  function StripQuotes(v: string): (r: string)
    ensures |v| - 2 <= |r| <= |v|
    ensures |v| > 0 && !IsQuote(v[0]) && !IsQuote(v[|v| - 1]) ==> r == v
    ensures |v| >= 2 && IsQuote(v[0]) && IsQuote(v[|v| - 1]) ==> r == v[1..|v| - 1]
  {
    var a := if |v| > 0 && IsQuote(v[0]) then v[1..] else v;
    if |a| > 0 && IsQuote(a[|a| - 1]) then a[..|a| - 1] else a
  }

  /** One `.env` line: a trimmed key and its value, or nothing when the line is skipped. */
  function ParseLine(line: string): Option<(string, string)> {
    if line == "" || StartsWith(line, "#") then None
    else
      var parts := Split(line, '=');
      var key := parts[0];
      var valueParts := parts[1..];
      if key != "" && |valueParts| > 0 then
        Some((Trim(key), StripQuotes(Trim(Join(valueParts, '=')))))
      else None
  }

  /**
   * What a line yields: nothing for an empty line, a comment, a line without
   * `=` or one that starts with `=`; otherwise the trimmed text before the
   * first `=` and the trimmed, unquoted text after it, which may itself hold `=`.
   */
  lemma ParseLineCharacterised(line: string)
    ensures ParseLine(line).Some? <==>
      && line != "" && !StartsWith(line, "#")
      && FirstIndex(line, '=').Some? && FirstIndex(line, '=').value > 0
    ensures ParseLine(line).Some? ==> var i := FirstIndex(line, '=').value;
      ParseLine(line).value == (Trim(line[..i]), StripQuotes(Trim(line[i + 1..])))
  {
    if '=' in line {
      SplitAtFirst(line, '=');
    }
  }

  /** A key the parser reads back unchanged: non-empty, no `=`, not a comment, no surrounding whitespace. */
  predicate PlainKey(key: string) {
    key != "" && '=' !in key && key[0] != '#' && !IsJsSpace(key[0]) && !IsJsSpace(key[|key| - 1])
  }

  /** A value the parser reads back unchanged: no surrounding whitespace or quotes. It may hold `=`. */
  predicate PlainValue(v: string) {
    v == "" || (!IsJsSpace(v[0]) && !IsJsSpace(v[|v| - 1]) && !IsQuote(v[0]) && !IsQuote(v[|v| - 1]))
  }

  /** The first `=` of `key=rest` is the one after the key. */
  lemma FirstSeparator(key: string, rest: string)
    requires '=' !in key
    ensures FirstIndex(key + "=" + rest, '=') == Some(|key|)
  {
    var line := key + "=" + rest;
    assert line[|key|] == '=';
    assert forall j :: 0 <= j < |key| ==> line[j] == key[j];
  }

  /** The part of `key=rest` the parser reads as the key, and the part it reads as the value. */
  lemma ParseAssignment(key: string, rest: string)
    requires PlainKey(key)
    ensures ParseLine(key + "=" + rest) == Some((key, StripQuotes(Trim(rest))))
  {
    var line := key + "=" + rest;
    FirstSeparator(key, rest);
    assert line[0] == key[0];
    assert !StartsWith(line, "#");
    ParseLineCharacterised(line);
    assert line[..|key|] == key;
    assert line[|key| + 1..] == rest;
    NoSpaceTrim(key);
  }

  /** Writing `key=value` and parsing it gives the pair back, also when the value holds `=`. */
  lemma AssignmentRoundTrip(key: string, value: string)
    requires PlainKey(key) && PlainValue(value)
    ensures ParseLine(key + "=" + value) == Some((key, value))
  {
    ParseAssignment(key, value);
    PlainValueReadBack(value);
  }

  /** A plain value survives trimming and quote stripping. */
  lemma PlainValueReadBack(value: string)
    requires PlainValue(value)
    ensures StripQuotes(Trim(value)) == value
  {
    if value == "" {
      assert TrimStart(value) == value;
      assert TrimEnd(value) == value;
    } else {
      NoSpaceTrim(value);
    }
  }

  /** A value wrapped in a pair of quotes is read without them, whatever it holds. */
  lemma QuotedRoundTrip(key: string, q: char, value: string)
    requires PlainKey(key) && IsQuote(q)
    ensures ParseLine(key + "=" + [q] + value + [q]) == Some((key, value))
  {
    var rest := [q] + value + [q];
    assert key + "=" + [q] + value + [q] == key + "=" + rest;
    ParseAssignment(key, rest);
    NoSpaceTrim(rest);
    assert rest[1..][..|rest[1..]| - 1] == value;
  }

  /** An empty line, a comment, a line without `=` and one starting with `=` are all skipped. */
  lemma SkippedLines(line: string)
    requires line == "" || StartsWith(line, "#") || '=' !in line || (|line| > 0 && line[0] == '=')
    ensures ParseLine(line).None?
  {
    ParseLineCharacterised(line);
  }

  /** Trimming leaves a string alone when it neither starts nor ends with whitespace. */
  lemma NoSpaceTrim(s: string)
    requires |s| > 0 && !IsJsSpace(s[0]) && !IsJsSpace(s[|s| - 1])
    ensures Trim(s) == s
  {
  }

  /** A parsed line: the assignment it makes, or nothing when it is skipped. */
  type Entry = Option<(string, string)>

  /** The assignments in order; a later one for a key overrides an earlier one. */
  function Assign(entries: seq<Entry>): map<string, string> {
    if entries == [] then map[]
    else
      var env := Assign(entries[..|entries| - 1]);
      match entries[|entries| - 1]
      case None => env
      case Some((k, v)) => env[k := v]
  }

  function ParseAll(lines: seq<string>): (entries: seq<Entry>)
    ensures |entries| == |lines|
    ensures forall i :: 0 <= i < |lines| ==> entries[i] == ParseLine(lines[i])
  {
    seq(|lines|, i requires 0 <= i < |lines| => ParseLine(lines[i]))
  }

  /** The whole file: split on newlines, each line parsed, the assignments made in order. */
  function ParseEnv(text: string): map<string, string> {
    Assign(ParseAll(Split(text, '\n')))
  }

  /** Entry `e` sets key `k`. */
  predicate Sets(e: Entry, k: string) {
    e.Some? && e.value.0 == k
  }

  /** A key is defined exactly when some kept line names it. */
  lemma {:induction false} AssignKeys(entries: seq<Entry>, k: string)
    ensures k in Assign(entries) <==> exists i :: 0 <= i < |entries| && Sets(entries[i], k)
  {
    if entries != [] {
      var n := |entries| - 1;
      var init := entries[..n];
      AssignKeys(init, k);
      if Sets(entries[n], k) {
        assert k in Assign(entries);
      } else {
        if k in Assign(entries) {
          var i :| 0 <= i < |init| && Sets(init[i], k);
          assert init[i] == entries[i];
        }
        if exists i :: 0 <= i < |entries| && Sets(entries[i], k) {
          var i :| 0 <= i < |entries| && Sets(entries[i], k);
          assert i < n && init[i] == entries[i];
        }
      }
    }
  }

  /** The last line that defines a key decides its value. */
  lemma {:induction false} LastAssignmentWins(entries: seq<Entry>, i: int)
    requires 0 <= i < |entries| && entries[i].Some?
    requires forall j :: i < j < |entries| ==> !Sets(entries[j], entries[i].value.0)
    ensures var (k, v) := entries[i].value; k in Assign(entries) && Assign(entries)[k] == v
  {
    if i < |entries| - 1 {
      var init := entries[..|entries| - 1];
      assert init[i] == entries[i];
      forall j | i < j < |init|
        ensures !Sets(init[j], init[i].value.0)
      {
        assert init[j] == entries[j];
      }
      LastAssignmentWins(init, i);
    }
  }

  /**
   * The environment the file yields: a key is set exactly when some kept line
   * names it, and holds the value of the last such line.
   */
  lemma ParseEnvMeaning(text: string, k: string)
    ensures var lines := Split(text, '\n');
      k in ParseEnv(text) <==> exists i :: 0 <= i < |lines| && Sets(ParseLine(lines[i]), k)
    ensures var lines := Split(text, '\n');
      forall i :: 0 <= i < |lines| && Sets(ParseLine(lines[i]), k)
        && (forall j :: i < j < |lines| ==> !Sets(ParseLine(lines[j]), k))
        ==> k in ParseEnv(text) && ParseEnv(text)[k] == ParseLine(lines[i]).value.1
  {
    var lines := Split(text, '\n');
    var entries := ParseAll(lines);
    AssignKeys(entries, k);
    forall i | 0 <= i < |lines| && Sets(ParseLine(lines[i]), k)
        && (forall j :: i < j < |lines| ==> !Sets(ParseLine(lines[j]), k))
      ensures k in ParseEnv(text) && ParseEnv(text)[k] == ParseLine(lines[i]).value.1
    {
      LastAssignmentWins(entries, i);
    }
  }

  /** The seeded water logs: completed, one for each of the nine days before today, newest first. */
  function WaterLogs(today: Day): (logs: seq<HabitLog>)
    ensures |logs| == 9
    ensures forall i :: 0 <= i < 9 ==> logs[i] == HabitLog(today - (i + 1), true)
  {
    seq(9, i requires 0 <= i < 9 => HabitLog(today - (i + 1), true))
  }

  /** The water logs cover the same days as nine consecutive logs before today. */
  lemma WaterLogsDates(today: Day)
    ensures CompletedDates(WaterLogs(today)) == CompletedDates(LogsForDaysBefore(today, 9))
  {
    var w := WaterLogs(today);
    var l := LogsForDaysBefore(today, 9);
    forall d
      ensures d in CompletedDates(w) <==> d in CompletedDates(l)
    {
      if d in CompletedDates(w) {
        var i :| 0 <= i < 9 && w[i].day == d;
        assert l[8 - i].day == d;
      }
      if d in CompletedDates(l) {
        var i :| 0 <= i < 9 && l[i].day == d;
        assert w[8 - i].day == d;
      }
    }
  }

  /** The nine seeded logs give a streak of 9, and 10 once today is checked in. */
  lemma WaterStreak(today: Day)
    ensures Streak(CompletedDates(WaterLogs(today)), today) == 9
    ensures Streak(CompletedDates(WaterLogs(today) + [HabitLog(today, true)]), today) == 10
  {
    WaterLogsDates(today);
    StreakOfConsecutiveDaysBefore(today, 9);
    var x := [HabitLog(today, true)];
    AppendKeepsDates(WaterLogs(today), LogsForDaysBefore(today, 9), x);
  }

  /** Cutting the nine days before today to the served window leaves the last seven. */
  lemma CutToServedWindow(served: set<Day>, stored: set<Day>, today: Day)
    requires stored == DaysBack(today - 1, 9)
    requires forall d :: d in served <==> d in stored && today - ServedDays <= d
    ensures served == DaysBack(today - 1, ServedDays)
  {
    assert forall d :: d in served <==> d in DaysBack(today - 1, ServedDays);
  }

  /** Of the nine water logs, the route serves the seven days before today. */
  lemma ServedWaterWeek(today: Day)
    ensures CompletedDates(ServedLogs(WaterLogs(today), today)) == DaysBack(today - 1, ServedDays)
  {
    var w := WaterLogs(today);
    WaterLogsDates(today);
    LogsForDaysBeforeDates(today, 9);
    ServedDates(w, today);
    CutToServedWindow(CompletedDates(ServedLogs(w, today)), CompletedDates(w), today);
  }

  /** A check-in today adds today to the served completion set. */
  lemma ServedCheckIn(logs: seq<HabitLog>, today: Day)
    ensures CompletedDates(ServedLogs(logs + [HabitLog(today, true)], today))
      == CompletedDates(ServedLogs(logs, today)) + {today}
  {
    var x := [HabitLog(today, true)];
    ServedDates(logs, today);
    ServedDates(logs + x, today);
    CompletedDatesAppend(logs, x);
    assert CompletedDates(x) == {today};
  }

  /** The `n` days before today give a streak of `n`, and `n + 1` with today. */
  lemma StreakOfDaysBack(s: set<Day>, today: Day, n: nat)
    requires n >= 1
    requires s == DaysBack(today - 1, n)
    ensures Streak(s, today) == n
    ensures Streak(s + {today}, today) == n + 1
  {
    var logs := LogsForDaysBefore(today, n);
    var x := [HabitLog(today, true)];
    LogsForDaysBeforeDates(today, n);
    CompletedDatesAppend(logs, x);
    assert CompletedDates(x) == {today};
    StreakOfConsecutiveDaysBefore(today, n);
  }

  /**
   * What the client shows: the habits route serves only the last seven days
   * of logs, so the seeded water habit shows a streak of 7, and 8 once today
   * is checked in.
   */
  lemma WaterStreakAsServed(today: Day)
    ensures Streak(CompletedDates(ServedLogs(WaterLogs(today), today)), today) == 7
    ensures Streak(CompletedDates(ServedLogs(WaterLogs(today) + [HabitLog(today, true)], today)), today) == 8
  {
    ServedWaterWeek(today);
    ServedCheckIn(WaterLogs(today), today);
    StreakOfDaysBack(CompletedDates(ServedLogs(WaterLogs(today), today)), today, ServedDays);
  }

  /** The completion set of appended logs is the union of the two sets. */
  lemma {:induction false} CompletedDatesAppend(a: seq<HabitLog>, x: seq<HabitLog>)
    ensures CompletedDates(a + x) == CompletedDates(a) + CompletedDates(x)
    decreases |x|
  {
    if x == [] {
      assert a + x == a;
    } else {
      var init := x[..|x| - 1];
      assert (a + x)[..|a + x| - 1] == a + init;
      assert (a + x)[|a + x| - 1] == x[|x| - 1];
      CompletedDatesAppend(a, init);
      CompletedDatesStep(a + x);
      CompletedDatesStep(x);
    }
  }

  /** One step of the completion set's definition. */
  lemma CompletedDatesStep(logs: seq<HabitLog>)
    requires logs != []
    ensures var last := logs[|logs| - 1];
      CompletedDates(logs) == CompletedDates(logs[..|logs| - 1]) + (if last.completed then {last.day} else {})
  {
  }

  /** Logs with equal completion sets stay equal after the same logs are appended. */
  lemma AppendKeepsDates(a: seq<HabitLog>, b: seq<HabitLog>, x: seq<HabitLog>)
    requires CompletedDates(a) == CompletedDates(b)
    ensures CompletedDates(a + x) == CompletedDates(b + x)
  {
    CompletedDatesAppend(a, x);
    CompletedDatesAppend(b, x);
  }
}

=== FILE: seqs.dfy ===
/** `Array.prototype.filter` and the facts about it the model relies on. */
module Seqs {

  /** The elements of `s` that satisfy `p`, in their original order. */
  function Filter<T>(s: seq<T>, p: T -> bool): (r: seq<T>)
    ensures |r| <= |s|
    ensures forall i :: 0 <= i < |r| ==> r[i] in s && p(r[i])
    ensures forall i :: 0 <= i < |s| && p(s[i]) ==> s[i] in r
  {
    if s == [] then []
    else Filter(s[..|s| - 1], p) + (if p(s[|s| - 1]) then [s[|s| - 1]] else [])
  }

  /** Filtering distributes over concatenation. */
  lemma {:induction false} FilterAppend<T>(s: seq<T>, t: seq<T>, p: T -> bool)
    ensures Filter(s + t, p) == Filter(s, p) + Filter(t, p)
    decreases |t|
  {
    if t != [] {
      var t' := t[..|t| - 1];
      var last := t[|t| - 1];
      assert (s + t)[..|s + t| - 1] == s + t';
      assert (s + t)[|s + t| - 1] == last;
      FilterAppend(s, t', p);
      var x := if p(last) then [last] else [];
      calc {
        Filter(s + t, p);
        Filter(s + t', p) + x;
        Filter(s, p) + Filter(t', p) + x;
        Filter(s, p) + (Filter(t', p) + x);
      }
    } else {
      assert s + t == s;
    }
  }

  /** A predicate that holds at every position keeps the whole sequence. */
  lemma FilterAllIndexed<T>(s: seq<T>, p: T -> bool)
    requires forall i :: 0 <= i < |s| ==> p(s[i])
    ensures Filter(s, p) == s
  {
    forall x | x in s ensures p(x) {
      var i :| 0 <= i < |s| && s[i] == x;
    }
    FilterAll(s, p);
  }

  /**
   * Filtering out the one element that fails `p` leaves the others in their
   * order: the sequence with position `k` cut out.
   */
  lemma {:induction false} FilterSplice<T>(s: seq<T>, k: int, p: T -> bool)
    requires 0 <= k < |s| && !p(s[k])
    requires forall i :: 0 <= i < |s| && i != k ==> p(s[i])
    ensures Filter(s, p) == s[..k] + s[k + 1..]
  {
    var init := s[..|s| - 1];
    if k == |s| - 1 {
      FilterAllIndexed(init, p);
      assert s[k + 1..] == [];
    } else {
      FilterSplice(init, k, p);
      assert init[..k] == s[..k];
      assert s[k + 1..] == init[k + 1..] + [s[|s| - 1]];
    }
  }

  /** Filtering by a predicate and by its negation splits the sequence in two. */
  lemma {:induction false} FilterSplits<T>(s: seq<T>, p: T -> bool, q: T -> bool)
    requires forall x :: q(x) == !p(x)
    ensures |Filter(s, p)| + |Filter(s, q)| == |s|
  {
    if s != [] {
      FilterSplits(s[..|s| - 1], p, q);
    }
  }

  /** A predicate that holds of every element keeps the whole sequence. */
  lemma {:induction false} FilterAll<T>(s: seq<T>, p: T -> bool)
    requires forall x :: x in s ==> p(x)
    ensures Filter(s, p) == s
  {
    if s != [] {
      assert forall x :: x in s[..|s| - 1] ==> x in s;
      FilterAll(s[..|s| - 1], p);
    }
  }

  /** Filtering by two predicates that never hold together counts their disjunction. */
  lemma {:induction false} FilterDisjointCount<T>(s: seq<T>, p: T -> bool, q: T -> bool, either: T -> bool)
    requires forall x :: !(p(x) && q(x))
    requires forall x :: either(x) == (p(x) || q(x))
    ensures |Filter(s, p)| + |Filter(s, q)| == |Filter(s, either)|
  {
    if s != [] {
      FilterDisjointCount(s[..|s| - 1], p, q, either);
    }
  }
}

=== FILE: task_details.dfy ===
/**
 * The task details pane (components/tasks/task-details.tsx): title and
 * description edits saved on blur when they differ from the task, the urgency
 * flag and the button that flips it, deletion, and completion with a mood.
 */
module TaskDetails {
  import opened Wrappers
  import opened Types
  import opened MoodProtocol

  /** The pane's local state. */
  datatype Pane = Pane(title: string, description: string, moodModalOpen: bool)

  /** `task.description || ""`. */
  function DescriptionText(t: Task): string {
    match t.description
    case Some(d) => d
    case None => ""
  }

  /**
   * The pane as it opens for a task: the task's title, the prompt closed,
   * and nothing to save until a field is edited.
   */
  function Open(t: Task): (p: Pane)
    ensures p.title == t.title && !p.moodModalOpen
    ensures HandleSave(t, p) == []
  {
    Pane(t.title, DescriptionText(t), false)
  }

  /** `handleSave`: write both fields when either differs from the task. */
  function HandleSave(t: Task, p: Pane): (effects: seq<Effect>)
    ensures effects == [] <==> p.title == t.title && p.description == DescriptionText(t)
    ensures effects != [] ==> effects == [SaveTaskText(t.id, p.title, p.description)]
  {
    if p.title != t.title || p.description != DescriptionText(t) then [SaveTaskText(t.id, p.title, p.description)]
    else []
  }

  /** Leaving the fields untouched saves nothing, also when the task has no description. */
  lemma UntouchedSavesNothing(t: Task)
    ensures HandleSave(t, Open(t)) == []
  {
  }

  /** Clearing a description that was never set is not a change. */
  lemma EmptyDescriptionIsNoDescription(t: Task, p: Pane)
    requires t.description.None? && p.title == t.title && p.description == ""
    ensures HandleSave(t, p) == []
  {
  }

  predicate IsUrgent(t: Task) {
    t.priority == "HIGH" || t.priority == "CRITICAL"
  }

  /** The urgency button: an urgent task goes to MEDIUM, any other to HIGH. */
  function FlipPriority(t: Task): (e: Effect)
    ensures e.SetTaskPriority? && e.taskId == t.id
    ensures e.priority in {"MEDIUM", "HIGH"}
  {
    SetTaskPriority(t.id, if IsUrgent(t) then "MEDIUM" else "HIGH")
  }

  /** Once the new priority is stored, urgency has flipped. */
  lemma FlipPriorityFlipsUrgency(t: Task)
    ensures IsUrgent(t.(priority := FlipPriority(t).priority)) == !IsUrgent(t)
  {
  }

  /** Flipping twice lands on HIGH or MEDIUM: a CRITICAL or LOW task does not get its priority back. */
  lemma FlipTwiceNormalises(t: Task)
    ensures var once := t.(priority := FlipPriority(t).priority);
      FlipPriority(once).priority == (if IsUrgent(t) then "HIGH" else "MEDIUM")
  {
  }

  /** The delete button. */
  function Delete(t: Task): Effect {
    DeleteTask(t.id)
  }

  /** `handleToggle`: completing opens the mood prompt; un-completing writes at once. */
  function HandleToggle(t: Task, p: Pane): (r: (Pane, seq<Effect>))
    ensures !t.completed ==> r == (p.(moodModalOpen := true), [])
    ensures t.completed ==> r == (p, [SetTaskCompleted(t.id, false)])
  {
    if !t.completed then (p.(moodModalOpen := true), [])
    else (p, [SetTaskCompleted(t.id, false)])
  }

  /** `handleMoodSelect`: log the mood (no instant given), complete the task, close the prompt. */
  function HandleMoodSelect(t: Task, p: Pane, mood: Option<Mood>): (r: (Pane, seq<Effect>))
    ensures !r.0.moodModalOpen
    ensures |r.1| == 2 && r.1[1] == SetTaskCompleted(t.id, true)
    ensures r.1[0].LogMood? && 1 <= r.1[0].mood <= 5 && r.1[0].loggedAt.None?
    ensures r.1[0].note == TaskNotePrefix + t.title
    ensures r.1[0].mood == MoodValue(mood)
  {
    (p.(moodModalOpen := false), [LogMood(MoodValue(mood), CompletionNote(true, t.title), None), SetTaskCompleted(t.id, true)])
  }

  /** With no mood chosen the value logged is the neutral 3. */
  lemma NoMoodLogsThree(t: Task, p: Pane)
    ensures HandleMoodSelect(t, p, None).1[0].mood == 3
  {
  }
}

=== FILE: task_form.dfy ===
/**
 * The new-task form (components/tasks/task-form.tsx): the urgent and
 * important switches choose the priority, a blank title submits nothing, empty
 * optional fields are sent as absent, the label chips toggle, and a submit
 * resets every field.
 */
module TaskForm {
  import opened Wrappers
  import opened Text
  import opened Seqs
  import opened Calendar

  /**
   * The form fields. `dueDate` and `projectId` are the raw input strings;
   * `dueDay` is the day the due-date input denotes when it is not empty.
   */
  datatype Fields = Fields(
    title: string,
    description: string,
    dueDate: string,
    dueDay: Day,
    isUrgent: bool,
    isImportant: bool,
    projectId: string,
    labelIds: seq<string>
  )

  /** The fields when the form opens. */
  function Initial(today: Day): Fields {
    Fields("", "", "", today, false, false, "", [])
  }

  /** The body of the create request. */
  datatype Payload = Payload(
    title: string,
    description: string,
    dueDay: Option<Day>,
    priority: string,
    projectId: Option<string>,
    labelIds: seq<string>
  )

  /** Urgent and important map to HIGH, important alone to MEDIUM, anything else to LOW. */
  function PriorityOf(isUrgent: bool, isImportant: bool): (p: string)
    ensures p in {"HIGH", "MEDIUM", "LOW"}
    ensures p == "HIGH" <==> isUrgent && isImportant
    ensures p == "MEDIUM" <==> !isUrgent && isImportant
    ensures p == "LOW" <==> !isImportant
  {
    var p := "LOW";
    if isUrgent && isImportant then "HIGH"
    else if isImportant then "MEDIUM"
    else if isUrgent then "LOW"
    else p
  }

  /** Urgency alone never raises the priority above LOW. */
  lemma UrgencyAloneIsLow()
    ensures PriorityOf(true, false) == PriorityOf(false, false) == "LOW"
  {
  }

  /** The result of pressing submit: the request, if any, and the fields afterwards. */
  datatype Submission = Submission(request: Option<Payload>, after: Fields)

  function Submit(f: Fields, today: Day): (s: Submission)
    ensures IsBlank(f.title) ==> s.request == None && s.after == f
    ensures !IsBlank(f.title) ==> s.request.Some? && s.after == Initial(today)
    ensures s.request.Some? ==>
      var p := s.request.value;
      && p.title == f.title && p.description == f.description
      && (p.dueDay.None? <==> f.dueDate == "")
      && (p.dueDay.Some? ==> p.dueDay.value == f.dueDay)
      && (p.projectId.None? <==> f.projectId == "")
      && (p.projectId.Some? ==> p.projectId.value == f.projectId)
      && p.priority == PriorityOf(f.isUrgent, f.isImportant)
      && p.labelIds == f.labelIds
  {
    if IsBlank(f.title) then Submission(None, f)
    else
      var p := Payload(
        f.title,
        f.description,
        if f.dueDate != "" then Some(f.dueDay) else None,
        PriorityOf(f.isUrgent, f.isImportant),
        if f.projectId != "" then Some(f.projectId) else None,
        f.labelIds);
      Submission(Some(p), Initial(today))
  }

  /** A title of spaces only is refused. */
  lemma SpacesTitleRefused(f: Fields, today: Day)
    requires f.title == "   "
    ensures Submit(f, today).request == None
  {
    BlankIffAllSpace(f.title);
  }

  function IsNot(id: string): string -> bool {
    l => l != id
  }

  /** `toggleLabel`: drop every copy of a selected id, or append an unselected one. */
  function ToggleLabel(selected: seq<string>, id: string): (r: seq<string>)
    ensures id in selected ==> id !in r && |r| < |selected|
    ensures id !in selected ==> r == selected + [id]
    ensures forall x :: x != id ==> (x in r <==> x in selected)
  {
    if id in selected then
      var r := Filter(selected, IsNot(id));
      FilterDropsSome(selected, IsNot(id), id);
      r
    else selected + [id]
  }

  lemma {:induction false} FilterDropsSome(s: seq<string>, p: string -> bool, id: string)
    requires id in s && !p(id)
    ensures |Filter(s, p)| < |s|
  {
    var last := s[|s| - 1];
    if last != id {
      assert id in s[..|s| - 1] by {
        var k :| 0 <= k < |s| && s[k] == id;
        assert s[..|s| - 1][k] == id;
      }
      FilterDropsSome(s[..|s| - 1], p, id);
    }
  }

  /** Toggling an unselected label twice gives back the selection. */
  lemma ToggleLabelTwice(selected: seq<string>, id: string)
    requires id !in selected
    ensures ToggleLabel(ToggleLabel(selected, id), id) == selected
  {
    var once := selected + [id];
    FilterAll(selected, IsNot(id));
    FilterAppend(selected, [id], IsNot(id));
    assert Filter([id], IsNot(id)) == Filter([], IsNot(id)) + [];
  }
}

=== FILE: task_list.dfy ===
/**
 * The task list (components/tasks/task-list.tsx): a case-insensitive title
 * search, then grouping of the matching tasks by project name ("General" when
 * a task has no project or an empty project name), with "General" listed
 * first and the other groups in string order. The dashboard groups today's
 * tasks the same way.
 */
module TaskList {
  import opened Wrappers
  import opened Text
  import opened Seqs
  import opened Types

  const General: string := "General"

  /** `task.project?.name || "General"`. */
  function ProjectName(t: Task): (n: string)
    ensures n != ""
    ensures n == General <==> t.project.None? || t.project.value.name in {"", General}
  {
    match t.project
    case Some(p) => if p.name != "" then p.name else General
    case None => General
  }

  /** `task.title.toLowerCase().includes(query.toLowerCase())`. */
  predicate MatchesQuery(t: Task, query: string) {
    Contains(ToLower(t.title), ToLower(query))
  }

  function MatchingQuery(query: string): Task -> bool {
    t => MatchesQuery(t, query)
  }

  /** The search filter. */
  function Search(tasks: seq<Task>, query: string): (r: seq<Task>)
    ensures forall i :: 0 <= i < |r| ==> r[i] in tasks && MatchesQuery(r[i], query)
    ensures forall i :: 0 <= i < |tasks| && MatchesQuery(tasks[i], query) ==> tasks[i] in r
  {
    Filter(tasks, MatchingQuery(query))
  }

  /** The empty query keeps every task, in order. */
  lemma EmptyQueryKeepsAll(tasks: seq<Task>)
    ensures Search(tasks, "") == tasks
  {
    forall t | t in tasks
      ensures MatchingQuery("")(t)
    {
      assert OccursAt(ToLower(t.title), ToLower(""), 0);
    }
    FilterAll(tasks, MatchingQuery(""));
  }

  function InProject(name: string): Task -> bool {
    t => ProjectName(t) == name
  }

  /** The `reduce` into a record of project name to tasks, with its keys in insertion order. */
  datatype Grouping = Grouping(keys: seq<string>, groups: map<string, seq<Task>>)

  predicate Distinct(s: seq<string>) {
    forall i, j :: 0 <= i < j < |s| ==> s[i] != s[j]
  }

  /**
   * The keys every plain object inherits from `Object.prototype`. Reading one
   * of them from the accumulator yields a truthy member rather than
   * `undefined`, so no array is created and the following `push` throws a
   * TypeError.
   */
  const InheritedKeys: set<string> := {
    "constructor", "__proto__", "hasOwnProperty", "isPrototypeOf", "propertyIsEnumerable",
    "toLocaleString", "toString", "valueOf",
    "__defineGetter__", "__defineSetter__", "__lookupGetter__", "__lookupSetter__"
  }

  /** Some task's project name is an inherited key: the grouping throws. */
  predicate BreaksGrouping(tasks: seq<Task>) {
    exists i :: 0 <= i < |tasks| && ProjectName(tasks[i]) in InheritedKeys
  }

  /** The grouping breaks on a list exactly when it breaks on all but the last task or on the last one. */
  lemma BreaksGroupingSnoc(tasks: seq<Task>)
    requires tasks != []
    ensures BreaksGrouping(tasks) <==>
      BreaksGrouping(tasks[..|tasks| - 1]) || ProjectName(tasks[|tasks| - 1]) in InheritedKeys
  {
    var init := tasks[..|tasks| - 1];
    if BreaksGrouping(tasks) && ProjectName(tasks[|tasks| - 1]) !in InheritedKeys {
      var i :| 0 <= i < |tasks| && ProjectName(tasks[i]) in InheritedKeys;
      assert init[i] == tasks[i];
    }
    if BreaksGrouping(init) {
      var i :| 0 <= i < |init| && ProjectName(init[i]) in InheritedKeys;
      assert tasks[i] == init[i];
    }
  }

  /**
   * The `reduce`: `None` when it throws on an inherited key, otherwise the
   * distinct project names of the tasks, each with its group.
   */
  function GroupByProject(tasks: seq<Task>): (r: Option<Grouping>)
    ensures r.None? <==> BreaksGrouping(tasks)
    ensures r.Some? ==> Distinct(r.value.keys)
    ensures r.Some? ==> forall n :: n in r.value.groups <==> n in r.value.keys
    ensures r.Some? ==> forall n :: n in r.value.keys <==> n in ProjectNames(tasks)
  {
    if tasks == [] then Some(Grouping([], map[]))
    else
      BreaksGroupingSnoc(tasks);
      var t := tasks[|tasks| - 1];
      var n := ProjectName(t);
      match GroupByProject(tasks[..|tasks| - 1])
      case None => None
      case Some(acc) =>
        if n in InheritedKeys then None
        else if n in acc.groups then Some(Grouping(acc.keys, acc.groups[n := acc.groups[n] + [t]]))
        else Some(Grouping(acc.keys + [n], acc.groups[n := [t]]))
  }

  /** The project names of the tasks, in task order. */
  function ProjectNames(tasks: seq<Task>): (names: seq<string>)
    ensures |names| == |tasks|
    ensures forall i :: 0 <= i < |tasks| ==> names[i] == ProjectName(tasks[i])
  {
    if tasks == [] then [] else ProjectNames(tasks[..|tasks| - 1]) + [ProjectName(tasks[|tasks| - 1])]
  }

  /** The tasks of group `n`, or none when there is no such group. */
  function GroupOf(g: Grouping, n: string): seq<Task> {
    if n in g.groups then g.groups[n] else []
  }

  /** Each group holds exactly the tasks of that project, in input order. */
  lemma {:induction false} GroupIsFilter(tasks: seq<Task>, n: string)
    requires !BreaksGrouping(tasks)
    ensures GroupByProject(tasks).Some?
    ensures GroupOf(GroupByProject(tasks).value, n) == Filter(tasks, InProject(n))
  {
    if tasks != [] {
      BreaksGroupingSnoc(tasks);
      GroupIsFilter(tasks[..|tasks| - 1], n);
    }
  }

  /** A group exists only when some task carries its name, so no group is empty. */
  lemma GroupsAreNonEmpty(tasks: seq<Task>, n: string)
    requires !BreaksGrouping(tasks)
    ensures GroupByProject(tasks).Some?
    ensures n in GroupByProject(tasks).value.groups ==> |GroupByProject(tasks).value.groups[n]| > 0
  {
    if n in GroupByProject(tasks).value.groups {
      var i :| 0 <= i < |tasks| && ProjectNames(tasks)[i] == n;
      GroupIsFilter(tasks, n);
      assert tasks[i] in Filter(tasks, InProject(n));
    }
  }

  /** The sort comparator: "General" before everything, then string order. */
  predicate ProjectBefore(a: string, b: string) {
    if a == General then b != General
    else if b == General then false
    else LexLess(a, b)
  }

  lemma ProjectBeforeTransitive(a: string, b: string, c: string)
    requires ProjectBefore(a, b) && ProjectBefore(b, c)
    ensures ProjectBefore(a, c)
  {
    if a != General {
      LexLessTransitive(a, b, c);
    }
  }

  lemma ProjectBeforeTotal(a: string, b: string)
    requires a != b
    ensures ProjectBefore(a, b) || ProjectBefore(b, a)
  {
    if a != General && b != General {
      LexLessTotal(a, b);
    }
  }

  lemma ProjectBeforeIrreflexive(a: string)
    ensures !ProjectBefore(a, a)
  {
    LexLessIrreflexive(a);
  }

  predicate SortedNames(s: seq<string>) {
    forall i, j :: 0 <= i < j < |s| ==> ProjectBefore(s[i], s[j])
  }

  /** Inserts a new name into a sorted list of names. */
  function Insert(x: string, s: seq<string>): (r: seq<string>)
    requires SortedNames(s) && x !in s
    ensures SortedNames(r)
    ensures |r| == |s| + 1
    ensures forall y :: y in r <==> y == x || y in s
  {
    if s == [] then [x]
    else if ProjectBefore(x, s[0]) then
      forall j | 0 < j < |s|
        ensures ProjectBefore(x, s[j])
      {
        ProjectBeforeTransitive(x, s[0], s[j]);
      }
      [x] + s
    else
      ProjectBeforeTotal(x, s[0]);
      var rest := Insert(x, s[1..]);
      assert SortedNames([s[0]] + rest) by {
        forall y | y in rest
          ensures ProjectBefore(s[0], y)
        {
          if y != x {
            var j :| 0 <= j < |s[1..]| && s[1..][j] == y;
            assert s[j + 1] == y;
          }
        }
        forall i, j | 0 <= i < j < |[s[0]] + rest|
          ensures ProjectBefore(([s[0]] + rest)[i], ([s[0]] + rest)[j])
        {
          if i == 0 {
            assert rest[j - 1] in rest;
          }
        }
      }
      [s[0]] + rest
  }

  /** `Object.keys(grouped).sort(comparator)`. */
  function SortNames(s: seq<string>): (r: seq<string>)
    requires Distinct(s)
    ensures SortedNames(r)
    ensures |r| == |s|
    ensures forall y :: y in r <==> y in s
  {
    if s == [] then []
    else
      var init := s[..|s| - 1];
      assert forall i, j :: 0 <= i < j < |init| ==> init[i] == s[i] && init[j] == s[j];
      Insert(s[|s| - 1], SortNames(init))
  }

  /** Sorted names are distinct. */
  lemma SortedIsDistinct(s: seq<string>)
    requires SortedNames(s)
    ensures Distinct(s)
  {
    forall i, j | 0 <= i < j < |s|
      ensures s[i] != s[j]
    {
      if s[i] == s[j] { ProjectBeforeIrreflexive(s[i]); }
    }
  }

  /** One rendered group. */
  datatype Group = Group(name: string, tasks: seq<Task>)

  function Names(v: seq<Group>): (names: seq<string>)
    ensures |names| == |v|
    ensures forall i :: 0 <= i < |v| ==> names[i] == v[i].name
  {
    seq(|v|, i requires 0 <= i < |v| => v[i].name)
  }

  /**
   * Groups the tasks and orders the groups. When some task's project name is
   * an inherited key the grouping throws and nothing is shown (`None`).
   * Otherwise the names are sorted (so distinct), are exactly the project
   * names of the tasks, and each group is the non-empty list of that
   * project's tasks in input order.
   */
  function GroupAndSort(tasks: seq<Task>): (r: Option<seq<Group>>)
    ensures r.None? <==> BreaksGrouping(tasks)
    ensures r.Some? ==> SortedNames(Names(r.value))
    ensures r.Some? ==> forall n :: n in Names(r.value) <==> n in ProjectNames(tasks)
    ensures r.Some? ==> forall i :: 0 <= i < |r.value| ==> r.value[i].tasks == Filter(tasks, InProject(r.value[i].name))
  {
    match GroupByProject(tasks)
    case None => None
    case Some(g) =>
      var names := SortNames(g.keys);
      var v := seq(|names|, i requires 0 <= i < |names| => Group(names[i], g.groups[names[i]]));
      assert Names(v) == names;
      forall i | 0 <= i < |v|
        ensures v[i].tasks == Filter(tasks, InProject(v[i].name))
      {
        GroupIsFilter(tasks, names[i]);
      }
      Some(v)
  }

  /** One task whose project is named after an inherited key hides every group. */
  lemma InheritedNameHidesAllGroups(tasks: seq<Task>, t: Task)
    requires ProjectName(t) in InheritedKeys
    ensures GroupAndSort(tasks + [t]).None?
    ensures GroupAndSort([t] + tasks).None?
  {
    assert (tasks + [t])[|tasks|] == t;
    assert ([t] + tasks)[0] == t;
  }

  /** A single task in a project called "constructor" leaves the list without groups. */
  lemma ConstructorProjectBreaksList(t: Task)
    requires t.project == Some(Project("p", "constructor"))
    ensures GroupAndSort([t]).None?
  {
    assert ProjectName(t) == "constructor";
    InheritedNameHidesAllGroups([], t);
    assert [] + [t] == [t];
  }

  /**
   * A task is in a shown group exactly when it is one of the tasks and the
   * group is named after its project.
   */
  lemma TaskInGroupIff(tasks: seq<Task>, t: Task)
    ensures var r := GroupAndSort(tasks);
      r.Some? ==> forall j :: 0 <= j < |r.value| ==> (t in r.value[j].tasks <==> t in tasks && ProjectName(t) == r.value[j].name)
  {
    var r := GroupAndSort(tasks);
    if r.Some? {
      var v := r.value;
      forall j | 0 <= j < |v|
        ensures t in v[j].tasks <==> t in tasks && ProjectName(t) == v[j].name
      {
        assert v[j].tasks == Filter(tasks, InProject(v[j].name));
        if t in tasks && ProjectName(t) == v[j].name {
          var i :| 0 <= i < |tasks| && tasks[i] == t;
        }
      }
    }
  }

  /**
   * When the groups are shown, every task lands in exactly one of them: the
   * one named after its project, and no other.
   */
  lemma EachTaskInExactlyOneGroup(tasks: seq<Task>, i: int)
    requires 0 <= i < |tasks|
    ensures var r := GroupAndSort(tasks);
      r.Some? ==> exists j :: 0 <= j < |r.value| && tasks[i] in r.value[j].tasks
    ensures var r := GroupAndSort(tasks);
      r.Some? ==> forall j, k :: 0 <= j < k < |r.value| ==> !(tasks[i] in r.value[j].tasks && tasks[i] in r.value[k].tasks)
  {
    var r := GroupAndSort(tasks);
    if r.Some? {
      var v := r.value;
      var names := Names(v);
      SortedIsDistinct(names);
      assert ProjectNames(tasks)[i] in ProjectNames(tasks);
      var j :| 0 <= j < |v| && names[j] == ProjectName(tasks[i]);
      TaskInGroupIff(tasks, tasks[i]);
      assert tasks[i] in v[j].tasks;
      forall j1, k1 | 0 <= j1 < k1 < |v|
        ensures !(tasks[i] in v[j1].tasks && tasks[i] in v[k1].tasks)
      {
        assert names[j1] != names[k1];
      }
    }
  }

  /** Every shown group is non-empty. */
  lemma NoEmptyGroup(tasks: seq<Task>)
    ensures var r := GroupAndSort(tasks);
      r.Some? ==> forall j :: 0 <= j < |r.value| ==> |r.value[j].tasks| > 0
  {
    var r := GroupAndSort(tasks);
    if r.Some? {
      var v := r.value;
      forall j | 0 <= j < |v|
        ensures |v[j].tasks| > 0
      {
        var n := v[j].name;
        assert n in Names(v);
        var i :| 0 <= i < |tasks| && ProjectNames(tasks)[i] == n;
        TaskInGroupIff(tasks, tasks[i]);
        assert tasks[i] in v[j].tasks;
      }
    }
  }

  /** "General", when some task has no project, is the first shown group. */
  lemma GeneralFirst(tasks: seq<Task>)
    requires General in ProjectNames(tasks)
    ensures var r := GroupAndSort(tasks);
      r.Some? ==> |r.value| > 0 && r.value[0].name == General
  {
    var r := GroupAndSort(tasks);
    if r.Some? {
      var names := Names(r.value);
      var j :| 0 <= j < |r.value| && names[j] == General;
      assert !ProjectBefore(names[0], General);
    }
  }

  /** The list view: search, then group. */
  function TaskListView(tasks: seq<Task>, query: string): Option<seq<Group>> {
    GroupAndSort(Search(tasks, query))
  }
}

=== FILE: tasks_page.dfy ===
/**
 * The tasks page (app/tasks/page.tsx): list, board and matrix views, the
 * selected task, a details dialog for the board and matrix views, and
 * completion with a mood.
 */
module TasksPage {
  import opened Wrappers
  import opened Types
  import opened Lookup
  import opened MoodProtocol

  datatype View = ListView | BoardView | MatrixView

  /** The task the mood prompt is about. */
  datatype TaskRef = TaskRef(id: string, title: string)

  datatype Page = Page(view: View, selectedTaskId: Option<string>, moodModalOpen: bool, moodTask: Option<TaskRef>)

  const Initial: Page := Page(ListView, None, false, None)

  /** `handleToggleTask`: unknown ids do nothing; completing asks for a mood; un-completing writes at once. */
  function HandleToggleTask(pg: Page, tasks: seq<Task>, id: string): (r: (Page, seq<Effect>))
    ensures FindTask(tasks, id).None? ==> r == (pg, [])
    ensures FindTask(tasks, id).Some? && !FindTask(tasks, id).value.completed ==>
      r == (pg.(moodModalOpen := true, moodTask := Some(TaskRef(id, FindTask(tasks, id).value.title))), [])
    ensures FindTask(tasks, id).Some? && FindTask(tasks, id).value.completed ==>
      r == (pg, [SetTaskCompleted(id, false)])
  {
    match FindTask(tasks, id)
    case None => (pg, [])
    case Some(t) =>
      if !t.completed then (pg.(moodModalOpen := true, moodTask := Some(TaskRef(t.id, t.title))), [])
      else (pg, [SetTaskCompleted(id, false)])
  }

  /** `handleMoodSelect`: log the mood with the task's note, complete the task, close the prompt. */
  function HandleMoodSelect(pg: Page, mood: Option<Mood>): (r: (Page, seq<Effect>))
    ensures pg.moodTask.None? ==> r == (pg, [])
    ensures pg.moodTask.Some? ==>
      && r.0 == pg.(moodModalOpen := false, moodTask := None)
      && r.1 == [LogMood(MoodValue(mood), TaskNotePrefix + pg.moodTask.value.title, None),
                 SetTaskCompleted(pg.moodTask.value.id, true)]
  {
    match pg.moodTask
    case None => (pg, [])
    case Some(t) =>
      (pg.(moodModalOpen := false, moodTask := None),
       [LogMood(MoodValue(mood), CompletionNote(true, t.title), None), SetTaskCompleted(t.id, true)])
  }

  /** Toggling an open task and choosing a mood completes exactly that task. */
  lemma ToggleThenMoodCompletes(pg: Page, tasks: seq<Task>, i: int, mood: Option<Mood>)
    requires 0 <= i < |tasks| && !tasks[i].completed
    requires forall j :: 0 <= j < i ==> tasks[j].id != tasks[i].id
    ensures var (pg', effects) := HandleToggleTask(pg, tasks, tasks[i].id);
      effects == [] && HandleMoodSelect(pg', mood).1 ==
        [LogMood(MoodValue(mood), TaskNotePrefix + tasks[i].title, None), SetTaskCompleted(tasks[i].id, true)]
  {
    var r := FindTask(tasks, tasks[i].id);
    var k :| 0 <= k < |tasks| && tasks[k] == r.value && forall j :: 0 <= j < k ==> tasks[j].id != tasks[i].id;
    assert k == i;
  }

  /** The view switcher: changing the view also clears the selection. */
  function ChangeView(pg: Page, v: View): (r: Page)
    ensures r.view == v && r.selectedTaskId.None?
  {
    pg.(view := v, selectedTaskId := None)
  }

  function SelectTask(pg: Page, id: string): Page {
    pg.(selectedTaskId := Some(id))
  }

  /** `!!(view !== "list" && selectedTaskId)`: an empty id counts as no selection. */
  predicate DetailsDialogOpen(pg: Page) {
    pg.view != ListView && pg.selectedTaskId.Some? && pg.selectedTaskId.value != ""
  }

  /** Closing the dialog clears the selection; opening it changes nothing. */
  function DialogOpenChange(pg: Page, open: bool): Page {
    if !open then pg.(selectedTaskId := None) else pg
  }

  /** The details pane of the list view shows the selected task when it exists. */
  function ListDetails(pg: Page, tasks: seq<Task>): Option<Task> {
    if pg.view == ListView && pg.selectedTaskId.Some? then FindTask(tasks, pg.selectedTaskId.value) else None
  }

  /** After a view change no dialog is open, whatever was selected before. */
  lemma ChangeViewClosesDialog(pg: Page, v: View)
    ensures !DetailsDialogOpen(ChangeView(pg, v))
  {
  }

  /** Picking a task on the board or the matrix opens the dialog; closing it clears the pick. */
  lemma SelectOpensDialog(pg: Page, id: string)
    requires pg.view != ListView && id != ""
    ensures DetailsDialogOpen(SelectTask(pg, id))
    ensures !DetailsDialogOpen(DialogOpenChange(SelectTask(pg, id), false))
  {
  }

  /** The list view never shows the dialog. */
  lemma ListViewHasNoDialog(pg: Page)
    requires pg.view == ListView
    ensures !DetailsDialogOpen(pg)
  {
  }
}

=== FILE: text.dfy ===
/**
 * The string primitives the source borrows from JavaScript: `trim`,
 * ASCII case mapping, `startsWith`, `includes`, `indexOf`, `replace` with a
 * string pattern (first occurrence only), decimal rendering and `padStart`,
 * and a lexicographic order standing in for `localeCompare`.
 */
module Text {
  import opened Wrappers

  /** The characters `String.prototype.trim` removes (WhiteSpace and LineTerminator). */
  predicate IsJsSpace(c: char) {
    || c == ' ' || c == '\t' || c == '\n' || c == '\r'
    || c == '\U{000B}' || c == '\U{000C}' || c == '\U{00A0}' || c == '\U{FEFF}'
    || c == '\U{1680}' || ('\U{2000}' <= c <= '\U{200A}')
    || c == '\U{2028}' || c == '\U{2029}' || c == '\U{202F}' || c == '\U{205F}'
    || c == '\U{3000}'
  }

  /** Drops leading whitespace. */
  function TrimStart(s: string): (r: string)
    ensures |r| <= |s| && r == s[|s| - |r|..]
    ensures forall k :: 0 <= k < |s| - |r| ==> IsJsSpace(s[k])
    ensures r == [] || !IsJsSpace(r[0])
  {
    if |s| > 0 && IsJsSpace(s[0]) then TrimStart(s[1..]) else s
  }

  /** Drops trailing whitespace. */
  function TrimEnd(s: string): (r: string)
    ensures |r| <= |s| && r == s[..|r|]
    ensures forall k :: |r| <= k < |s| ==> IsJsSpace(s[k])
    ensures r == [] || !IsJsSpace(r[|r| - 1])
  {
    if |s| > 0 && IsJsSpace(s[|s| - 1]) then TrimEnd(s[..|s| - 1]) else s
  }

  /**
   * `s.trim()`: no longer than `s`, white space at neither end, and empty
   * exactly when `s` is all white space.
   */
  function Trim(s: string): (r: string)
    ensures |r| <= |s|
    ensures r == [] || (!IsJsSpace(r[0]) && !IsJsSpace(r[|r| - 1]))
    ensures r == [] <==> forall k :: 0 <= k < |s| ==> IsJsSpace(s[k])
  {
    TrimEnd(TrimStart(s))
  }

  /** `!s.trim()`: the string is empty once trimmed. */
  predicate IsBlank(s: string) {
    Trim(s) == ""
  }

  /** A string is blank exactly when every character in it is whitespace. */
  lemma BlankIffAllSpace(s: string)
    ensures IsBlank(s) <==> forall k :: 0 <= k < |s| ==> IsJsSpace(s[k])
  {
  }

  /** ASCII upper-casing of one character. */
  function UpperChar(c: char): char {
    if 'a' <= c <= 'z' then (c as int - 32) as char else c
  }

  /** ASCII lower-casing of one character. */
  function LowerChar(c: char): char {
    if 'A' <= c <= 'Z' then (c as int + 32) as char else c
  }

  /** `s.toUpperCase()` restricted to ASCII letters. */
  function ToUpper(s: string): (r: string)
    ensures |r| == |s|
  {
    seq(|s|, i requires 0 <= i < |s| => UpperChar(s[i]))
  }

  /**
   * `s.toLowerCase()` restricted to ASCII letters: no upper-case letter is
   * left, and only the case of letters changes.
   */
  function ToLower(s: string): (r: string)
    ensures |r| == |s|
    ensures forall i :: 0 <= i < |r| ==> !('A' <= r[i] <= 'Z')
    ensures forall i :: 0 <= i < |s| ==> UpperChar(r[i]) == UpperChar(s[i])
  {
    seq(|s|, i requires 0 <= i < |s| => LowerChar(s[i]))
  }

  /** `s.startsWith(p)`. */
  predicate StartsWith(s: string, p: string) {
    |p| <= |s| && s[..|p|] == p
  }

  /** `p` occurs in `s` starting at index `i`. */
  predicate OccursAt(s: string, p: string, i: int) {
    0 <= i && i + |p| <= |s| && s[i..i + |p|] == p
  }

  /** The first index at or after `from` where `p` occurs in `s`. */
  function IndexFrom(s: string, p: string, from: nat): (r: Option<nat>)
    requires from <= |s|
    ensures r.Some? ==> from <= r.value && OccursAt(s, p, r.value)
    ensures r.Some? ==> forall k :: from <= k < r.value ==> !OccursAt(s, p, k)
    ensures r.None? ==> forall k :: from <= k ==> !OccursAt(s, p, k)
    decreases |s| - from
  {
    if OccursAt(s, p, from) then Some(from)
    else if from + |p| >= |s| then None
    else IndexFrom(s, p, from + 1)
  }

  /** `s.indexOf(p)`, with `None` for -1. */
  function IndexOf(s: string, p: string): Option<nat> {
    IndexFrom(s, p, 0)
  }

  /** `s.includes(p)`. */
  predicate Contains(s: string, p: string) {
    IndexOf(s, p).Some?
  }

  /** `includes` holds exactly when some position of `s` starts a copy of `p`. */
  lemma ContainsIffOccurs(s: string, p: string)
    ensures Contains(s, p) <==> exists k :: OccursAt(s, p, k)
  {
  }

  /**
   * `s.replace(p, r)` with a string pattern: without an occurrence of `p` the
   * string is unchanged; otherwise its first occurrence, and only that one, is
   * replaced.
   */
  function ReplaceFirst(s: string, p: string, r: string): (x: string)
    ensures (forall k :: !OccursAt(s, p, k)) ==> x == s
    ensures forall i :: OccursAt(s, p, i) && (forall k :: 0 <= k < i ==> !OccursAt(s, p, k)) ==>
      x == s[..i] + r + s[i + |p|..]
  {
    match IndexOf(s, p)
    case None => s
    case Some(i) => s[..i] + r + s[i + |p|..]
  }

  /** Replacing a prefix that a string was built with gives back the rest. */
  lemma ReplacePrefixRecovers(p: string, t: string)
    ensures ReplaceFirst(p + t, p, "") == t
  {
    assert OccursAt(p + t, p, 0);
    assert (p + t)[|p|..] == t;
  }

  const Digits: string := "0123456789"

  predicate IsDigit(c: char) {
    '0' <= c <= '9'
  }

  function DigitValue(c: char): (v: nat)
    requires IsDigit(c)
    ensures v < 10 && Digits[v] == c
  {
    c as int - '0' as int
  }

  /** The decimal rendering of a natural number (`n.toString()`). */
  function NatToString(n: nat): (s: string)
    ensures |s| >= 1
    ensures forall k :: 0 <= k < |s| ==> IsDigit(s[k])
    ensures n >= 10 ==> s[0] != '0'
  {
    if n < 10 then [Digits[n]] else NatToString(n / 10) + [Digits[n % 10]]
  }

  /** The value of a string of decimal digits. */
  function ParseDigits(s: string): nat
    requires forall k :: 0 <= k < |s| ==> IsDigit(s[k])
  {
    if s == [] then 0 else 10 * ParseDigits(s[..|s| - 1]) + DigitValue(s[|s| - 1])
  }

  /** Reading back a rendered number gives the number. */
  lemma {:induction false} ParseNatToString(n: nat)
    ensures ParseDigits(NatToString(n)) == n
  {
    var s := NatToString(n);
    if n >= 10 {
      assert s[..|s| - 1] == NatToString(n / 10);
      ParseNatToString(n / 10);
    }
  }

  /** Leading zeros do not change the value of a digit string. */
  lemma {:induction false} ParseDigitsLeadingZero(s: string)
    requires forall k :: 0 <= k < |s| ==> IsDigit(s[k])
    ensures ParseDigits("0" + s) == ParseDigits(s)
    decreases |s|
  {
    if s != [] {
      assert ("0" + s)[..|"0" + s| - 1] == "0" + s[..|s| - 1];
      ParseDigitsLeadingZero(s[..|s| - 1]);
    }
  }

  /** `s.padStart(2, "0")`. */
  function PadStart2(s: string): (r: string)
    ensures |r| == if |s| < 2 then 2 else |s|
    ensures r[|r| - |s|..] == s
    ensures forall k :: 0 <= k < |r| - |s| ==> r[k] == '0'
  {
    if |s| == 0 then "00" else if |s| == 1 then "0" + s else s
  }

  /** Strict lexicographic order on code points, standing in for `localeCompare`. */
  predicate LexLess(a: string, b: string) {
    if a == [] then b != []
    else if b == [] then false
    else if a[0] != b[0] then a[0] < b[0]
    else LexLess(a[1..], b[1..])
  }

  lemma {:induction false} LexLessIrreflexive(a: string)
    ensures !LexLess(a, a)
  {
    if a != [] { LexLessIrreflexive(a[1..]); }
  }

  lemma {:induction false} LexLessTransitive(a: string, b: string, c: string)
    requires LexLess(a, b) && LexLess(b, c)
    ensures LexLess(a, c)
  {
    if a != [] && b != [] && c != [] && a[0] == b[0] && b[0] == c[0] {
      LexLessTransitive(a[1..], b[1..], c[1..]);
    }
  }

  lemma {:induction false} LexLessTotal(a: string, b: string)
    requires a != b
    ensures LexLess(a, b) || LexLess(b, a)
  {
    if a != [] && b != [] && a[0] == b[0] {
      assert a == [a[0]] + a[1..] && b == [b[0]] + b[1..];
      LexLessTotal(a[1..], b[1..]);
    }
  }

  lemma {:induction false} LexLessAsymmetric(a: string, b: string)
    requires LexLess(a, b)
    ensures !LexLess(b, a)
  {
    if a != [] && b != [] && a[0] == b[0] {
      LexLessAsymmetric(a[1..], b[1..]);
    }
  }
}

=== FILE: types.dfy ===
/**
 * The records the client receives from the server (lib/types.ts), reduced to
 * the fields the modelled logic reads. Dates are calendar days; a mood log
 * carries the instant it was written, in milliseconds.
 */
module Types {
  import opened Wrappers
  import opened Calendar

  datatype Project = Project(id: string, name: string)

  /**
   * A task. `date` is the day it is scheduled for, `dueDate` the day it is
   * due; either may be absent.
   */
  datatype Task = Task(
    id: string,
    title: string,
    description: Option<string>,
    completed: bool,
    priority: string,
    date: Option<Day>,
    dueDate: Option<Day>,
    project: Option<Project>
  )

  /** One per-day completion record of a habit. */
  datatype HabitLog = HabitLog(day: Day, completed: bool)

  /** A habit with its frequency tokens (e.g. ["DAILY"] or ["MON", "WED"]) and its logs. */
  datatype Habit = Habit(
    id: string,
    title: string,
    frequency: seq<string>,
    goal: int,
    logs: seq<HabitLog>
  )

  /** A mood entry: a value (1..5 when written by the client), an optional note, an instant. */
  datatype MoodLog = MoodLog(mood: int, note: Option<string>, at: int)
}

=== FILE: wrappers.dfy ===
/** Optional values: the model's stand-in for `undefined` / `null` in the source. */
module Wrappers {

  datatype Option<+T> = None | Some(value: T) {

    /** The wrapped value, or `default` when there is none (the source's `??`). */
    function GetOr(default: T): T {
      match this
      case Some(v) => v
      case None => default
    }
  }
}
